=== FILE: README.md ===
# react-mentions: the markup engine and the MentionsInput bookkeeping, in Dafny

react-mentions keeps a marked-up value such as `Hello @[John](1), how are you?`
behind a plain textarea that shows `Hello John, how are you?`. Each mention is
written with a template (by default `@[__display__](__id__)`). The template is
compiled to a global regular expression. A single traversal of the value,
`iterateMentionsMarkup`, then drives everything else:
- the plain text (`getPlainText`);
- the translation of plain-text offsets into offsets of the value
  (`mapPlainTextIndex`, `findStartOfMentionInPlainText`, `isInsideOfMention`);
- the list of mentions (`getMentions`);
- the reconciliation of a textarea edit back into the value
  (`applyChangeToValue`).

The `MentionsInput` component holds the current value and the selection. It
runs query rounds for its Mention children and files their suggestions by
mention type. It also moves the focus among the suggestions and inserts the
chosen mention.

This project models `src/utils.js` together with its compiled twin
`lib/utils.js`, which honours `treatMentionAsUnit`; the two copies differ in
behaviour only in that gate. It also models the bookkeeping parts of
`src/MentionsInput.js`.

Modules, one file each:
- `Wrappers`: `Option` and `Result`.
- `JsString`: `substring`, `slice`, `s[i]`, `indexOf`, `lastIndexOf`, first-occurrence `replace` and `%`, all as JavaScript defines them. Clamping, `undefined` and `-1` are written out.
- `JsObject`: plain objects used as dictionaries. Keys are kept in enumeration order. Also `extend`.
- `Escaping`: `createEscaper` and `escapeHtml` (src/utils.js:22-41, the same code as lib/utils.js:41-60).
- `Regex`: the patterns `markupToRegex` builds, which are literal characters, lazy `(.+?)` groups and an optional trailing `$`.
  - A backtracking matcher in ECMAScript's preference order.
  - A `RegExp` class with a `lastIndex` field, whose `Exec` follows RegExpBuiltinExec (section 22.2.7.2 of ECMA-262, 2023 edition).
- `Markup`: `escapeRegex`, `markupToRegex` and `computeCapturingGroupPositions`, plus the `Registry` class holding the two module caches.
- `Scanner`: the traversal as a list of events (text runs and mentions), which callbacks stop it, and the regex cursor it leaves behind.
- `Offsets`: `mapPlainTextIndex`, `findStartOfMentionInPlainText` and `isInsideOfMention`.
- `Mentions`: `getMentions` and `makeMentionsMarkup`.
- `Reconciler`: `spliceString` and `applyChangeToValue`.
- `Utils`: the imperative code:
  - the `exec` loop and the cache lookups;
  - each utility as it runs against the shared cached regex;
  - the diff loop.
- `Suggestions`: `countSuggestions`, `getSuggestions`, `getSuggestion` and the array data provider.
- `StaleCursor`: the worked example of the first finding below.
- `Input`: the `MentionsInput` component as a class.

Modelling choices:
- **The shared regex cursor.** The compiled regex is cached per template and carries the `g` flag. Each utility therefore starts its search at whatever `lastIndex` the previous one left behind.
  - The methods of `Utils` do exactly that, on `RegExp` objects held in the `Registry`.
  - Each is proved equal to a pure function that threads the cursor through (`Offsets.MapFrom`, `Offsets.FindStartFrom`, `Reconciler.ApplyChangeAsWritten`).
  - The fresh-cursor functions (`Offsets.MapPlainTextIndex`, `Reconciler.ApplyChange`, ...) are the corrected definitions. The component model uses them.
- **The traversal's callbacks.** They are modelled as one predicate `halt` on events. The closures that write an outer `result` become a look at the last event visited.
- **`src` and `lib` versions of `applyChangeToValue`.** They differ only in the gate on mention removal. That gate is the parameter `unit`:
  - `true` for `src/utils.js`, which takes seven parameters and ignores the `treatMentionAsUnit` that `MentionsInput` passes;
  - the flag itself for `lib/utils.js`.
- **Dynamic values.** The argument `isNumber` tests is `Offsets.IndexArg`. The `'undefined'` selection sentinels are `Reconciler.Bound`. A `null` mapping is `Offsets.NullOffset`.
- **Strings and integers.** Each `char` of a string stands for one UTF-16 code unit of the source's string, so only text in the Basic Multilingual Plane is represented (see "## Left out"). Integers are unbounded: every index in play is far below 2^53.
- **The gate on mention removal.** lib/utils.js:296 removes a mention only when `treatMentionAsUnit` is set, and src/MentionsInput.js:296 passes that flag. src/MentionsInput.js:309-317 snaps the caret to the mention's start under the same flag. `src/utils.js` has no such gate and removes the mention whatever the flag.
- **`clearSuggestions`.** The component model runs it as written (src/MentionsInput.js:587-603): the state's suggestions are emptied and `this.suggestions` is kept. `ClearSuggestionsForgetting`, which also empties `this.suggestions`, is the corrected clear of the second finding and is used only to state that finding.

## Model

| member | source | states |
|---|---|---|
| JsString.Substring | src/utils.js:69-71 | `substring(a, b)` with both ends in range is the slice between them, in either order |
| JsString.SubstringFrom | src/utils.js:271 | `substring(a)` is the suffix from `a`; the whole string for a negative `a`; empty past the end |
| JsString.Slice | src/utils.js:236 | `slice(a, b)` is the slice between in-range ends, and empty when the resolved start (a negative end counting from the string's end) is not before the resolved end |
| JsString.CharAt | src/utils.js:264 | `s[i]` is defined exactly for an index inside the string, and is then the character there |
| JsString.IndexOfFromSpec | src/MentionsInput.js:581 | `indexOf(needle, from)` is an occurrence at or after `from` with none between `from` and it, or -1 when there is none at all |
| JsString.IndexOfSpec | src/utils.js:99 | `indexOf` is the first occurrence, or -1 when the needle does not occur |
| JsString.LastIndexAtOrBelowSpec | src/utils.js:271 | the downward search from `k` finds the last occurrence at or before `k`, or -1 |
| JsString.LastIndexOfSpec | src/utils.js:271 | `lastIndexOf` is the last occurrence, or -1 when the needle does not occur |
| JsString.JsRemainder | src/MentionsInput.js:411 | JavaScript's `%` agrees with the mathematical remainder for a non-negative dividend and a positive divisor |
| JsObject.PutFacts | src/utils.js:79 | after `obj[prop] = v`: `prop` reads `v`, every other key reads as before, validity is kept and existing keys keep their places |
| JsObject.AssignKeysGet | src/utils.js:77-81 | copying keys of a source: each copied key takes the source's value, every other key keeps its value |
| JsObject.AssignKeysShape | src/utils.js:77-81 | copying keys keeps the object valid, and the keys already there keep their places |
| JsObject.ExtendAllGet | src/utils.js:73-84 | `extend`: each key takes its value from the last source that has it, a key no source has keeps its value, the target stays valid and its keys keep their places |
| JsObject.CopyKeys | src/utils.js:77-81 | copying distinct keys onto `{}` enumerates exactly those keys, in order |
| JsObject.CopyIsSame | src/utils.js:73-84 | `extend({}, o)` is a copy of `o`: same keys, same order, same values |
| JsObject.ExtendCopyThenPut | src/MentionsInput.js:642 | `extend({}, current, { [k]: v })` is `current` with `k` set to `v` |
| JsObject.Extend | src/utils.js:73-84 | the two nested loops leave the object `ExtendAll` describes, whose meaning `ExtendAllGet` states |
| Escaping.CreateEscaper | lib/utils.js:41-56 | the `for…in` loop collects the map's own keys in enumeration order; with non-empty keys the escaper is well formed |
| Escaping.FirstKey | lib/utils.js:49-51 | the alternation takes a key that is a prefix of the text, and fails only when no key is |
| Escaping.FirstKeySingle | lib/utils.js:49-51 | with one-character keys, the alternation takes the first character exactly when it is a key |
| Escaping.NoKeyNoChange | lib/utils.js:54 | without a key in the text, the replacement changes nothing, so the `test` is only a shortcut |
| Escaping.EscapeIsReplace | lib/utils.js:52-55 | the escaper is the replacement of every key, and turns `null`/`undefined` into "" |
| Escaping.HtmlTable | lib/utils.js:33-40 | a character is a key of `escapeMap` exactly when it is one of the six specials, and then maps to its entity |
| Escaping.HtmlStep | lib/utils.js:33-60 | `escapeHtml` works one character at a time: each special becomes its entity, any other character is copied |
| Escaping.EscapeHtmlMissing | lib/utils.js:53 | `escapeHtml(null)` and `escapeHtml(undefined)` are "" |
| Escaping.EscapeHtmlPlain | lib/utils.js:60 | a string without any of the six special characters comes back unchanged |
| Escaping.EscapeHtmlSafe | lib/utils.js:60 | after escaping, the only special character left is the `&` that opens an entity |
| Escaping.EscapeHtmlRoundTrip | lib/utils.js:33-60 | decoding the six entities gives the original string back, so escaping loses nothing |
| Regex.MatchFrom | src/utils.js:47-57 | a match ends within the text, consumes at least one character per atom, has one capture per group, and ends at the end when anchored |
| Regex.MatchFromSound | src/utils.js:47-57 | a match spells out exactly the text it covers, and every capture is non-empty with no line terminator |
| Regex.LazyGroupSound | src/utils.js:49-51 | the same for a lazy `(.+?)` group, however far it has grown |
| Regex.SliceCapturable | src/utils.js:49-51 | any non-empty stretch without line terminators is a text a lazy group can capture |
| Regex.FirstMatch | src/utils.js:131 | the search from `lastIndex` finds a match at or after it, and no match starts between `lastIndex` and the one found |
| Regex.RegExp.constructor | src/utils.js:56 | a new regex holds its pattern, with `lastIndex` 0 |
| Regex.RegExp.Exec | src/utils.js:131 | `exec` returns the first match from `lastIndex` on, and leaves `lastIndex` at the match's end, or at 0 after a failure |
| Markup.EscapeRegexConcat | src/utils.js:43-45 | `escapeRegex` works character by character |
| Markup.EscapeRegexLength | src/utils.js:43-45 | the output is one character longer than the input for each regex special character it holds |
| Markup.UnescapeEscapeRegex | src/utils.js:43-45 | dropping each escaping backslash gives the input back, so every other character is copied unchanged |
| Markup.Literal | src/utils.js:48 | the escaped template, as a pattern, is one literal atom per character of the template |
| Markup.IndicesOf | src/utils.js:99 | the index of each placeholder is its `indexOf` in the template |
| Markup.IndicesDistinct | src/utils.js:93 | two placeholders never start at the same index, which the inversion at :98-99 relies on |
| Markup.DifferentThirdChar | src/utils.js:99 | needles that differ in their third character never occur at the same index |
| Markup.RankOrder | src/utils.js:97-101 | the ranks of the present placeholders follow their order in the template and lie in 1..(number present) |
| Markup.RankPositions | src/utils.js:97-108 | the positions built from the ranks, with a missing id or display sharing the other's, keep that order and range |
| Markup.PositionsFollowTemplate | src/utils.js:90-111 | an error exactly when neither `__id__` nor `__display__` is present; otherwise 1-based positions in template order, a missing id or display sharing the other's group, a type group exactly when `__type__` is present |
| Markup.GrammarOfParts | src/utils.js:123-124 | a template's grammar is its compiled regex together with its computed positions |
| Markup.GrammarOfFails | src/utils.js:103-104 | a template is rejected exactly when its positions cannot be computed |
| Markup.DefaultIndices | src/MentionsInput.js:50 | in the default template the display comes first (index 2), the id second (index 15), and there is no type |
| Markup.DefaultPositions | src/utils.js:90-111 | the default template puts the display in group 1 and the id in group 2 |
| Markup.DefaultRegex | src/utils.js:47-57 | the default template compiles to `@\[(.+?)\]\((.+?)\)` |
| Markup.DefaultGrammarOf | src/MentionsInput.js:50 | the default template is accepted and its grammar is well formed |
| Markup.Registry.constructor | src/utils.js:11-12 | both module caches start empty |
| Markup.Registry.UseMarkupRegex | src/utils.js:60-62 | the supplied regex if any, else the cached one, else a freshly compiled one; the cache entry is left equal to the result |
| Markup.Registry.GetMarkupRegex | src/utils.js:65-67 | the cached regex, or a fresh one with `lastIndex` 0, which is then cached |
| Markup.Registry.CacheAdd | src/utils.js:116 | storing a computed entry keeps every cached entry equal to what would be computed |
| Markup.Registry.GetCapturingGroupPositions | src/utils.js:113-117 | the result is always the computed positions; a success is cached and an error is not |
| Scanner.WalkShape | src/utils.js:126-151 | from any start and cursor, the events tile the rest of the value back to back and alternate text run / mention, with no empty trailing run |
| Scanner.EventsShape | src/utils.js:122-152 | with a fresh cursor, the events tile the whole value from offset 0 in both texts |
| Scanner.TilesMarkup | src/utils.js:139-150 | the events spell out the value |
| Scanner.TilesOffsets | src/utils.js:139-144 | each event starts at the total length of the earlier events' markup, and at the total length of their plain text |
| Scanner.TilesOrdered | src/utils.js:131-147 | events never overlap, in the value or in the plain text |
| Scanner.TilesBounds | src/utils.js:131-147 | every event lies within the value |
| Scanner.ProjectIsPlainOfEvents | src/utils.js:283-296 | `getPlainText` equals the plain text the traversal accumulates |
| Scanner.ProjectIsPlainOfWalk | src/utils.js:287-295 | the same from any position of the value |
| Scanner.PlainAtOffset | src/utils.js:141-144 | each event's plain text sits at its plain offset in `getPlainText` |
| Scanner.Visited | src/utils.js:140-143 | the callbacks made are the events up to and including the first that returns true, or all of them |
| Scanner.RunBefore | src/utils.js:139-140 | a round's text run covers exactly the text between the last match's end and the next match |
| Scanner.MentionAt | src/utils.js:133-143 | a round's mention covers exactly the match, at the plain offset after the run, with the captured id, display and type |
| Scanner.WalkStep | src/utils.js:131-146 | one round: the run before the next match, its mention, then the rest from the match's end |
| Scanner.WalkLast | src/utils.js:149-151 | with no match left, only the trailing text, and only when it is not empty |
| Scanner.VisitedUpTo | src/utils.js:140-143 | the callbacks made end at the first event that returns true |
| Scanner.ResumeCursorAt | src/utils.js:140-146 | after a stop, `lastIndex` is the end of the current match (0 after a stop on the trailing run) |
| Scanner.ResumeCursorNoStop | src/utils.js:131-147 | when no callback stops the loop, every event is visited and `lastIndex` is back at 0 |
| Scanner.ResumeCursorAfterStop | src/utils.js:140-146 | a stop while a match is current leaves `lastIndex` past that match's first character, not at 0 |
| Scanner.MentionFollows | src/utils.js:131-147 | every mention is non-empty, and every text run but the last is followed by a mention |
| Offsets.MapFrom | src/utils.js:161-189 | a non-number passes through with the cursor untouched; with START or END a number always maps to an offset |
| Offsets.MapPlainTextIndexFirst | src/utils.js:161-189 | the first event whose test passes decides the mapped index; when none passes, it is the value's length |
| Offsets.MapFromFirst | src/utils.js:161-189 | the same from any cursor, together with the cursor the lookup leaves behind |
| Offsets.MapPlainTextIndexInRun | src/utils.js:167-173 | an index within a text run's plain text maps to the same place in that run of the value |
| Offsets.MapPlainTextIndexInMention | src/utils.js:174-182 | an index strictly inside a mention's display maps to the mention's first character (START), past its last (END), or to null (NULL) |
| Offsets.MapPlainTextIndexPastEnd | src/utils.js:186-188 | an index past the end of the plain text maps to the end of the value |
| Offsets.DecidingEvent | src/utils.js:161-189 | for a non-negative index, the deciding event, and a text run decides only for an index within its plain text |
| Offsets.MapPlainTextIndexKeepsMentionsWhole | src/utils.js:154-160 | with START or END, a non-negative index maps into the value and never strictly inside a mention's markup |
| Offsets.MapPlainTextIndexMonotone | src/utils.js:161-189 | with START or END, mapping keeps the order of non-negative indices |
| Offsets.FirstCovering | src/utils.js:196-201 | the first event whose display covers the index, and no earlier one covers it |
| Offsets.FindStartOfMentionInPlainText | src/utils.js:194-205 | the plain start of the first mention covering the index, or nothing |
| Offsets.FindStartOfMentionMeans | src/utils.js:191-205 | a start is found exactly when some mention's display covers the index, and it is that mention's plain start |
| Offsets.IsInsideOfMentionMeans | src/utils.js:207-211 | inside a mention exactly when some mention's display starts strictly before the index and ends strictly after it |
| Mentions.Records | src/utils.js:300-308 | at most one record per event |
| Mentions.NthMention | src/utils.js:300-308 | each record comes from a mention event |
| Mentions.NthMentionIncreasing | src/utils.js:300-308 | later records come from later events |
| Mentions.RecordsComplete | src/utils.js:300-308 | every mention callback leaves its record |
| Mentions.GetMentionsSound | src/utils.js:298-310 | every record `getMentions` returns comes from a mention of the value |
| Mentions.GetMentionsComplete | src/utils.js:298-310 | every mention of the value has its record, since nothing stops the traversal |
| Mentions.GetMentionsPlaced | src/utils.js:298-310 | each record's untransformed display sits at its `plainTextIndex` in the untransformed plain text, and its `index` lies within the value |
| Mentions.GetMentionsOrdered | src/utils.js:298-310 | records come in increasing `index` order, and their displays do not overlap in the plain text |
| Mentions.NoTypeInDefaultMention | src/utils.js:315 | `__type__` cannot straddle the brackets of `@[display](id)` |
| Mentions.MakeMentionsMarkupDefault | src/utils.js:312-317 | with the default template, `makeMentionsMarkup` gives `@[display](id)` whatever the type, when neither part contains `__type__` |
| Mentions.DefaultMentionMatches | src/utils.js:131 | the default pattern matches `@[display](id)` whole, capturing the display and the id |
| Mentions.MentionReadsBack | src/utils.js:312-317 | round trip: the markup `makeMentionsMarkup` builds reads back as exactly one mention with the same id and display, and its plain text is the display |
| Reconciler.SpliceString | src/utils.js:69-71 | for bounds in order within the string: the prefix before `a`, the insert, then the suffix from `b`; the length drops by `b - a` and grows by the insert's |
| Reconciler.SpliceStringEmpty | lib/utils.js:91-93 | an empty splice at `a` changes nothing |
| Reconciler.PlanEditTyping | src/utils.js:216-245 | typing `t` over a selection is read back as that edit, and applying it to the old plain text gives the new one |
| Reconciler.PlanEditBackspace | src/utils.js:238-239 | Backspace removes the character before the caret |
| Reconciler.PlanEditDelete | src/utils.js:241-245 | Delete removes the character after the caret: the splice end is widened by the length lost |
| Reconciler.PlanEditComposed | src/utils.js:227-233 | a composed character replaces the one before the caret: the start steps back by one |
| Reconciler.PlanEditUndefined | src/utils.js:219-225 | with both bounds `'undefined'`, the old caret is the new one moved back by the length gained |
| Reconciler.FirstDifference | src/utils.js:263-265 | the diff loop stops at the first index where the two texts differ, an end counting as `undefined` |
| Reconciler.MapBounds | src/utils.js:247-251 | with fresh cursors, the four lookups are the START and END maps and the NULL maps of the splice bounds |
| Reconciler.ApplyChangeWith | lib/utils.js:296-321 | the naive splice stands when the gate is on and a bound lands inside a mention, or when re-projecting it gives the new plain text; otherwise the result is the repair of that re-projection |
| Reconciler.Repair | src/utils.js:259-277 | the repair splices the new text from the first difference up to the caret, between the START map of that difference and the END map of the unchanged remainder |
| Reconciler.ApplyChangeRemovesMention | src/utils.js:247-256 | with mentions as units, an edit whose bounds fall strictly inside one mention's display removes that whole mention and puts the insert in its place |
| Reconciler.ApplyChangeInRun | src/utils.js:247-259 | an edit within one text run is spliced at the same offsets of that run, when re-projecting confirms the new plain text |
| Reconciler.RunBounds | src/utils.js:247-248 | the bounds of an edit within one text run map to the matching offsets of that run |
| Reconciler.ApplyChangeNaive | src/utils.js:254-259 | when both bounds map to offsets and re-projecting confirms the new plain text, the naive splice is the result |
| Utils.Scan | src/utils.js:126-151 | the loop makes exactly the callbacks `Visited` describes and leaves `lastIndex` where `ResumeCursor` says |
| Utils.Lookup | src/utils.js:123-124 | the cached regex (its cursor unchanged) and the template's grammar, or its error |
| Utils.IterateMentionsMarkup | src/utils.js:122-152 | the traversal from the cursor the cached regex holds; a template without id and display is rejected |
| Utils.ReplaceMentions | src/utils.js:287-295 | `replace` with the global regex yields `getPlainText` whatever the cursor held, and leaves it at 0 |
| Utils.GetPlainText | src/utils.js:283-296 | the plain text, with the cached regex's cursor reset to 0 |
| Utils.MapPlainTextIndex | src/utils.js:161-189 | `mapPlainTextIndex` from the cursor the cached regex holds, and the cursor it leaves |
| Utils.FindStartOfMentionInPlainText | src/utils.js:194-205 | the same for `findStartOfMentionInPlainText` |
| Utils.IsInsideOfMention | src/utils.js:208-211 | a mention covers the index and does not start at it |
| Utils.GetMentions | src/utils.js:298-310 | one record per mention callback, with the cursor back at 0 |
| Utils.FindDifference | src/utils.js:263-265 | the `while` loop computes the first difference |
| Utils.MapSpliceBounds | src/utils.js:247-251 | the four lookups back to back on the shared regex, each resuming where the previous one left it |
| Utils.RepairValue | src/utils.js:258-277 | the auto-correction repair on the shared regex |
| Utils.ApplyChangeToValue | src/utils.js:215-281 | `applyChangeToValue` as written, with the shared cursor, rejecting a template without id and display |
| Utils.SpliceChange | src/utils.js:218-280 | the part of `applyChangeToValue` after the old plain text is known |
| Suggestions.GroupsOf | src/utils.js:337-340 | one group per mention type, in key order, holding that type's results and entry |
| Suggestions.Tagged | src/utils.js:350-353 | each result is paired with its entry |
| Suggestions.GetSuggestion | src/utils.js:346-355 | defined exactly for an index below the number of results |
| Suggestions.FlattenLength | src/utils.js:319-355 | there are as many numbered results as `countSuggestions` counts |
| Suggestions.SuggestionAt | src/utils.js:346-355 | the t-th result of the j-th mention type is numbered after all the results of the types before it |
| Suggestions.CountSuggestions | src/utils.js:319-327 | the loop adds up `results.length` over the own keys |
| Suggestions.GetSuggestions | src/utils.js:329-344 | the loop builds one group per mention type, in key order |
| Suggestions.ExtendFiles | src/MentionsInput.js:630-642 | `extend({}, this.suggestions, update)` sets the entry under its mention type and keeps the other types in place |
| Suggestions.FileOntoAppend | src/MentionsInput.js:642 | filing two runs of entries one after the other is filing them as one run |
| Suggestions.FileOntoGet | src/MentionsInput.js:640-646 | after a run of filings onto a map, each mention type filed holds its latest entry, and every other type keeps what the map held |
| Suggestions.FileAllGet | src/MentionsInput.js:642 | after a run of filings onto no suggestions, each mention type holds its latest entry and no other type has one |
| Suggestions.ToLower | src/MentionsInput.js:35 | lower-casing keeps the length and works character by character |
| Suggestions.ToLowerIdempotent | src/MentionsInput.js:35 | lower-casing twice changes nothing more |
| Suggestions.FilterExactly | src/MentionsInput.js:31-39 | the provider keeps exactly the items whose display (or id) contains the query, ignoring case |
| Suggestions.FilterAppend | src/MentionsInput.js:33-38 | the items are kept in their original order |
| Suggestions.MatchesIgnoresQueryCase | src/MentionsInput.js:35 | the case of the query does not matter |
| Suggestions.ProvideData | src/MentionsInput.js:28-45 | an array gives the filtered items; a function gives whatever it returns at once |
| StaleCursor.ValueEvents | src/utils.js:122-152 | with a fresh cursor, `Hello @[John](1), how are you?` is a text run, the John mention at 6 (plain 6), and a text run |
| StaleCursor.ValueEventsFrom16 | src/utils.js:131-146 | from cursor 16 the traversal finds no mention: the whole value is one text run |
| StaleCursor.ValuePlain | src/utils.js:283-296 | its plain text is `Hello John, how are you?` |
| StaleCursor.BackspaceEdit | src/utils.js:216-245 | Backspace with the caret 9 before and 8 after removes plain [8, 9) |
| StaleCursor.StartLookups | src/utils.js:247 | the START map of 8 stops in the mention, giving 6, and leaves the cursor at 16 |
| StaleCursor.EndLookups | src/utils.js:248 | resuming at 16, the END map of 9 gives 9, and leaves the cursor at 0 |
| StaleCursor.AsWrittenBounds | src/utils.js:247-251 | as written, the four lookups give 6, 9, null and 9 |
| StaleCursor.RemovalSplice | src/utils.js:252-256 | with mentions as units, a NULL start bound makes the naive splice the result |
| StaleCursor.AsWrittenSplitsMention | src/utils.js:247-256 | as written, the edit leaves `Hello ohn](1), how are you?`, a broken mention |
| StaleCursor.CorrectedRemovesMention | src/utils.js:247-256 | with fresh cursors, the whole mention goes: `Hello , how are you?` |
| StaleCursor.StaleCursorFinding | src/utils.js:140-146 | the two results side by side on the value itself |
| Input.CurrentValue | src/MentionsInput.js:131-136 | the own value while the prop still equals the recorded one and the own value is not empty; else the prop value, or "" |
| Input.ShiftedFocus | src/MentionsInput.js:407-414 | the focus stays among the suggestions; it moves by one, wrapping from the last to the first and from the first to the last |
| Input.DownTimesBelow | src/MentionsInput.js:407-414 | below the end of the list, each DOWN moves one place |
| Input.DownTimesSplit | src/MentionsInput.js:407-414 | pressing DOWN a + b times is pressing it a times, then b times |
| Input.DownCycles | src/MentionsInput.js:407-414 | navigation is cyclic: as many DOWNs as suggestions come back to the start |
| Input.RoundEntriesStep | src/MentionsInput.js:568-584 | the children are queried in order, each filing its synchronous answer |
| Input.SnappedSelectionMeans | src/MentionsInput.js:303-317 | the selection snaps exactly when a mention of the old value covers the new caret and the old selection ended past its start; it then collapses onto that start and the restore flag is set |
| Input.TilesSource | src/utils.js:139-143 | each event's characters sit at its offset in the value |
| Input.RunInBoth | src/utils.js:139-141 | a text run's characters sit at its offset in the value and at its plain offset in the plain text |
| Input.QueryOffsetInRun | src/MentionsInput.js:652 | a query within a text run starts, in the value, at the matching place of the run |
| Input.QuerySliceInRun | src/MentionsInput.js:652-653 | the query's extent in the value holds the same characters as in the plain text |
| Input.RunQuery | src/MentionsInput.js:652-653 | the same for any stretch of one text run |
| Input.AddedReplacesQuery | src/MentionsInput.js:649-658 | when the query lies within one text run, `addMention` replaces exactly the query's characters by the mention's markup |
| Input.AddedPlainText | src/MentionsInput.js:690 | the reported plain text holds the shown text between the query start and the new caret, and is unchanged around it |
| Input.FileEntry | src/MentionsInput.js:642 | `extend` files the entry under its mention type and keeps the map valid |
| Input.StaleTypeResurfaces | src/MentionsInput.js:587-603 | with `clearSuggestions` as the component runs it, a round that only queries tags still shows the users found in the previous round |
| Input.ClearForgetsEarlierRounds | src/MentionsInput.js:587-603 | with the corrected clear `ClearSuggestionsForgetting`, the same events show only the tags |
| Input.MentionsInput.constructor | src/MentionsInput.js:113-129 | empty value, no selection, no suggestions, focus 0, first round |
| Input.MentionsInput.ReceiveValue | src/MentionsInput.js:134 | a new `value` prop changes nothing else |
| Input.MentionsInput.SetText | src/MentionsInput.js:330-337 | the value, the last prop value and the selection are set; the suggestion state is untouched |
| Input.MentionsInput.ShiftFocus | src/MentionsInput.js:407-414 | the focus becomes `ShiftedFocus` of the count, and the focused item is scrolled into view; nothing else changes |
| Input.MentionsInput.ResetFocus | src/MentionsInput.js:422-424 | the focus goes back to 0 and nothing else changes |
| Input.MentionsInput.ClearSuggestions | src/MentionsInput.js:587-603 | a new round: the round number goes up, no suggestion is shown and the focus is 0, while `this.suggestions` keeps what earlier rounds filed; the text is untouched |
| Input.MentionsInput.ClearSuggestionsForgetting | src/MentionsInput.js:587-603 | the corrected clear of the second finding: the same, and `this.suggestions` is emptied too |
| Input.MentionsInput.UpdateSuggestions | src/MentionsInput.js:614-647 | an answer to an earlier round changes nothing; an answer to the current round is filed into `this.suggestions` under its type, the other types kept, and the state shows all of `this.suggestions` |
| Input.MentionsInput.QueryData | src/MentionsInput.js:605-612 | the provider's synchronous answer, if any, is filed into `this.suggestions` for the current round |
| Input.MentionsInput.UpdateMentionsQueries | src/MentionsInput.js:548-585 | a new round starts; nothing is queried while the caret is strictly inside a mention of the prop value; otherwise the matched children are queried in order and their answers filed onto what `this.suggestions` held; the state shows nothing when the round has no answer, and otherwise all of `this.suggestions`, entries of earlier rounds included |
| Input.MentionsInput.QueryChild | src/MentionsInput.js:573-583 | a matched child is queried at the first place of its trigger text from the match on |
| Input.MentionsInput.HandleChange | src/MentionsInput.js:279-346 | without focus nothing happens; otherwise the value becomes the reconciled one, the selection is recorded (snapped when a mention is removed), and `onChange` receives the new value, its plain text and its mentions |
| Input.MentionsInput.AddMention | src/MentionsInput.js:649-702 | the query's extent is replaced by the mention's markup, the selection collapses to the query start plus the shown text's length and the restore flag is set; without `insertText`, `onChange` is given the new value, its plain text and its mentions, and the suggestions are cleared as `clearSuggestions` does (focus 0, `this.suggestions` kept); a missing display that is shown as is throws and changes nothing |
| Input.MentionsInput.ReportMention | src/MentionsInput.js:686-695 | `onChange` is given the new value, the new plain text and the new value's mentions, and the suggestions are cleared as `clearSuggestions` does; the text is untouched |
| Input.MentionsInput.SelectFocused | src/MentionsInput.js:416-425 | without a focused suggestion, destructuring throws and nothing changes; otherwise the focused suggestion is added with everything `AddMention` states (value, caret, restore flag, reported change, cleared suggestions) and the focus goes back to 0 |
| Input.MentionsInput.HandleKeyDown | src/MentionsInput.js:382-405 | a key with a handler is intercepted exactly while suggestions are shown; ESC clears as `clearSuggestions` does, DOWN and UP move the focus, RETURN and TAB select with everything `SelectFocused` states; any other key changes nothing |

## Left out

- Rendering and the DOM are not modelled: `render*`, `getInputProps`, `setSelection`, `updateSuggestionsPosition`, `updateHighlighterScroll`, `handleBlur`, `handleSelect`, styling, the overlay (src/SuggestionsOverlay.js) and src/Mention.js. They are presentation, not logic.
- The `document.execCommand('insertText')` path of `addMention` and the IME `isComposing` flag are browser effects. `AddMention` records only what the component itself sets.
- The trigger regexes of `_getTriggerRegex` are arbitrary `RegExp`s. What a child's trigger matched is an input (`Input.TriggerMatch`).
- The matcher handles only patterns `markupToRegex` builds. A `markupRegex` prop is accepted by `Markup.Registry.UseMarkupRegex` only when its pattern is the compiled template's.
- Asynchronous data providers are not modelled. `Suggestions.ProvideData` returns what the function returns at once. A later callback is an `UpdateSuggestions` call with the round number it was given.
- React's batched `setState` is not modelled: updates are applied at once, in the order the handlers make them.
- `onChange` and `onKeyDown` are not called: the arguments `onChange` would receive are returned. The `onAdd` callback is not modelled.
- `toLowerCase` is modelled on the ASCII letters only, not on Unicode.
- Surrogate pairs and text outside the Basic Multilingual Plane are not modelled. A Dafny `char` is a Unicode scalar value, so a lone surrogate cannot be written, and a character outside the plane counts once where JavaScript's `length` counts two code units. Every length and offset the model computes (`plainTextIndex`, the selection, the caret of `addMention`, `lastIndex`) agrees with the source's only on text within the plane.
- `$` patterns in the replacement strings of `makeMentionsMarkup` are not modelled: the id, display and type are inserted literally.
- Objects list their keys in insertion order. JavaScript lists integer-like keys first, in ascending order, and this is not modelled.
- Suggestions.GetSuggestions: the early `return` for an inherited key is not modelled, because the model's objects have only own properties.
- Input.MentionsInput.HandleChange: requires a recorded selection when the input has the focus. The `null` selection of the initial state reaching `applyChangeToValue` is not modelled.
- Input.MentionsInput.HandleChange: uses the fresh-cursor utilities (the corrected definitions of the first finding), not the shared cached regex.
- Input.MentionsInput.UpdateMentionsQueries: uses the fresh-cursor utilities, like `HandleChange`.
- Input.MentionsInput.AddMention: uses the fresh-cursor utilities. For a missing display, the model takes the custom transform to receive the text "undefined".
- Utils.IterateMentionsMarkup: requires a template that is either rejected or whose groups all exist (`Supported`). This excludes every template whose placeholders overlap, so that a group position names a group the regex lacks. When that group is the id's or the display's, as in `__id__display__`, the source reads `undefined` and throws on `display.length`. When only the type's overlaps, as in `@[__display__](__id__type__)`, the source goes on with the type `undefined`; the model does not cover that case either. The same requirement applies to the rows below.
- Utils.Lookup: requires `Supported`, as above.
- Utils.GetPlainText: requires `Supported`, as above.
- Utils.MapPlainTextIndex: requires `Supported`, as above.
- Utils.FindStartOfMentionInPlainText: requires `Supported`, as above.
- Utils.IsInsideOfMention: requires `Supported`, as above.
- Utils.GetMentions: requires `Supported`, as above.
- Utils.ApplyChangeToValue: requires `Supported`, as above.
- JsString.JsRemainder: states only the non-negative case, the only one `shiftFocus` reaches.
- Integers are unbounded. String lengths and offsets stay far below 2^53, so no wrap-around occurs.

## Findings

| source | as written | input that shows it | evidently intended | confidence | as-written member | corrected member |
|---|---|---|---|---|---|---|
| src/utils.js:140-146 | a callback that returns true leaves the cached global regex's `lastIndex` at the end of the current match. The next utility on the same template starts its search there, so the four back-to-back lookups of `applyChangeToValue` (src/utils.js:247-251) see different events | value `Hello @[John](1), how are you?`, Backspace inside "John" (caret 9 before, 8 after). The START lookup stops in the mention, giving 6, and leaves `lastIndex` 16. The END lookup then sees one text run and gives 9, so the result is `Hello ohn](1), how are you?` | every lookup traverses the value from its start, so the whole mention is removed: `Hello , how are you?` | high, not executed | StaleCursor.AsWrittenSplitsMention | StaleCursor.CorrectedRemovesMention |
| src/MentionsInput.js:587-603 | `clearSuggestions` empties the state's suggestions but not `this.suggestions`. The next `updateSuggestions` (src/MentionsInput.js:642) merges its answer into the entries of earlier rounds and shows them again | "@jo" is answered with users. The text becomes "@jo #t" and a new round queries only the tag trigger. After the tag answer, the users for "jo" are shown again | a new round starts from no suggestions, so only the tags are shown | medium, not executed | Input.StaleTypeResurfaces | Input.ClearForgetsEarlierRounds |

=== FILE: escaping.dfy ===
/**
 * escapeHtml, built by createEscaper from escapeMap. createEscaper
 * collects the map's own keys into an alternation; the escaper turns
 * `null` and `undefined` into the empty string and, when some key occurs,
 * replaces every occurrence, leftmost first, by the key's value.
 */
module Escaping {
  import opened Wrappers
  import opened JsObject

  /** escapeMap, in its key order. */
  const EscapeMap: Object<string> :=
    Object(["&", "<", ">", "\"", "'", "`"],
           map["&" := "&amp;", "<" := "&lt;", ">" := "&gt;", "\"" := "&quot;", "'" := "&#x27;", "`" := "&#x60;"])

  /** The keys the escaper's regex alternates, in order, and the replacement of each. */
  datatype Escaper = Escaper(keys: seq<string>, table: map<string, string>)

  /** No key is empty and every key has a replacement. */
  predicate WellFormed(e: Escaper) {
    forall k :: k in e.keys ==> |k| > 0 && k in e.table
  }

  /** createEscaper: the loop collecting the own keys of the map. */
  method CreateEscaper(m: Object<string>) returns (e: Escaper)
    requires Valid(m)
    ensures e.keys == m.keys && e.table == m.values
    ensures (forall k :: k in m.keys ==> |k| > 0) ==> WellFormed(e)
  {
    var keys := [];
    var i := 0;
    while i < |m.keys|
      invariant 0 <= i <= |m.keys|
      invariant keys == m.keys[..i]
    {
      keys := keys + [m.keys[i]];
      i := i + 1;
    }
    assert m.keys[..i] == m.keys;
    e := Escaper(keys, m.values);
  }

  /**
   * The alternative `(?:k1|k2|…)` takes at the start of `s`: the first key
   * that is a prefix of it. createEscaper joins the keys into the pattern
   * unescaped, so each key is taken to be free of regex metacharacters and
   * matched as a literal string, as every key of escapeMap is.
   */
  function FirstKey(keys: seq<string>, s: string): (r: Option<string>)
    ensures r.Some? ==> r.value in keys && r.value <= s
    ensures r.None? ==> forall k :: k in keys ==> !(k <= s)
  {
    if keys == [] then None
    else if keys[0] <= s then Some(keys[0])
    else
      assert forall k :: k in keys ==> k == keys[0] || k in keys[1..];
      FirstKey(keys[1..], s)
  }

  /** With single-character keys, the alternative taken is the first character, when it is a key. */
  lemma {:induction false} FirstKeySingle(keys: seq<string>, s: string)
    requires s != [] && forall k :: k in keys ==> |k| == 1
    ensures FirstKey(keys, s) == if [s[0]] in keys then Some([s[0]]) else None
  {
    if keys != [] {
      assert keys[0] <= s <==> keys[0] == [s[0]];
      FirstKeySingle(keys[1..], s);
      assert [s[0]] in keys <==> keys[0] == [s[0]] || [s[0]] in keys[1..];
    }
  }

  /** `s.replace(replaceRegexp, escaper)`: each match, leftmost first, replaced by its value. */
  function ReplaceKeys(e: Escaper, s: string): string
    requires WellFormed(e)
    decreases |s|
  {
    if s == [] then []
    else match FirstKey(e.keys, s)
      case Some(k) => e.table[k] + ReplaceKeys(e, s[|k|..])
      case None => [s[0]] + ReplaceKeys(e, s[1..])
  }

  /** `testRegexp.test(s)`: some key occurs in `s`. */
  predicate HasKey(e: Escaper, s: string) {
    exists i :: 0 <= i < |s| && FirstKey(e.keys, s[i..]).Some?
  }

  /** The escaper createEscaper returns, applied to a value that may be null or undefined. */
  function Escape(e: Escaper, x: Option<string>): string
    requires WellFormed(e)
  {
    var s := x.GetOr("");
    if HasKey(e, s) then ReplaceKeys(e, s) else s
  }

  /** The test is only a shortcut: without a key to replace, the replacement changes nothing. */
  lemma {:induction false} NoKeyNoChange(e: Escaper, s: string)
    requires WellFormed(e) && !HasKey(e, s)
    ensures ReplaceKeys(e, s) == s
    decreases |s|
  {
    if s != [] {
      assert FirstKey(e.keys, s[0..]).None?;
      assert s[0..] == s;
      forall i | 0 <= i < |s[1..]|
        ensures FirstKey(e.keys, s[1..][i..]).None?
      {
        assert s[1..][i..] == s[i + 1..];
      }
      NoKeyNoChange(e, s[1..]);
    }
  }

  /** So the escaper is the replacement, whatever the value. */
  lemma EscapeIsReplace(e: Escaper, s: string)
    requires WellFormed(e)
    ensures Escape(e, Some(s)) == ReplaceKeys(e, s)
    ensures Escape(e, None) == ""
  {
    if !HasKey(e, s) {
      NoKeyNoChange(e, s);
    }
  }

  // ---------------------------------------------------------------------
  // escapeHtml

  /** What createEscaper returns for escapeMap. */
  const Html: Escaper := Escaper(EscapeMap.keys, EscapeMap.values)

  function EscapeHtml(x: Option<string>): string {
    HtmlKeys();
    Escape(Html, x)
  }

  predicate IsSpecial(c: char) {
    c == '&' || c == '<' || c == '>' || c == '"' || c == '\'' || c == '`'
  }

  /** The entity escapeMap gives a character, or the character itself. */
  function Entity(c: char): string {
    if c == '&' then "&amp;"
    else if c == '<' then "&lt;"
    else if c == '>' then "&gt;"
    else if c == '"' then "&quot;"
    else if c == '\'' then "&#x27;"
    else if c == '`' then "&#x60;"
    else [c]
  }

  /** The keys of escapeMap are the six characters, one character each. */
  lemma HtmlKeys()
    ensures WellFormed(Html) && forall k :: k in Html.keys ==> |k| == 1
  {
    forall k | k in Html.keys
      ensures |k| == 1 && k in Html.table
    {
    }
  }

  /** The key of a character and its entity. */
  lemma HtmlTable(c: char)
    ensures [c] in Html.keys <==> IsSpecial(c)
    ensures IsSpecial(c) ==> [c] in Html.table && Html.table[[c]] == Entity(c)
  {
    var keys := Html.keys;
    assert [c] in keys <==> [c] == keys[0] || [c] == keys[1] || [c] == keys[2] || [c] == keys[3] || [c] == keys[4] || [c] == keys[5];
  }

  /** Escaping goes one character at a time. */
  lemma HtmlStep(s: string)
    requires s != []
    ensures WellFormed(Html) && ReplaceKeys(Html, s) == Entity(s[0]) + ReplaceKeys(Html, s[1..])
  {
    HtmlKeys();
    FirstKeySingle(Html.keys, s);
    HtmlTable(s[0]);
  }

  /** escapeHtml maps null and undefined to the empty string. */
  lemma EscapeHtmlMissing()
    ensures EscapeHtml(None) == ""
  {
    HtmlKeys();
    EscapeIsReplace(Html, "");
  }

  lemma HeadTail(s: string)
    requires s != []
    ensures [s[0]] + s[1..] == s
  {
  }

  /** A string without any of the six characters comes back unchanged. */
  lemma {:induction false} EscapeHtmlPlain(s: string)
    requires forall i :: 0 <= i < |s| ==> !IsSpecial(s[i])
    ensures EscapeHtml(Some(s)) == s
  {
    PlainUnchanged(s);
    HtmlKeys();
    EscapeIsReplace(Html, s);
  }

  lemma {:induction false} PlainUnchanged(s: string)
    requires forall i :: 0 <= i < |s| ==> !IsSpecial(s[i])
    ensures WellFormed(Html) && ReplaceKeys(Html, s) == s
    decreases |s|
  {
    HtmlKeys();
    if s != [] {
      PlainStep(s);
      PlainUnchanged(s[1..]);
      HeadTail(s);
    }
  }

  lemma PlainStep(s: string)
    requires s != [] && forall i :: 0 <= i < |s| ==> !IsSpecial(s[i])
    ensures WellFormed(Html) && ReplaceKeys(Html, s) == [s[0]] + ReplaceKeys(Html, s[1..])
    ensures forall i :: 0 <= i < |s[1..]| ==> !IsSpecial(s[1..][i])
  {
    HtmlStep(s);
  }

  /** What a character becomes has no `<`, `>`, quote or backquote in it. */
  lemma EntitySafe(c: char)
    ensures forall i :: 0 <= i < |Entity(c)| ==> Entity(c)[i] == '&' || !IsSpecial(Entity(c)[i])
  {
  }

  /** After escaping, the only special character left is the `&` that starts an entity. */
  lemma {:induction false} EscapeHtmlSafe(s: string)
    ensures var r := EscapeHtml(Some(s));
      forall i :: 0 <= i < |r| ==> r[i] == '&' || !IsSpecial(r[i])
  {
    ReplaceSafe(s);
    HtmlKeys();
    EscapeIsReplace(Html, s);
  }

  lemma {:induction false} ReplaceSafe(s: string)
    ensures WellFormed(Html)
    ensures var r := ReplaceKeys(Html, s);
      forall i :: 0 <= i < |r| ==> r[i] == '&' || !IsSpecial(r[i])
    decreases |s|
  {
    HtmlKeys();
    if s != [] {
      HtmlStep(s);
      ReplaceSafe(s[1..]);
      EntitySafe(s[0]);
      var e, rest := Entity(s[0]), ReplaceKeys(Html, s[1..]);
      forall i | 0 <= i < |e + rest|
        ensures (e + rest)[i] == '&' || !IsSpecial((e + rest)[i])
      {
        if i >= |e| {
          assert (e + rest)[i] == rest[i - |e|];
        }
      }
    }
  }

  // ---------------------------------------------------------------------
  // Reading escaped text back

  /** The six entities decoded, left to right; any other text is copied. */
  function Unescape(t: string): string
    decreases |t|
  {
    if t == [] then []
    else if t[0] != '&' then [t[0]] + Unescape(t[1..])
    else if "&amp;" <= t then "&" + Unescape(t[5..])
    else if "&lt;" <= t then "<" + Unescape(t[4..])
    else if "&gt;" <= t then ">" + Unescape(t[4..])
    else if "&quot;" <= t then "\"" + Unescape(t[6..])
    else if "&#x27;" <= t then "'" + Unescape(t[6..])
    else if "&#x60;" <= t then "`" + Unescape(t[6..])
    else "&" + Unescape(t[1..])
  }

  /** Each entity reads back as its character. */
  lemma EntityReadsBack(c: char, rest: string)
    ensures Unescape(Entity(c) + rest) == [c] + Unescape(rest)
  {
    var e := Entity(c);
    var t := e + rest;
    assert t[..|e|] == e && t[|e|..] == rest;
    if c == '&' {
      assert e <= t;
    } else if c == '<' || c == '>' || c == '"' {
      assert e <= t && t[1] == e[1];
    } else if c == '\'' || c == '`' {
      assert e <= t && t[1] == '#' && t[4] == e[4];
    } else {
      assert t[0] == c;
    }
  }

  /** Unescaping undoes escapeHtml. */
  lemma {:induction false} EscapeHtmlRoundTrip(s: string)
    ensures Unescape(EscapeHtml(Some(s))) == s
  {
    ReplaceRoundTrip(s);
    HtmlKeys();
    EscapeIsReplace(Html, s);
  }

  lemma {:induction false} ReplaceRoundTrip(s: string)
    ensures WellFormed(Html) && Unescape(ReplaceKeys(Html, s)) == s
    decreases |s|
  {
    HtmlKeys();
    if s != [] {
      HtmlStep(s);
      ReplaceRoundTrip(s[1..]);
      EntityReadsBack(s[0], ReplaceKeys(Html, s[1..]));
      HeadTail(s);
    }
  }
}

=== FILE: js_object.dfy ===
/**
 * Plain JavaScript objects used as dictionaries: the own enumerable keys
 * in the order `for…in` visits them (insertion order) and the value of
 * each. `extend` copies the own properties of each source onto its
 * target, left to right.
 */
module JsObject {
  import opened Wrappers

  /** An object: its keys in enumeration order, and the value under each. */
  datatype Object<V> = Object(keys: seq<string>, values: map<string, V>)

  /** No key is listed twice. */
  predicate Distinct(keys: seq<string>) {
    keys == [] || (keys[|keys| - 1] !in keys[..|keys| - 1] && Distinct(keys[..|keys| - 1]))
  }

  /** Every key is listed once, and the listed keys are the keys with a value. */
  predicate Valid<V>(o: Object<V>) {
    Distinct(o.keys) &&
    (forall k :: k in o.keys ==> k in o.values) && (forall k :: k in o.values ==> k in o.keys)
  }

  /** `{}` */
  function Empty<V>(): (o: Object<V>)
    ensures Valid(o) && forall k :: Get(o, k) == None
  {
    Object([], map[])
  }

  /** `{ [k]: v }` */
  function Single<V>(k: string, v: V): (o: Object<V>)
    ensures Valid(o) && forall k' :: Get(o, k') == if k' == k then Some(v) else None
  {
    Object([k], map[k := v])
  }

  /** `o[k]`, with `undefined` for a missing key. */
  function Get<V>(o: Object<V>, k: string): Option<V> {
    if k in o.values then Some(o.values[k]) else None
  }

  /** `o[k] = v`: a new key is enumerated last, an existing key keeps its place. */
  function Put<V>(o: Object<V>, k: string, v: V): Object<V> {
    Object(if k in o.values then o.keys else o.keys + [k], o.values[k := v])
  }

  /** After `o[k] = v`, `k` reads `v` and every other key reads as before; the object stays valid and its keys keep their places. */
  lemma PutFacts<V>(o: Object<V>, k: string, v: V)
    ensures var r := Put(o, k, v);
      (Valid(o) ==> Valid(r)) &&
      (forall k' :: Get(r, k') == if k' == k then Some(v) else Get(o, k')) &&
      |o.keys| <= |r.keys| && r.keys[..|o.keys|] == o.keys
  {
  }

  /** The own properties `ks` of `source` copied onto `o` one at a time (the inner loop of extend). */
  function AssignKeys<V>(o: Object<V>, source: Object<V>, ks: seq<string>): Object<V>
    requires forall k :: k in ks ==> k in source.values
  {
    if ks == [] then o
    else
      var n := |ks| - 1;
      Put(AssignKeys(o, source, ks[..n]), ks[n], source.values[ks[n]])
  }

  /** All own properties of `source` copied onto `o`. */
  function Assign<V>(o: Object<V>, source: Object<V>): Object<V>
    requires Valid(source)
  {
    AssignKeys(o, source, source.keys)
  }

  predicate AllValid<V>(sources: seq<Object<V>>) {
    forall i :: 0 <= i < |sources| ==> Valid(sources[i])
  }

  /** `extend(o, sources[0], sources[1], …)`: the sources assigned in turn. */
  function ExtendAll<V>(o: Object<V>, sources: seq<Object<V>>): Object<V>
    requires AllValid(sources)
  {
    if sources == [] then o
    else
      var n := |sources| - 1;
      Assign(ExtendAll(o, sources[..n]), sources[n])
  }

  /** The value of `k` in the last of the sources that has it. */
  function LastWith<V>(sources: seq<Object<V>>, k: string): Option<V> {
    if sources == [] then None
    else
      var n := |sources| - 1;
      if k in sources[n].values then Some(sources[n].values[k]) else LastWith(sources[..n], k)
  }

  /** Of two sources, the second wins. */
  lemma LastWithPair<V>(a: Object<V>, b: Object<V>, k: string)
    ensures LastWith([a, b], k) == if k in b.values then Some(b.values[k]) else Get(a, k)
  {
    assert [a, b][..1] == [a];
    assert LastWith([a], k) == Get(a, k) by {
      assert [a][..0] == [];
    }
  }

  /** Copying keys: every copied key takes the source's value, every other key keeps its value. */
  lemma {:induction false} AssignKeysGet<V>(o: Object<V>, source: Object<V>, ks: seq<string>)
    requires forall k :: k in ks ==> k in source.values
    ensures forall k :: Get(AssignKeys(o, source, ks), k) == if k in ks then Some(source.values[k]) else Get(o, k)
  {
    if ks != [] {
      var n := |ks| - 1;
      AssignKeysGet(o, source, ks[..n]);
      forall k
        ensures Get(AssignKeys(o, source, ks), k) == if k in ks then Some(source.values[k]) else Get(o, k)
      {
        assert k in ks <==> k == ks[n] || k in ks[..n] by {
          assert ks == ks[..n] + [ks[n]];
        }
      }
    }
  }

  /** Copying keys keeps an object valid, and the keys already there keep their places. */
  lemma {:induction false} AssignKeysShape<V>(o: Object<V>, source: Object<V>, ks: seq<string>)
    requires forall k :: k in ks ==> k in source.values
    ensures var r := AssignKeys(o, source, ks);
      (Valid(o) ==> Valid(r)) && |o.keys| <= |r.keys| && r.keys[..|o.keys|] == o.keys
  {
    if ks != [] {
      var n := |ks| - 1;
      AssignKeysShape(o, source, ks[..n]);
      var r' := AssignKeys(o, source, ks[..n]);
      var r := AssignKeys(o, source, ks);
      assert r.keys[..|o.keys|] == r'.keys[..|o.keys|];
    }
  }

  /**
   * extend: later sources win; a key no source has keeps its old value;
   * the target's keys keep their places.
   */
  lemma {:induction false} ExtendAllGet<V>(o: Object<V>, sources: seq<Object<V>>)
    requires AllValid(sources)
    ensures var r := ExtendAll(o, sources);
      (forall k :: Get(r, k) == if LastWith(sources, k).Some? then LastWith(sources, k) else Get(o, k)) &&
      (Valid(o) ==> Valid(r)) &&
      |o.keys| <= |r.keys| && r.keys[..|o.keys|] == o.keys
  {
    if sources != [] {
      var n := |sources| - 1;
      ExtendAllGet(o, sources[..n]);
      var r' := ExtendAll(o, sources[..n]);
      AssignKeysGet(r', sources[n], sources[n].keys);
      AssignKeysShape(r', sources[n], sources[n].keys);
      var r := ExtendAll(o, sources);
      assert r.keys[..|o.keys|] == r'.keys[..|o.keys|];
    }
  }

  /** Copying distinct keys of an object onto `{}` lists exactly those keys, in order. */
  lemma {:induction false} CopyKeys<V>(source: Object<V>, ks: seq<string>)
    requires forall k :: k in ks ==> k in source.values
    requires Distinct(ks)
    ensures AssignKeys(Empty(), source, ks).keys == ks
  {
    if ks != [] {
      var n := |ks| - 1;
      var front := ks[..n];
      assert forall k :: k in front ==> k in ks;
      CopyKeys(source, front);
      var prev := AssignKeys(Empty(), source, front);
      assert ks[n] !in prev.values by {
        AssignKeysGet(Empty(), source, front);
        assert Get(prev, ks[n]) == Get(Empty<V>(), ks[n]);
      }
      assert ks == prev.keys + [ks[n]];
    }
  }

  /** Two objects with the same keys, in the same order, and the same values are the same object. */
  lemma SameObject<V>(a: Object<V>, b: Object<V>)
    requires a.keys == b.keys && forall k :: Get(a, k) == Get(b, k)
    ensures a == b
  {
    assert a.values == b.values by {
      forall k
        ensures k in a.values <==> k in b.values
        ensures k in a.values ==> a.values[k] == b.values[k]
      {
        assert Get(a, k) == Get(b, k);
      }
    }
  }

  /** Assigning a valid object onto `{}` copies it. */
  lemma CopyIsSame<V>(o: Object<V>)
    requires Valid(o)
    ensures Assign(Empty(), o) == o
  {
    CopyKeys(o, o.keys);
    AssignKeysGet(Empty(), o, o.keys);
    SameObject(Assign(Empty(), o), o);
  }

  /** Extending by two sources assigns one, then the other. */
  lemma ExtendPair<V>(o: Object<V>, a: Object<V>, b: Object<V>)
    requires Valid(a) && Valid(b)
    ensures AllValid([a, b]) && ExtendAll(o, [a, b]) == Assign(Assign(o, a), b)
  {
    var front := [a, b][..1];
    assert front == [a] && [a][..0] == [];
    assert AllValid([a]) && ExtendAll(o, [a]) == Assign(o, a);
    assert AllValid([a, b]);
    assert ExtendAll(o, [a, b]) == Assign(ExtendAll(o, front), b);
  }

  /** Assigning `{ [k]: v }` sets `k` to `v`. */
  lemma AssignSingle<V>(o: Object<V>, k: string, v: V)
    ensures Assign(o, Single(k, v)) == Put(o, k, v)
  {
    var single := Single(k, v);
    assert single.keys == [k] && [k][..0] == [];
    assert AssignKeys(o, single, [k][..0]) == o;
    assert AssignKeys(o, single, [k]) == Put(o, k, v);
  }

  /** `extend({}, o, { [k]: v })` is `o` with `k` set to `v`: a copy of `o`, then one assignment. */
  lemma ExtendCopyThenPut<V>(o: Object<V>, k: string, v: V)
    requires Valid(o)
    ensures AllValid([o, Single(k, v)]) && ExtendAll(Empty(), [o, Single(k, v)]) == Put(o, k, v)
  {
    ExtendPair(Empty(), o, Single(k, v));
    CopyIsSame(o);
    AssignSingle(o, k, v);
  }

  /** extend(obj, sources...) as the nested loops of the source run it; the result is the updated `obj`. */
  method Extend<V>(obj: Object<V>, sources: seq<Object<V>>) returns (r: Object<V>)
    requires AllValid(sources)
    ensures r == ExtendAll(obj, sources)
  {
    r := obj;
    var i := 0;
    while i < |sources|
      invariant 0 <= i <= |sources|
      invariant r == ExtendAll(obj, sources[..i])
    {
      var source := sources[i];
      ghost var before := ExtendAll(obj, sources[..i]);
      var j := 0;
      while j < |source.keys|
        invariant 0 <= j <= |source.keys|
        invariant r == AssignKeys(before, source, source.keys[..j])
      {
        var prop := source.keys[j];
        assert source.keys[..j + 1][..j] == source.keys[..j];
        r := Put(r, prop, source.values[prop]);
        j := j + 1;
      }
      assert source.keys[..j] == source.keys;
      assert sources[..i + 1][..i] == sources[..i];
      i := i + 1;
    }
    assert sources[..i] == sources;
  }
}

=== FILE: js_string.dfy ===
/**
 * The JavaScript string primitives the engine is built on, with their
 * clamping rules written out: `substring`, `slice`, `indexOf`,
 * `lastIndexOf`, `replace` with a string pattern, `str[i]`, and the
 * truncating remainder operator.
 */
module JsString {
  import opened Wrappers

  function Min(a: int, b: int): int { if a <= b then a else b }
  function Max(a: int, b: int): int { if a >= b then a else b }

  /** One argument of `substring`: clamped into [0, n]. */
  function ClampIndex(i: int, n: nat): (r: nat)
    ensures r <= n
    ensures 0 <= i <= n ==> r == i
  {
    if i < 0 then 0 else if i > n then n else i
  }

  /** `s.substring(a, b)`: both ends clamped, swapped when a > b. */
  function Substring(s: string, a: int, b: int): (r: string)
    ensures 0 <= a <= b <= |s| ==> r == s[a..b]
    ensures 0 <= b <= a <= |s| ==> r == s[b..a]
  {
    var x, y := ClampIndex(a, |s|), ClampIndex(b, |s|);
    if x <= y then s[x..y] else s[y..x]
  }

  /** `s.substring(a)`. */
  function SubstringFrom(s: string, a: int): (r: string)
    ensures 0 <= a <= |s| ==> r == s[a..]
    ensures a < 0 ==> r == s
    ensures a > |s| ==> r == []
  {
    Substring(s, a, |s|)
  }

  /** One argument of `slice`: negative values count from the end. */
  function SliceIndex(i: int, n: nat): (r: nat)
    ensures r <= n
    ensures 0 <= i <= n ==> r == i
  {
    if i < 0 then (if n + i < 0 then 0 else n + i) else if i > n then n else i
  }

  /** `s.slice(a, b)`: empty when the resolved start is not before the resolved end. */
  function Slice(s: string, a: int, b: int): (r: string)
    ensures 0 <= a <= b <= |s| ==> r == s[a..b]
    ensures 0 <= b <= a ==> r == []
    ensures SliceIndex(b, |s|) <= SliceIndex(a, |s|) ==> r == []
    ensures SliceIndex(a, |s|) < SliceIndex(b, |s|) ==> |r| == SliceIndex(b, |s|) - SliceIndex(a, |s|)
  {
    var x, y := SliceIndex(a, |s|), SliceIndex(b, |s|);
    if x < y then s[x..y] else []
  }

  /** `s[i]`: the character, or `undefined` outside the string. */
  function CharAt(s: string, i: int): (r: Option<char>)
    ensures r.Some? <==> 0 <= i < |s|
    ensures r.Some? ==> r.value == s[i]
  {
    if 0 <= i < |s| then Some(s[i]) else None
  }

  /** `needle` occurs in `s` starting at position k. */
  predicate OccursAt<T(==)>(s: seq<T>, needle: seq<T>, k: int) {
    0 <= k && k + |needle| <= |s| && s[k..k + |needle|] == needle
  }

  /** `s.indexOf(needle)`: the first occurrence, or -1. */
  function IndexOf<T(==)>(s: seq<T>, needle: seq<T>): int {
    IndexOfFrom(s, needle, 0)
  }

  /** `s.indexOf(needle, from)`, for a start within the string or just past it. */
  function IndexOfFrom<T(==)>(s: seq<T>, needle: seq<T>, from: nat): int
    decreases |s| + 1 - from
  {
    if from + |needle| > |s| then -1
    else if s[from..from + |needle|] == needle then from
    else IndexOfFrom(s, needle, from + 1)
  }

  /** indexOf from `from` finds the first occurrence at or after `from`, or gives -1 when there is none. */
  lemma {:induction false} IndexOfFromSpec<T>(s: seq<T>, needle: seq<T>, from: nat)
    ensures var r := IndexOfFrom(s, needle, from);
      (r == -1 || (from <= r && OccursAt(s, needle, r))) &&
      forall k :: from <= k && (r < 0 || k < r) ==> !OccursAt(s, needle, k)
    decreases |s| + 1 - from
  {
    if from + |needle| <= |s| && s[from..from + |needle|] != needle {
      IndexOfFromSpec(s, needle, from + 1);
    }
  }

  /** indexOf finds the first occurrence, or gives -1 when there is none. */
  lemma IndexOfSpec<T>(s: seq<T>, needle: seq<T>)
    ensures var r := IndexOf(s, needle);
      (r == -1 || OccursAt(s, needle, r)) &&
      forall k :: 0 <= k && (r < 0 || k < r) ==> !OccursAt(s, needle, k)
  {
    IndexOfFromSpec(s, needle, 0);
  }

  /** A mismatch at offset j rules out an occurrence at k. */
  lemma MismatchAt<T>(s: seq<T>, needle: seq<T>, k: int, j: nat)
    requires 0 <= k && j < |needle| && k + j < |s| && s[k + j] != needle[j]
    ensures !OccursAt(s, needle, k)
  {
  }

  /** The first occurrence is what indexOf finds. */
  lemma IndexOfFirst<T>(s: seq<T>, needle: seq<T>, k: nat)
    requires OccursAt(s, needle, k) && forall j :: 0 <= j < k ==> !OccursAt(s, needle, j)
    ensures IndexOf(s, needle) == k
  {
    IndexOfSpec(s, needle);
  }

  /** With no occurrence at all, indexOf gives -1. */
  lemma IndexOfAbsent<T>(s: seq<T>, needle: seq<T>)
    requires forall j :: 0 <= j ==> !OccursAt(s, needle, j)
    ensures IndexOf(s, needle) == -1
  {
    IndexOfSpec(s, needle);
  }

  /** `s.lastIndexOf(needle)`: the last occurrence, or -1. */
  function LastIndexOf<T(==)>(s: seq<T>, needle: seq<T>): int {
    LastIndexAtOrBelow(s, needle, |s| - |needle|)
  }

  /** The last occurrence starting at or before `k`, or -1. */
  function LastIndexAtOrBelow<T(==)>(s: seq<T>, needle: seq<T>, k: int): int
    requires k <= |s| - |needle|
    decreases k + 1
  {
    if k < 0 then -1
    else if s[k..k + |needle|] == needle then k
    else LastIndexAtOrBelow(s, needle, k - 1)
  }

  /** The search down from `k` finds the last occurrence at or before `k`, or gives -1 when there is none. */
  lemma {:induction false} LastIndexAtOrBelowSpec<T>(s: seq<T>, needle: seq<T>, k: int)
    requires k <= |s| - |needle|
    ensures var r := LastIndexAtOrBelow(s, needle, k);
      (r == -1 || (r <= k && OccursAt(s, needle, r))) &&
      forall j :: r < j <= k ==> !OccursAt(s, needle, j)
    decreases k + 1
  {
    if k >= 0 && s[k..k + |needle|] != needle {
      LastIndexAtOrBelowSpec(s, needle, k - 1);
    }
  }

  /** lastIndexOf finds the last occurrence, or gives -1 when there is none. */
  lemma LastIndexOfSpec<T>(s: seq<T>, needle: seq<T>)
    ensures var r := LastIndexOf(s, needle);
      (r == -1 || OccursAt(s, needle, r)) &&
      forall k :: r < k ==> !OccursAt(s, needle, k)
  {
    LastIndexAtOrBelowSpec(s, needle, |s| - |needle|);
  }

  /** `s.replace(needle, rep)` with a string pattern: only the first occurrence is replaced. */
  function ReplaceFirst<T(==)>(s: seq<T>, needle: seq<T>, rep: seq<T>): (r: seq<T>)
  {
    var k := IndexOf(s, needle);
    IndexOfSpec(s, needle);
    if k < 0 then s else s[..k] + rep + s[k + |needle|..]
  }

  /** JavaScript's `%`: the remainder takes the sign of the dividend. */
  function JsRemainder(a: int, b: int): (r: int)
    requires b != 0
    ensures a >= 0 && b > 0 ==> r == a % b
  {
    var m := if a < 0 then -a else a;
    var n := if b < 0 then -b else b;
    if a < 0 then -(m % n) else m % n
  }
}

=== FILE: markup.dfy ===
/**
 * The markup grammar: how a template such as `@[__display__](__id__)`
 * becomes a regex, which capture group holds each placeholder, and the
 * two module-level caches that hold both per template.
 */
module Markup {
  import opened Wrappers
  import opened JsString
  import opened Regex

  function PlaceholderText(ph: Placeholder): string {
    match ph
    case Id => "__id__"
    case Display => "__display__"
    case Type => "__type__"
  }

  // ---------------------------------------------------------------------
  // escapeRegex

  /** The characters escapeRegex puts a backslash in front of. */
  const RegexSpecials: string := "-/\\^$*+?.()|[]{}"

  predicate IsRegexSpecial(c: char) {
    c in RegexSpecials
  }

  function EscapeChar(c: char): string {
    if IsRegexSpecial(c) then ['\\', c] else [c]
  }

  function EscapeRegex(s: string): string {
    if s == [] then [] else EscapeChar(s[0]) + EscapeRegex(s[1..])
  }

  function CountSpecials(s: string): nat {
    if s == [] then 0 else (if IsRegexSpecial(s[0]) then 1 else 0) + CountSpecials(s[1..])
  }

  /** Reads an escaped string back: a backslash stands for the character after it. */
  function UnescapeRegex(t: string): string {
    if t == [] then []
    else if t[0] == '\\' && |t| >= 2 then [t[1]] + UnescapeRegex(t[2..])
    else [t[0]] + UnescapeRegex(t[1..])
  }

  /** Escaping works character by character, */
  lemma {:induction false} EscapeRegexConcat(a: string, b: string)
    ensures EscapeRegex(a + b) == EscapeRegex(a) + EscapeRegex(b)
  {
    if a != [] {
      assert (a + b)[1..] == a[1..] + b;
      EscapeRegexConcat(a[1..], b);
    } else {
      assert a + b == b;
    }
  }

  /** adds exactly one backslash per special character, */
  lemma {:induction false} EscapeRegexLength(s: string)
    ensures |EscapeRegex(s)| == |s| + CountSpecials(s)
  {
    if s != [] {
      EscapeRegexLength(s[1..]);
    }
  }

  /** and loses nothing: unescaping gives the input back. */
  lemma {:induction false} UnescapeEscapeRegex(s: string)
    ensures UnescapeRegex(EscapeRegex(s)) == s
  {
    if s != [] {
      UnescapeEscapeRegex(s[1..]);
      var t := EscapeRegex(s);
      assert t == EscapeChar(s[0]) + EscapeRegex(s[1..]);
      if IsRegexSpecial(s[0]) {
        assert t[0] == '\\' && t[1] == s[0] && t[2..] == EscapeRegex(s[1..]);
      } else {
        assert s[0] != '\\';
        assert t[0] == s[0] && t[1..] == EscapeRegex(s[1..]);
      }
    }
  }

  // ---------------------------------------------------------------------
  // markupToRegex

  /**
   * The escaped template as a pattern: an escaped character matches
   * itself, so each character of the template becomes a literal atom.
   */
  function Literal(s: string): (r: seq<Atom>)
    ensures |r| == |s|
    ensures forall k :: 0 <= k < |s| ==> r[k] == Char(s[k])
  {
    if s == [] then [] else [Char(s[0])] + Literal(s[1..])
  }

  /** `pattern.replace(placeholder, "(.+?)")`: only the first occurrence becomes a group. */
  function ReplacePlaceholder(atoms: seq<Atom>, ph: Placeholder): seq<Atom> {
    ReplaceFirst(atoms, Literal(PlaceholderText(ph)), [Group(ph)])
  }

  /**
   * markupToRegex: the display placeholder is replaced first, then the
   * id, then the type; `matchAtEnd` adds the trailing `$`.
   */
  function MarkupToRegex(markup: string, matchAtEnd: bool): Pattern {
    var atoms := ReplacePlaceholder(ReplacePlaceholder(ReplacePlaceholder(Literal(markup), Display), Id), Type);
    Pattern(atoms, matchAtEnd)
  }

  // ---------------------------------------------------------------------
  // computeCapturingGroupPositions

  /** The 1-based capture indices of the placeholders; `typ` is absent when the template has no type. */
  datatype GroupPositions = GroupPositions(id: nat, display: nat, typ: Option<nat>)

  function PlaceholderIndex(markup: string, ph: Placeholder): int {
    IndexOf(markup, PlaceholderText(ph))
  }

  predicate Present(markup: string, ph: Placeholder) {
    PlaceholderIndex(markup, ph) >= 0
  }

  function PresentCount(markup: string): nat {
    (if Present(markup, Id) then 1 else 0) +
    (if Present(markup, Display) then 1 else 0) +
    (if Present(markup, Type) then 1 else 0)
  }

  /** The capture index the positions give a placeholder (0 for an absent type). */
  function Position(pos: GroupPositions, ph: Placeholder): nat {
    match ph
    case Id => pos.id
    case Display => pos.display
    case Type => pos.typ.GetOr(0)
  }

  /** The three `indexOf` results, -1 for an absent placeholder. */
  datatype Indices = Indices(id: int, display: int, typ: int) {
    function At(ph: Placeholder): int {
      match ph
      case Id => id
      case Display => display
      case Type => typ
    }

    /** 1 plus the number of other present placeholders that occur earlier. */
    function Rank(ph: Placeholder): nat {
      1 + Precedes(Id, ph) + Precedes(Display, ph) + Precedes(Type, ph)
    }

    function Precedes(q: Placeholder, ph: Placeholder): nat {
      if q != ph && At(q) >= 0 && At(q) < At(ph) then 1 else 0
    }

    function Count(): nat {
      (if id >= 0 then 1 else 0) + (if display >= 0 then 1 else 0) + (if typ >= 0 then 1 else 0)
    }

    predicate Distinct() {
      forall a: Placeholder, b: Placeholder :: a != b && At(a) >= 0 ==> At(a) != At(b)
    }
  }

  function IndicesOf(markup: string): (ix: Indices)
    ensures forall ph :: ix.At(ph) == PlaceholderIndex(markup, ph)
  {
    Indices(PlaceholderIndex(markup, Id), PlaceholderIndex(markup, Display), PlaceholderIndex(markup, Type))
  }

  /** Two placeholders never start at the same index: their third characters differ. */
  lemma IndicesDistinct(markup: string)
    ensures IndicesOf(markup).Distinct()
  {
    var id, display, typ := PlaceholderText(Id), PlaceholderText(Display), PlaceholderText(Type);
    assert id[2] == 'i' && display[2] == 'd' && typ[2] == 't';
    DifferentThirdChar(markup, id, display);
    DifferentThirdChar(markup, id, typ);
    DifferentThirdChar(markup, display, id);
    DifferentThirdChar(markup, display, typ);
    DifferentThirdChar(markup, typ, id);
    DifferentThirdChar(markup, typ, display);
  }

  /** Needles that differ in their third character never occur at the same index. */
  lemma DifferentThirdChar(s: string, ta: string, tb: string)
    requires |ta| > 2 && |tb| > 2 && ta[2] != tb[2]
    ensures IndexOf(s, ta) >= 0 ==> IndexOf(s, ta) != IndexOf(s, tb)
  {
    var k := IndexOf(s, ta);
    IndexOfSpec(s, ta);
    IndexOfSpec(s, tb);
    if k >= 0 && IndexOf(s, tb) == k {
      SameThirdChar(s, ta, tb, k);
    }
  }

  lemma SameThirdChar(s: string, ta: string, tb: string, k: int)
    requires |ta| > 2 && |tb| > 2
    requires OccursAt(s, ta, k) && OccursAt(s, tb, k)
    ensures ta[2] == tb[2]
  {
    assert s[k..k + |ta|][2] == s[k + 2] == s[k..k + |tb|][2];
  }

  /** Ranks number the present placeholders 1..Count() in index order. */
  lemma RankOrder(ix: Indices)
    requires ix.Distinct()
    ensures forall a: Placeholder, b: Placeholder :: ix.At(a) >= 0 && ix.At(b) >= 0 ==>
      (ix.At(a) < ix.At(b) <==> ix.Rank(a) < ix.Rank(b))
    ensures forall a: Placeholder :: ix.At(a) >= 0 ==> 1 <= ix.Rank(a) <= ix.Count()
  {
    assert ix.At(Id) == ix.id && ix.At(Display) == ix.display && ix.At(Type) == ix.typ;
  }

  /**
   * computeCapturingGroupPositions. The present placeholders are numbered
   * 1, 2, ... in the order they occur in the template; a missing id
   * shares the display's group and vice versa; a template with neither
   * is an error.
   */
  function ComputeCapturingGroupPositions(markup: string): Result<GroupPositions, string> {
    var ix := IndicesOf(markup);
    if ix.id < 0 && ix.display < 0 then
      Failure("Markup '" + markup + "' has to contain at least one of placeholders __id__ or __display__")
    else
      Success(PositionsOf(ix))
  }

  /**
   * What computeCapturingGroupPositions promises: an error exactly when
   * neither id nor display is present; otherwise the positions follow
   * the order of the placeholders in the template, range over
   * 1..(number present), a missing id or display shares the other's
   * group, and the type has a group exactly when it is present.
   */
  lemma PositionsFollowTemplate(markup: string)
    ensures var r := ComputeCapturingGroupPositions(markup);
      (r.Failure? <==> !Present(markup, Id) && !Present(markup, Display)) &&
      (r.Success? ==>
        (forall a: Placeholder, b: Placeholder :: Present(markup, a) && Present(markup, b) ==>
          (PlaceholderIndex(markup, a) < PlaceholderIndex(markup, b) <==> Position(r.value, a) < Position(r.value, b))) &&
        (forall a: Placeholder :: Present(markup, a) ==> 1 <= Position(r.value, a) <= PresentCount(markup)) &&
        (!Present(markup, Id) ==> r.value.id == r.value.display) &&
        (!Present(markup, Display) ==> r.value.display == r.value.id) &&
        (r.value.typ.Some? <==> Present(markup, Type)))
  {
    var ix := IndicesOf(markup);
    if ix.id >= 0 || ix.display >= 0 {
      IndicesDistinct(markup);
      RankPositions(ix);
    }
  }

  /** The ranks of the present placeholders; a missing id or display takes the other's rank. */
  function PositionsOf(ix: Indices): GroupPositions {
    var id := if ix.id >= 0 then ix.Rank(Id) else ix.Rank(Display);
    var display := if ix.display >= 0 then ix.Rank(Display) else id;
    var typ := if ix.typ >= 0 then Some(ix.Rank(Type)) else None;
    GroupPositions(id, display, typ)
  }

  lemma RankPositions(ix: Indices)
    requires ix.Distinct()
    ensures var pos := PositionsOf(ix);
      (forall a: Placeholder, b: Placeholder :: ix.At(a) >= 0 && ix.At(b) >= 0 ==>
        (ix.At(a) < ix.At(b) <==> Position(pos, a) < Position(pos, b))) &&
      (forall a: Placeholder :: ix.At(a) >= 0 ==> 1 <= Position(pos, a) <= ix.Count())
  {
    RankOrder(ix);
    var pos := PositionsOf(ix);
    assert forall a :: ix.At(a) >= 0 ==> Position(pos, a) == ix.Rank(a);
  }

  // ---------------------------------------------------------------------
  // What a scan needs from a template

  /** The compiled regex of a template together with its group positions. */
  datatype Grammar = Grammar(pattern: Pattern, positions: GroupPositions)

  function GrammarOf(markup: string): Result<Grammar, string> {
    match ComputeCapturingGroupPositions(markup)
    case Failure(e) => Failure(e)
    case Success(pos) => Success(Grammar(MarkupToRegex(markup, false), pos))
  }

  /** The grammar is the compiled regex together with the computed positions, whenever these exist. */
  lemma GrammarOfParts(markup: string, pos: GroupPositions)
    requires ComputeCapturingGroupPositions(markup) == Success(pos)
    ensures GrammarOf(markup) == Success(Grammar(MarkupToRegex(markup, false), pos))
  {
  }

  /** A template is rejected exactly when its positions cannot be computed. */
  lemma GrammarOfFails(markup: string)
    ensures GrammarOf(markup).Failure? <==> ComputeCapturingGroupPositions(markup).Failure?
  {
  }

  /**
   * Every group position names a capture the regex has, and the regex
   * consumes at least one character (so a scan always advances).
   */
  predicate WellFormed(g: Grammar) {
    var n := GroupCount(g.pattern.atoms);
    |g.pattern.atoms| > 0 &&
    1 <= g.positions.id <= n && 1 <= g.positions.display <= n &&
    (g.positions.typ.Some? ==> 1 <= g.positions.typ.value <= n)
  }

  /** A template the scanner can run on: either rejected outright, or well formed. */
  predicate Supported(markup: string) {
    GrammarOf(markup).Success? ==> WellFormed(GrammarOf(markup).value)
  }

  // ---------------------------------------------------------------------
  // The default template

  /** The regex of the default template: `@\[(.+?)\]\((.+?)\)`, display in group 1, id in group 2. */
  const DefaultPattern: Pattern :=
    Pattern([Char('@'), Char('['), Group(Display), Char(']'), Char('('), Group(Id), Char(')')], false)

  /** The characters of `@[__display__](__id__)`, the template a mention uses unless told otherwise. */
  predicate SpellsDefault(m: string) {
    |m| == 22 && m[0] == '@' && m[1] == '[' && m[2] == '_' && m[3] == '_' && m[4] == 'd' && m[5] == 'i' &&
    m[6] == 's' && m[7] == 'p' && m[8] == 'l' && m[9] == 'a' && m[10] == 'y' && m[11] == '_' && m[12] == '_' &&
    m[13] == ']' && m[14] == '(' && m[15] == '_' && m[16] == '_' && m[17] == 'i' && m[18] == 'd' &&
    m[19] == '_' && m[20] == '_' && m[21] == ')'
  }

  /** In the default template the display comes first, then the id, and there is no type. */
  lemma DefaultIndices(m: string)
    requires SpellsDefault(m)
    ensures IndicesOf(m) == Indices(15, 2, -1)
  {
    assert m[2..13] == "__display__";
    MismatchAt(m, "__display__", 0, 0);
    MismatchAt(m, "__display__", 1, 0);
    IndexOfFirst(m, "__display__", 2);
    assert m[15..21] == "__id__";
    forall k | 0 <= k < 15
      ensures !OccursAt(m, "__id__", k)
    {
      if k == 2 || k == 11 { MismatchAt(m, "__id__", k, 2); }
      else if k == 3 || k == 12 { MismatchAt(m, "__id__", k, 1); }
      else { MismatchAt(m, "__id__", k, 0); }
    }
    IndexOfFirst(m, "__id__", 15);
    forall k | 0 <= k
      ensures !OccursAt(m, "__type__", k)
    {
      if k <= 14 {
        if k == 2 || k == 11 { MismatchAt(m, "__type__", k, 2); }
        else if k == 3 || k == 12 { MismatchAt(m, "__type__", k, 1); }
        else { MismatchAt(m, "__type__", k, 0); }
      }
    }
    IndexOfAbsent(m, "__type__");
  }

  /** The escaped default template with its display placeholder replaced. */
  const DefaultAfterDisplay: seq<Atom> :=
    [Char('@'), Char('['), Group(Display), Char(']'), Char('('), Char('_'), Char('_'),
     Char('i'), Char('d'), Char('_'), Char('_'), Char(')')]

  lemma LiteralSlice(s: string, i: nat, j: nat)
    requires i <= j <= |s|
    ensures Literal(s)[i..j] == Literal(s[i..j])
  {
    var a, b := Literal(s)[i..j], Literal(s[i..j]);
    assert |a| == |b| == j - i;
    forall k | 0 <= k < j - i
      ensures a[k] == b[k]
    {
      assert a[k] == Literal(s)[i + k] == Char(s[i + k]);
      assert b[k] == Char(s[i..j][k]);
    }
  }

  /** `replace` with the first occurrence known. */
  lemma ReplaceFirstAt<T>(s: seq<T>, needle: seq<T>, rep: seq<T>, k: nat)
    requires OccursAt(s, needle, k) && forall j :: 0 <= j < k ==> !OccursAt(s, needle, j)
    ensures ReplaceFirst(s, needle, rep) == s[..k] + rep + s[k + |needle|..]
  {
    IndexOfFirst(s, needle, k);
  }

  lemma DisplayReplacedAt2(lit: seq<Atom>)
    requires |lit| == 22 && lit[0] == Char('@') && lit[1] == Char('[')
    requires lit[2..13] == Literal(PlaceholderText(Display))
    ensures ReplacePlaceholder(lit, Display) == lit[..2] + [Group(Display)] + lit[13..]
  {
    ReplaceFirstAt2(lit, Literal(PlaceholderText(Display)), [Group(Display)]);
  }

  /** A needle that first occurs at 2, after two characters it cannot start with. */
  lemma ReplaceFirstAt2<T>(s: seq<T>, needle: seq<T>, rep: seq<T>)
    requires |needle| > 0 && 2 + |needle| <= |s| && s[2..2 + |needle|] == needle
    requires s[0] != needle[0] && s[1] != needle[0]
    ensures ReplaceFirst(s, needle, rep) == s[..2] + rep + s[2 + |needle|..]
  {
    MismatchAt(s, needle, 0, 0);
    MismatchAt(s, needle, 1, 0);
    ReplaceFirstAt(s, needle, rep, 2);
  }

  lemma DefaultDisplaySlice(m: string)
    requires SpellsDefault(m)
    ensures Literal(m)[2..13] == Literal(PlaceholderText(Display))
  {
    assert m[2..13] == PlaceholderText(Display);
    LiteralSlice(m, 2, 13);
  }

  lemma DefaultDisplaySplice(m: string)
    requires SpellsDefault(m)
    ensures Literal(m)[..2] + [Group(Display)] + Literal(m)[13..] == DefaultAfterDisplay
  {
  }

  lemma DefaultDisplayReplaced(m: string)
    requires SpellsDefault(m)
    ensures ReplacePlaceholder(Literal(m), Display) == DefaultAfterDisplay
  {
    DefaultDisplaySlice(m);
    DisplayReplacedAt2(Literal(m));
    DefaultDisplaySplice(m);
  }

  lemma DefaultIdReplaced()
    ensures ReplacePlaceholder(DefaultAfterDisplay, Id) == DefaultPattern.atoms
  {
    var a1 := DefaultAfterDisplay;
    var id := Literal(PlaceholderText(Id));
    assert a1[5..11] == id && id[0] == Char('_');
    ReplaceFirstAfter(a1, id, [Group(Id)], 5);
  }

  /** A needle whose first character does not occur before k, and that occurs at k. */
  lemma ReplaceFirstAfter<T>(s: seq<T>, needle: seq<T>, rep: seq<T>, k: nat)
    requires |needle| > 0 && OccursAt(s, needle, k)
    requires forall j :: 0 <= j < k ==> s[j] != needle[0]
    ensures ReplaceFirst(s, needle, rep) == s[..k] + rep + s[k + |needle|..]
  {
    forall j | 0 <= j < k
      ensures !OccursAt(s, needle, j)
    {
      MismatchAt(s, needle, j, 0);
    }
    ReplaceFirstAt(s, needle, rep, k);
  }

  lemma DefaultPositions(m: string)
    requires SpellsDefault(m)
    ensures ComputeCapturingGroupPositions(m) == Success(GroupPositions(2, 1, None))
  {
    DefaultIndices(m);
    var ix := IndicesOf(m);
    assert ix.Rank(Id) == 2 && ix.Rank(Display) == 1;
  }

  lemma DefaultRegex(m: string)
    requires SpellsDefault(m)
    ensures MarkupToRegex(m, false) == DefaultPattern
  {
    DefaultDisplayReplaced(m);
    DefaultIdReplaced();
    assert ReplacePlaceholder(DefaultPattern.atoms, Type) == DefaultPattern.atoms;
  }

  /**
   * The default template compiles to `@\[(.+?)\]\((.+?)\)` with the
   * display in group 1 and the id in group 2, and is well formed.
   */
  lemma DefaultGrammarOf(m: string)
    requires SpellsDefault(m)
    ensures GrammarOf(m) == Success(DefaultGrammar) && WellFormed(DefaultGrammar)
  {
    DefaultPositions(m);
    DefaultRegex(m);
    DefaultWellFormed();
  }

  /** The grammar of the default template. */
  const DefaultGrammar: Grammar := Grammar(DefaultPattern, GroupPositions(2, 1, None))

  lemma DefaultWellFormed()
    ensures WellFormed(DefaultGrammar)
  {
    assert GroupCount(DefaultPattern.atoms) == 2;
  }

  // ---------------------------------------------------------------------
  // The two caches

  /**
   * MARKUP_REGEX_CACHE and PLACEHOLDER_MARKUP_POSITIONS_CACHE. A cached
   * regex is a shared object: whoever fetches it shares its `lastIndex`.
   */
  class Registry {
    var regexCache: map<string, RegExp>
    var positionsCache: map<string, GroupPositions>

    ghost predicate Valid()
      reads this
    {
      (forall m {:trigger regexCache[m]} :: m in regexCache ==> regexCache[m].pattern == MarkupToRegex(m, false)) &&
      (forall m {:trigger positionsCache[m]} :: m in positionsCache ==> ComputeCapturingGroupPositions(m) == Success(positionsCache[m]))
    }

    constructor ()
      ensures Valid()
      ensures regexCache == map[] && positionsCache == map[]
    {
      regexCache := map[];
      positionsCache := map[];
    }

    /** Where the next search with the cached regex of `markup` starts (0 for a regex not built yet). */
    ghost function CursorFor(markup: string): nat
      reads this, regexCache.Values
    {
      if markup in regexCache then regexCache[markup].lastIndex else 0
    }

    /**
     * useMarkupRegex: the supplied regex if any, else the cached one, else
     * a freshly compiled one; the cache entry is left equal to the result.
     */
    method UseMarkupRegex(markup: string, supplied: RegExp?) returns (r: RegExp)
      requires Valid()
      requires supplied != null ==> supplied.pattern == MarkupToRegex(markup, false)
      modifies this
      ensures Valid()
      ensures supplied != null ==> r == supplied
      ensures supplied == null && markup in old(regexCache) ==> r == old(regexCache)[markup]
      ensures supplied == null && markup !in old(regexCache) ==> fresh(r) && r.lastIndex == 0
      ensures regexCache == old(regexCache)[markup := r]
      ensures positionsCache == old(positionsCache)
      ensures r.pattern == MarkupToRegex(markup, false)
    {
      if supplied != null {
        r := supplied;
      } else if markup in regexCache {
        r := regexCache[markup];
      } else {
        r := new RegExp(MarkupToRegex(markup, false));
      }
      regexCache := regexCache[markup := r];
    }

    /** getMarkupRegex: useMarkupRegex without a supplied regex. */
    method GetMarkupRegex(markup: string) returns (r: RegExp)
      requires Valid()
      modifies this
      ensures Valid()
      ensures markup in old(regexCache) ==> r == old(regexCache)[markup]
      ensures markup !in old(regexCache) ==> fresh(r) && r.lastIndex == 0
      ensures regexCache == old(regexCache)[markup := r]
      ensures positionsCache == old(positionsCache)
      ensures r.pattern == MarkupToRegex(markup, false)
    {
      r := UseMarkupRegex(markup, null);
    }

    /** Adding a computed entry keeps every entry of the positions cache computed. */
    static lemma CacheAdd(cache: map<string, GroupPositions>, markup: string, pos: GroupPositions)
      requires forall m :: m in cache ==> ComputeCapturingGroupPositions(m) == Success(cache[m])
      requires ComputeCapturingGroupPositions(markup) == Success(pos)
      ensures forall m :: m in cache[markup := pos] ==> ComputeCapturingGroupPositions(m) == Success(cache[markup := pos][m])
    {
    }

    /** getCapturingGroupPositions: computed once per template; an error is not cached. */
    method GetCapturingGroupPositions(markup: string) returns (r: Result<GroupPositions, string>)
      requires Valid()
      modifies this
      ensures Valid()
      ensures r == ComputeCapturingGroupPositions(markup)
      ensures positionsCache == if r.Success? then old(positionsCache)[markup := r.value] else old(positionsCache)
      ensures regexCache == old(regexCache)
    {
      if markup in positionsCache {
        r := Success(positionsCache[markup]);
        assert r == ComputeCapturingGroupPositions(markup);
        assert positionsCache == positionsCache[markup := r.value];
      } else {
        r := ComputeCapturingGroupPositions(markup);
        if r.Success? {
          CacheAdd(positionsCache, markup, r.value);
          positionsCache := positionsCache[markup := r.value];
        }
      }
    }
  }
}

=== FILE: mentions.dfy ===
/**
 * The mentions of a value (getMentions) and the markup of a new mention
 * (makeMentionsMarkup).
 */
module Mentions {
  import opened Wrappers
  import opened JsString
  import opened Regex
  import opened Markup
  import opened Scanner
  import opened Offsets

  /** One entry of getMentions: `{id, display, type, index, plainTextIndex}`. */
  datatype MentionRecord = MentionRecord(id: string, display: string, typ: Option<string>, index: nat, plainTextIndex: nat)

  function Record(e: Event): MentionRecord
    requires e.Mention?
  {
    MentionRecord(e.id, e.display, e.typ, e.index, e.plainIndex)
  }

  /** The records the mention callback pushes, in the order of the callbacks. */
  function Records(events: seq<Event>): (r: seq<MentionRecord>)
    ensures |r| <= |events|
  {
    if events == [] then []
    else if events[0].Mention? then [Record(events[0])] + Records(events[1..])
    else Records(events[1..])
  }

  /**
   * getMentions: no callback ever stops the traversal, and no display
   * transform is applied. Specified here with a fresh regex cursor.
   */
  function GetMentions(s: string, g: Grammar): seq<MentionRecord>
    requires WellFormed(g)
  {
    Records(Events(s, g, None))
  }

  /** The event the j-th record comes from. */
  function NthMention(events: seq<Event>, j: nat): (k: nat)
    requires j < |Records(events)|
    ensures k < |events| && events[k].Mention? && Records(events)[j] == Record(events[k])
  {
    if events[0].Mention? then
      if j == 0 then 0 else 1 + NthMention(events[1..], j - 1)
    else 1 + NthMention(events[1..], j)
  }

  lemma {:induction false} NthMentionIncreasing(events: seq<Event>, i: nat, j: nat)
    requires i < j < |Records(events)|
    ensures NthMention(events, i) < NthMention(events, j)
  {
    if events[0].Mention? {
      if i > 0 {
        NthMentionIncreasing(events[1..], i - 1, j - 1);
      }
    } else {
      NthMentionIncreasing(events[1..], i, j);
    }
  }

  /** Every mention callback leaves its record. */
  lemma {:induction false} RecordsComplete(events: seq<Event>, k: nat)
    requires k < |events| && events[k].Mention?
    ensures Record(events[k]) in Records(events)
  {
    if k > 0 {
      assert events[1..][k - 1] == events[k];
      RecordsComplete(events[1..], k - 1);
    }
  }

  /** Every record getMentions returns comes from a mention of the value. */
  lemma GetMentionsSound(s: string, g: Grammar)
    requires WellFormed(g)
    ensures var r, events := GetMentions(s, g), Events(s, g, None);
      forall j :: 0 <= j < |r| ==> exists k :: 0 <= k < |events| && events[k].Mention? && r[j] == Record(events[k])
  {
    var r, events := GetMentions(s, g), Events(s, g, None);
    forall j | 0 <= j < |r|
      ensures exists k :: 0 <= k < |events| && events[k].Mention? && r[j] == Record(events[k])
    {
      var k := NthMention(events, j);
    }
  }

  /** Every mention of the value has its record. */
  lemma GetMentionsComplete(s: string, g: Grammar)
    requires WellFormed(g)
    ensures var r, events := GetMentions(s, g), Events(s, g, None);
      forall k :: 0 <= k < |events| && events[k].Mention? ==> Record(events[k]) in r
  {
    var events := Events(s, g, None);
    forall k | 0 <= k < |events| && events[k].Mention?
      ensures Record(events[k]) in Records(events)
    {
      RecordsComplete(events, k);
    }
  }

  /** Each record's display sits at its plainTextIndex in the plain text, and its markup within the value. */
  lemma GetMentionsPlaced(s: string, g: Grammar)
    requires WellFormed(g)
    ensures var r, plain := GetMentions(s, g), Project(s, g, None);
      forall j :: 0 <= j < |r| ==>
        r[j].index < |s| && r[j].plainTextIndex + |r[j].display| <= |plain| &&
        plain[r[j].plainTextIndex..r[j].plainTextIndex + |r[j].display|] == r[j].display
  {
    var r, events := GetMentions(s, g), Events(s, g, None);
    EventsShape(s, g, None);
    ProjectIsPlainOfEvents(s, g, None);
    forall j | 0 <= j < |r|
      ensures r[j].index < |s| && r[j].plainTextIndex + |r[j].display| <= |PlainOf(events)|
      ensures PlainOf(events)[r[j].plainTextIndex..r[j].plainTextIndex + |r[j].display|] == r[j].display
    {
      var k := NthMention(events, j);
      AlternatesAt(events, k);
      TilesBounds(events, s, 0, 0, k);
      PlainAtOffset(events, s, k);
    }
  }

  /** The records come in the order of the value, and neither their markup nor their displays overlap. */
  lemma GetMentionsOrdered(s: string, g: Grammar)
    requires WellFormed(g)
    ensures var r := GetMentions(s, g);
      forall i, j :: 0 <= i < j < |r| ==>
        r[i].index < r[j].index && r[i].plainTextIndex + |r[i].display| <= r[j].plainTextIndex
  {
    var r, events := GetMentions(s, g), Events(s, g, None);
    EventsShape(s, g, None);
    forall i, j | 0 <= i < j < |r|
      ensures r[i].index < r[j].index && r[i].plainTextIndex + |r[i].display| <= r[j].plainTextIndex
    {
      var ki, kj := NthMention(events, i), NthMention(events, j);
      NthMentionIncreasing(events, i, j);
      AlternatesAt(events, ki);
      TilesOrdered(events, s, 0, 0, ki, kj);
    }
  }

  // ---------------------------------------------------------------------
  // Markup of a new mention

  /**
   * makeMentionsMarkup: the first `__id__`, then the first `__display__`,
   * then the first `__type__` of the template replaced, in that order.
   */
  function MakeMentionsMarkup(markup: string, id: string, display: string, typ: string): string {
    var r := ReplaceFirst(markup, PlaceholderText(Id), id);
    var r := ReplaceFirst(r, PlaceholderText(Display), display);
    ReplaceFirst(r, PlaceholderText(Type), typ)
  }

  /** The default template filled in: `@[display](id)`. */
  function DefaultMention(id: string, display: string): string {
    "@[" + display + "](" + id + ")"
  }

  /** `__type__` cannot straddle the brackets of `@[display](id)`: it lies in the display or the id, or nowhere. */
  lemma NoTypeInDefaultMention(id: string, display: string)
    requires IndexOf(id, PlaceholderText(Type)) == -1 && IndexOf(display, PlaceholderText(Type)) == -1
    ensures IndexOf(DefaultMention(id, display), PlaceholderText(Type)) == -1
  {
    var s, t := DefaultMention(id, display), PlaceholderText(Type);
    var d, n := |display|, |id|;
    IndexOfSpec(display, t);
    IndexOfSpec(id, t);
    assert |t| == 8 && forall j :: 0 <= j < 8 ==> t[j] !in "@[]()";
    assert s[0] == '@' && s[1] == '[' && s[2 + d] == ']' && s[3 + d] == '(' && s[4 + d + n] == ')';
    forall k | 0 <= k
      ensures !OccursAt(s, t, k)
    {
      if k + 8 <= |s| {
        if k <= 1 {
          MismatchAt(s, t, k, 0);
        } else if k + 8 <= 2 + d {
          assert s[k..k + 8] == display[k - 2..k + 6];
          assert !OccursAt(display, t, k - 2);
        } else if k <= 2 + d {
          MismatchAt(s, t, k, 2 + d - k);
        } else if k == 3 + d {
          MismatchAt(s, t, k, 0);
        } else if k + 8 <= 4 + d + n {
          assert s[k..k + 8] == id[k - 4 - d..k + 4 - d];
          assert !OccursAt(id, t, k - 4 - d);
        } else {
          MismatchAt(s, t, k, 4 + d + n - k);
        }
      }
    }
    IndexOfAbsent(s, t);
  }

  lemma DefaultIdFilled(m: string, id: string)
    requires SpellsDefault(m)
    ensures ReplaceFirst(m, PlaceholderText(Id), id) == "@[__display__](" + id + ")"
  {
    DefaultIndices(m);
    assert m[..15] == "@[__display__](" && m[21..] == ")";
  }

  lemma DefaultDisplayFilled(id: string, display: string)
    ensures ReplaceFirst("@[__display__](" + id + ")", PlaceholderText(Display), display) == DefaultMention(id, display)
  {
    var r, t := "@[__display__](" + id + ")", PlaceholderText(Display);
    assert r[2..13] == t;
    MismatchAt(r, t, 0, 0);
    MismatchAt(r, t, 1, 0);
    IndexOfFirst(r, t, 2);
    assert r[..2] == "@[" && r[13..] == "](" + id + ")";
  }

  /**
   * With the default template, makeMentionsMarkup gives `@[display](id)`
   * whatever the type, as long as neither the id nor the display
   * contains `__type__` (a later replace would rewrite it).
   */
  lemma MakeMentionsMarkupDefault(m: string, id: string, display: string, typ: string)
    requires SpellsDefault(m)
    requires IndexOf(id, PlaceholderText(Type)) == -1 && IndexOf(display, PlaceholderText(Type)) == -1
    ensures MakeMentionsMarkup(m, id, display, typ) == DefaultMention(id, display)
  {
    DefaultIdFilled(m, id);
    DefaultDisplayFilled(id, display);
    NoTypeInDefaultMention(id, display);
  }

  /** A lazy group keeps growing past every end at which the rest of the pattern fails. */
  lemma {:induction false} LazyGroupGrows(rest: seq<Atom>, s: string, i: nat, j: nat, stop: nat)
    requires i < j <= stop <= |s|
    requires forall k :: j - 1 <= k < stop - 1 ==> !IsLineTerminator(s[k])
    requires forall k :: j <= k < stop ==> MatchFrom(rest, s, k, false).None?
    ensures LazyGroup(rest, s, i, j, false) == LazyGroup(rest, s, i, stop, false)
    decreases stop - j
  {
    if j < stop {
      LazyGroupGrows(rest, s, i, j + 1, stop);
    }
  }

  /** A capture the lazy groups of the default template read back whole. */
  predicate Plain(t: string, closing: char) {
    |t| > 0 && forall k :: 0 <= k < |t| ==> t[k] != closing && !IsLineTerminator(t[k])
  }

  /** The id group of the default pattern ends at the closing parenthesis. */
  lemma IdGroupMatches(s: string, id: string, at: nat)
    requires Plain(id, ')') && at + |id| + 1 == |s|
    requires s[at..at + |id|] == id && s[at + |id|] == ')'
    ensures MatchFrom(DefaultPattern.atoms[5..], s, at, false) == Some(Span(|s|, [id]))
  {
    var n := |id|;
    var idRest := DefaultPattern.atoms[6..];
    assert idRest == [Char(')')];
    forall k | at + 1 <= k < at + n
      ensures MatchFrom(idRest, s, k, false).None?
    {
      assert s[k] == id[k - at];
    }
    assert MatchFrom(idRest, s, at + n, false) == Some(Span(|s|, []));
    forall k | at <= k < at + n - 1
      ensures !IsLineTerminator(s[k])
    {
      assert s[k] == id[k - at];
    }
    LazyGroupGrows(idRest, s, at, at + 1, at + n);
    assert s[at + n - 1] == id[n - 1];
    assert [s[at..at + n]] + [] == [id];
    assert LazyGroup(idRest, s, at, at + n, false) == Some(Span(|s|, [id]));
    assert DefaultPattern.atoms[5] == Group(Id) && DefaultPattern.atoms[5..][1..] == idRest;
  }

  /** The display group of the default pattern, opened at `at`, ends at the closing bracket. */
  lemma DisplayGroupMatches(s: string, id: string, display: string, at: nat)
    requires Plain(display, ']') && Plain(id, ')') && |s| == at + |display| + |id| + 3
    requires s[at..at + |display|] == display && s[at + |display|] == ']' && s[at + |display| + 1] == '('
    requires s[at + |display| + 2..at + |display| + 2 + |id|] == id && s[at + |display| + 2 + |id|] == ')'
    ensures LazyGroup(DefaultPattern.atoms[3..], s, at, at + 1, false) == Some(Span(|s|, [display, id]))
  {
    var d := |display|;
    var displayRest := DefaultPattern.atoms[3..];
    IdGroupMatches(s, id, at + d + 2);
    assert displayRest[2..] == DefaultPattern.atoms[5..];
    assert MatchFrom(displayRest, s, at + d, false) == Some(Span(|s|, [id]));
    forall k | at + 1 <= k < at + d
      ensures MatchFrom(displayRest, s, k, false).None?
    {
      assert s[k] == display[k - at];
    }
    forall k | at <= k < at + d - 1
      ensures !IsLineTerminator(s[k])
    {
      assert s[k] == display[k - at];
    }
    LazyGroupGrows(displayRest, s, at, at + 1, at + d);
    assert s[at + d - 1] == display[d - 1];
    assert [s[at..at + d]] + [id] == [display, id];
    assert LazyGroup(displayRest, s, at, at + d, false) == Some(Span(|s|, [display, id]));
  }

  lemma DefaultMentionMatches(id: string, display: string)
    requires Plain(display, ']') && Plain(id, ')')
    ensures var s := DefaultMention(id, display);
      MatchFrom(DefaultPattern.atoms, s, 0, false) == Some(Span(|s|, [display, id]))
  {
    var s := DefaultMention(id, display);
    var d, n := |display|, |id|;
    assert s[2..2 + d] == display && s[4 + d..4 + d + n] == id;
    assert s[0] == '@' && s[1] == '[' && s[2 + d] == ']' && s[3 + d] == '(' && s[4 + d + n] == ')';
    DisplayGroupMatches(s, id, display, 2);
    assert DefaultPattern.atoms[2..][1..] == DefaultPattern.atoms[3..];
  }

  /** Past the end of the value there is nothing left to match. */
  lemma NoMatchAtEnd(s: string)
    ensures FirstMatch(DefaultPattern, s, |s|) == None
  {
    assert FirstMatch(DefaultPattern, s, |s| + 1) == None;
  }

  /** A value that is one whole match is one mention, preceded by an empty text run, */
  lemma SingleMatchEvents(s: string, g: Grammar, tf: Option<DisplayTransform>, m: Match, at: nat)
    requires WellFormed(g) && at == 0
    requires FirstMatch(g.pattern, s, at) == Some(m) && m.index == at && m.end == |s|
    requires FirstMatch(g.pattern, s, |s|) == None
    ensures var (id, display, typ) := Captures(m, g, tf);
      Walk(s, g, tf, at, at, at) == [TextRun("", 0, 0), Mention(s, 0, 0, id, display, typ, 0)]
  {
    assert s[at..|s|] == s && s[at..at] == "";
  }

  /** and its plain text is the display. */
  lemma SingleMatchPlain(s: string, g: Grammar, tf: Option<DisplayTransform>, m: Match, at: nat)
    requires WellFormed(g) && at == 0
    requires FirstMatch(g.pattern, s, at) == Some(m) && m.index == at && m.end == |s|
    requires FirstMatch(g.pattern, s, |s|) == None
    ensures ProjectFrom(s, g, tf, at) == Captures(m, g, tf).1
  {
    assert s[at..at] == "" && s[|s|..] == "";
  }

  lemma WholeMatchFirst(s: string, id: string, display: string)
    requires MatchFrom(DefaultPattern.atoms, s, 0, false) == Some(Span(|s|, [display, id]))
    ensures FirstMatch(DefaultPattern, s, 0) == Some(Match(0, |s|, [display, id]))
  {
  }

  lemma DefaultCaptures(m: Match)
    requires |m.groups| == 2
    ensures WellFormed(DefaultGrammar) && Captures(m, DefaultGrammar, None) == (m.groups[1], m.groups[0], None)
  {
    DefaultWellFormed();
  }

  /**
   * Round trip: the markup makeMentionsMarkup builds with the default
   * template reads back as exactly one mention, with the same id and
   * display, at offset 0 in both texts; its plain text is the display.
   */
  lemma MentionReadsBack(m: string, id: string, display: string, typ: string)
    requires SpellsDefault(m)
    requires Plain(display, ']') && Plain(id, ')')
    requires IndexOf(id, PlaceholderText(Type)) == -1 && IndexOf(display, PlaceholderText(Type)) == -1
    ensures var s := MakeMentionsMarkup(m, id, display, typ);
      WellFormed(DefaultGrammar) &&
      GetMentions(s, DefaultGrammar) == [MentionRecord(id, display, None, 0, 0)] &&
      Project(s, DefaultGrammar, None) == display
  {
    MakeMentionsMarkupDefault(m, id, display, typ);
    var s := DefaultMention(id, display);
    DefaultMentionMatches(id, display);
    WholeMatchFirst(s, id, display);
    NoMatchAtEnd(s);
    DefaultCaptures(Match(0, |s|, [display, id]));
    SingleMatchEvents(s, DefaultGrammar, None, Match(0, |s|, [display, id]), 0);
    SingleMatchPlain(s, DefaultGrammar, None, Match(0, |s|, [display, id]), 0);
    var mention := Mention(s, 0, 0, id, display, None, 0);
    assert Records([TextRun("", 0, 0), mention]) == [Record(mention)];
  }
}

=== FILE: mentions_input.dfy ===
/**
 * The MentionsInput component's bookkeeping: the value it shows, the
 * selection it keeps, the suggestion rounds it runs for its Mention
 * children and the mentions it adds. Rendering is not modelled; React's
 * state updates are applied at once, in the order the handlers make them.
 * The utilities are used with a fresh regex cursor for every lookup.
 */
module Input {
  import opened Wrappers
  import opened JsString
  import opened JsObject
  import opened Suggestions
  import opened Markup
  import opened Scanner
  import opened Offsets
  import opened Reconciler
  import opened Mentions

  // ---------------------------------------------------------------------
  // getCurrentValue

  /**
   * getCurrentValue: the component's own value while the parent still
   * passes the prop value it had when that value was recorded (and the
   * own value is not empty); otherwise the prop value, or "".
   */
  function CurrentValue(propValue: Option<string>, lastPropValue: Option<string>, local: string): (r: string)
    ensures propValue == lastPropValue && local != "" ==> r == local
    ensures !(propValue == lastPropValue && local != "") ==> r == propValue.GetOr("")
  {
    if propValue == lastPropValue && local != "" then local
    else if propValue.Some? && propValue.value != "" then propValue.value
    else ""
  }

  // ---------------------------------------------------------------------
  // Keyboard navigation

  /** shiftFocus: `(count + focusIndex + delta) % count`, with JavaScript's remainder. */
  function ShiftedFocus(count: nat, focus: int, delta: int): (r: int)
    requires count > 0
    ensures 0 <= focus && -(count as int) <= delta ==> 0 <= r < count
    ensures 0 <= focus < count && 0 <= focus + delta < count ==> r == focus + delta
    ensures 0 <= focus < count && focus + delta == count ==> r == 0
    ensures 0 <= focus < count && focus + delta == -1 ==> r == count - 1
  {
    JsRemainder(count + focus + delta, count)
  }

  /** Pressing DOWN n times. */
  function DownTimes(count: nat, focus: int, n: nat): int
    requires count > 0
  {
    if n == 0 then focus else ShiftedFocus(count, DownTimes(count, focus, n - 1), 1)
  }

  /** Below the end of the list, each DOWN moves one place. */
  lemma {:induction false} DownTimesBelow(count: nat, focus: int, n: nat)
    requires count > 0 && 0 <= focus && focus + n < count
    ensures DownTimes(count, focus, n) == focus + n
  {
    if n > 0 {
      DownTimesBelow(count, focus, n - 1);
    }
  }

  lemma {:induction false} DownTimesSplit(count: nat, focus: int, a: nat, b: nat)
    requires count > 0
    ensures DownTimes(count, focus, a + b) == DownTimes(count, DownTimes(count, focus, a), b)
  {
    if b > 0 {
      DownTimesSplit(count, focus, a, b - 1);
    }
  }

  /** Navigation is cyclic: `count` presses of DOWN come back to the suggestion they started from. */
  lemma DownCycles(count: nat, focus: int)
    requires 0 <= focus < count
    ensures DownTimes(count, focus, count) == focus
  {
    var toLast := count - 1 - focus;
    DownTimesBelow(count, focus, toLast);
    DownTimesSplit(count, focus, toLast, 1);
    assert DownTimes(count, count - 1, 1) == 0;
    DownTimesSplit(count, focus, toLast + 1, focus);
    DownTimesBelow(count, 0, focus);
    assert toLast + 1 + focus == count;
  }

  /** What the key handlers do. */
  datatype Command = ClearCommand | ShiftCommand(delta: int) | SelectCommand

  const KeyTab := 9
  const KeyReturn := 13
  const KeyEsc := 27
  const KeyUp := 38
  const KeyDown := 40

  /** The keyHandlers table: ESC clears, DOWN and UP move the focus, RETURN and TAB select. */
  function KeyHandler(keyCode: int): Option<Command> {
    if keyCode == KeyEsc then Some(ClearCommand)
    else if keyCode == KeyDown then Some(ShiftCommand(1))
    else if keyCode == KeyUp then Some(ShiftCommand(-1))
    else if keyCode == KeyReturn || keyCode == KeyTab then Some(SelectCommand)
    else None
  }

  // ---------------------------------------------------------------------
  // Trigger matches

  /**
   * What the trigger regex of a Mention child found in the plain text up
   * to the caret: where the match starts, its first group (trigger and
   * query) and its second group (the query).
   */
  datatype TriggerMatch = TriggerMatch(index: nat, replaced: string, query: string)

  /** A Mention child: its props, and the match of its trigger, if any. */
  datatype Child = Child(descriptor: Descriptor, trigger: Option<TriggerMatch>)

  /** The entry a query files when its data provider answers at once; nothing when it answers later. */
  function Filing(query: string, d: Descriptor, queryStart: int, queryEnd: int, plainText: string): seq<Entry> {
    match Provided(d.data, query)
    case None => []
    case Some(results) => [Entry(query, d, queryStart, queryEnd, results, plainText)]
  }

  /** The entry the synchronous answer to a child's query files, if it matched and was answered. */
  function Answered(plainText: string, caret: int, c: Child): seq<Entry> {
    match c.trigger
    case None => []
    case Some(t) =>
      var qs := IndexOfFrom(Substring(plainText, 0, caret), t.replaced, t.index);
      Filing(t.query, c.descriptor, qs, qs + |t.replaced|, plainText)
  }

  /** The entries one round of queries files, child by child. */
  function RoundEntries(plainText: string, caret: int, children: seq<Child>): seq<Entry> {
    if children == [] then []
    else
      var n := |children| - 1;
      RoundEntries(plainText, caret, children[..n]) + Answered(plainText, caret, children[n])
  }

  /** One more child queried. */
  lemma RoundEntriesStep(plainText: string, caret: int, children: seq<Child>, i: nat)
    requires i < |children|
    ensures RoundEntries(plainText, caret, children[..i + 1]) ==
            RoundEntries(plainText, caret, children[..i]) + Answered(plainText, caret, children[i])
  {
    assert children[..i + 1][..i] == children[..i];
  }

  // ---------------------------------------------------------------------
  // The selection after a change

  datatype Selection = Selection(start: int, end: int, restore: bool)

  /**
   * The selection handleChange records: with mentions treated as units,
   * a new caret that falls in a mention's display of the old value, when
   * the old selection ended past that mention's start, moves to the
   * mention's start and is restored after rendering.
   */
  function SnappedSelection(value: string, g: Grammar, tf: Option<DisplayTransform>, unit: bool,
                            newStart: int, newEnd: int, oldEnd: int): Selection
    requires WellFormed(g)
  {
    var startOfMention := FindStartOfMentionInPlainText(value, g, newStart, tf);
    if unit && startOfMention.Some? && oldEnd > startOfMention.value then
      Selection(startOfMention.value, startOfMention.value, true)
    else Selection(newStart, newEnd, false)
  }

  /**
   * The selection snaps exactly when some mention's display covers the
   * new caret and the old selection ended past that mention's start; it
   * then collapses onto that start.
   */
  lemma SnappedSelectionMeans(value: string, g: Grammar, tf: Option<DisplayTransform>, unit: bool,
                              newStart: int, newEnd: int, oldEnd: int)
    requires WellFormed(g)
    ensures var events := Events(value, g, tf);
      var r := SnappedSelection(value, g, tf, unit, newStart, newEnd, oldEnd);
      (r.restore <==> unit && exists k :: 0 <= k < |events| && Covers(newStart, events[k]) && oldEnd > events[k].plainIndex) &&
      (forall k :: 0 <= k < |events| && Covers(newStart, events[k]) && r.restore ==>
        r.start == r.end == events[k].plainIndex) &&
      (!r.restore ==> r == Selection(newStart, newEnd, false))
  {
    FindStartOfMentionMeans(value, g, newStart, tf);
  }

  // ---------------------------------------------------------------------
  // Adding a mention

  /** What onChange receives: the new value, its plain text and its mentions. */
  datatype Change = Change(value: string, plainText: string, mentions: seq<MentionRecord>)

  /** The markup addMention inserts (a missing display or type is written as "undefined"). */
  function Inserted(markup: string, item: Item, d: Descriptor): string {
    MakeMentionsMarkup(markup, item.id, item.display.GetOr("undefined"), d.typ.GetOr("undefined")) +
    (if d.appendSpaceOnAdd then " " else "")
  }

  /**
   * The text the new mention shows: the display transform's result (the
   * default transform returns the display, which may be missing), with a
   * space appended when the Mention asks for one. Nothing when it is
   * missing and no space is appended: taking its length then throws.
   */
  function ShownText(tf: Option<DisplayTransform>, item: Item, d: Descriptor): Option<string> {
    var shown := if tf.Some? then Some(tf.value(item.id, item.display.GetOr("undefined"), d.typ)) else item.display;
    if d.appendSpaceOnAdd then Some(shown.GetOr("undefined") + " ") else shown
  }

  /** Where the query starts in the marked-up value. */
  function QueryOffset(value: string, g: Grammar, tf: Option<DisplayTransform>, entry: Entry): int
    requires WellFormed(g)
  {
    MapPlainTextIndex(value, g, Number(entry.queryStart), Start, tf).n
  }

  /** addMention's new value: the query's extent in the value replaced by the mention's markup. */
  function AddedValue(value: string, g: Grammar, tf: Option<DisplayTransform>, markup: string, item: Item, entry: Entry): string
    requires WellFormed(g)
  {
    var start := QueryOffset(value, g, tf, entry);
    SpliceString(value, start, start + entry.queryEnd - entry.queryStart, Inserted(markup, item, entry.descriptor))
  }

  /** The source of an event sits at its offset in the value the events tile. */
  lemma {:induction false} TilesSource(events: seq<Event>, s: string, start: nat, plain: nat, k: nat)
    requires Tiles(events, s, start, plain) && k < |events|
    ensures events[k].End() <= |s| && s[events[k].index..events[k].End()] == events[k].Source()
  {
    if k > 0 {
      var e := events[0];
      assert events[1..][k - 1] == events[k];
      TilesSource(events[1..], s, e.End(), e.PlainEnd(), k - 1);
    }
  }

  /** The query lies within one text run of the value, which the entry's plain text is the projection of. */
  predicate QueryInRun(value: string, g: Grammar, tf: Option<DisplayTransform>, entry: Entry, k: nat)
    requires WellFormed(g)
  {
    var events := Events(value, g, tf);
    k < |events| && events[k].TextRun? &&
    (k == 0 || events[k].plainIndex < entry.queryStart) &&
    0 <= entry.queryStart <= entry.queryEnd <= events[k].PlainEnd()
  }

  /** Where the query sits in the value when it lies within text run `k`. */
  function RunOffset(value: string, g: Grammar, tf: Option<DisplayTransform>, entry: Entry, k: nat): int
    requires WellFormed(g) && QueryInRun(value, g, tf, entry, k)
  {
    var run := Events(value, g, tf)[k];
    run.index + (entry.queryStart - run.plainIndex)
  }

  /** A query within a text run starts, in the value, at the matching place of the run. */
  lemma QueryOffsetInRun(value: string, g: Grammar, tf: Option<DisplayTransform>, entry: Entry, k: nat)
    requires WellFormed(g) && QueryInRun(value, g, tf, entry, k)
    ensures QueryOffset(value, g, tf, entry) == RunOffset(value, g, tf, entry, k)
  {
    MapPlainTextIndexInRun(value, g, entry.queryStart, Start, tf, k);
  }

  /**
   * A query within a text run maps to the run's own characters: the
   * query's extent in the value holds the same characters as in the
   * plain text.
   */
  lemma QuerySliceInRun(value: string, g: Grammar, tf: Option<DisplayTransform>, entry: Entry, k: nat)
    requires WellFormed(g) && QueryInRun(value, g, tf, entry, k)
    ensures var start := RunOffset(value, g, tf, entry, k);
      var end := start + (entry.queryEnd - entry.queryStart);
      var plain := Project(value, g, tf);
      0 <= start <= end <= |value| && entry.queryEnd <= |plain| &&
      value[start..end] == plain[entry.queryStart..entry.queryEnd]
  {
    var run := Events(value, g, tf)[k];
    RunInBoth(value, g, tf, k);
    RunQuery(value, Project(value, g, tf), run, k == 0, entry.queryStart, entry.queryEnd, RunOffset(value, g, tf, entry, k));
  }

  /** A query between a text run's plain offset and its end sits at the matching place of the run in the value. */
  lemma RunQuery(value: string, plain: string, run: Event, first: bool, qs: int, qe: int, start: int)
    requires RunSits(value, plain, run, first)
    requires (first || run.plainIndex < qs) && 0 <= qs <= qe <= run.PlainEnd()
    requires start == run.index + (qs - run.plainIndex)
    ensures 0 <= start <= start + (qe - qs) <= |value| && qe <= |plain| &&
      value[start..start + (qe - qs)] == plain[qs..qe]
  {
    SameTextBothSides(value, plain, run.index, run.plainIndex, run.text, qs, qe);
  }

  /** Text found at offset `p` of one string and `q` of another: any stretch of it is the same in both. */
  lemma SameTextBothSides(x: string, y: string, p: nat, q: nat, t: string, i: int, j: int)
    requires p + |t| <= |x| && x[p..p + |t|] == t && q + |t| <= |y| && y[q..q + |t|] == t
    requires q <= i <= j <= q + |t|
    ensures 0 <= p + (i - q) <= p + (j - q) <= |x| && j <= |y| && x[p + (i - q)..p + (j - q)] == y[i..j]
  {
    SliceOfSlice(x, p, t, i - q, j - q);
    SliceOfSlice(y, q, t, i - q, j - q);
  }

  /** A text run whose characters sit at its offset in `value` and at its plain offset in `plain`; the first run starts both. */
  predicate RunSits(value: string, plain: string, run: Event, first: bool) {
    run.TextRun? &&
    run.index + |run.text| <= |value| && value[run.index..run.index + |run.text|] == run.text &&
    run.plainIndex + |run.text| <= |plain| && plain[run.plainIndex..run.plainIndex + |run.text|] == run.text &&
    (first ==> run.plainIndex == 0)
  }

  /** A text run's characters sit at its offset in the value and at its plain offset in the projection. */
  lemma RunInBoth(value: string, g: Grammar, tf: Option<DisplayTransform>, k: nat)
    requires WellFormed(g) && k < |Events(value, g, tf)| && Events(value, g, tf)[k].TextRun?
    ensures RunSits(value, Project(value, g, tf), Events(value, g, tf)[k], k == 0)
  {
    var events := Events(value, g, tf);
    EventsShape(value, g, tf);
    TilesSource(events, value, 0, 0, k);
    ProjectIsPlainOfEvents(value, g, tf);
    PlainAtOffset(events, value, k);
  }

  /**
   * When the query lies within one text run of the value, addMention
   * replaces exactly the query's characters by the markup.
   */
  lemma AddedReplacesQuery(value: string, g: Grammar, tf: Option<DisplayTransform>, markup: string, item: Item, entry: Entry, k: nat)
    requires WellFormed(g) && QueryInRun(value, g, tf, entry, k)
    ensures var start := RunOffset(value, g, tf, entry, k);
      var end := start + (entry.queryEnd - entry.queryStart);
      0 <= start <= end <= |value| && entry.queryEnd <= |Project(value, g, tf)| &&
      value[start..end] == Project(value, g, tf)[entry.queryStart..entry.queryEnd] &&
      AddedValue(value, g, tf, markup, item, entry) == value[..start] + Inserted(markup, item, entry.descriptor) + value[end..]
  {
    var start := RunOffset(value, g, tf, entry, k);
    var end := start + (entry.queryEnd - entry.queryStart);
    QueryOffsetInRun(value, g, tf, entry, k);
    QuerySliceInRun(value, g, tf, entry, k);
    assert AddedValue(value, g, tf, markup, item, entry) == SpliceString(value, start, end, Inserted(markup, item, entry.descriptor));
  }

  /** A slice of a slice is a slice of the whole. */
  lemma SliceOfSlice(x: string, p: nat, t: string, a: nat, b: nat)
    requires p + |t| <= |x| && x[p..p + |t|] == t && a <= b <= |t|
    ensures x[p + a..p + b] == t[a..b]
  {
    forall j | 0 <= j < b - a
      ensures x[p + a..p + b][j] == t[a..b][j]
    {
      assert x[p + a..p + b][j] == x[p + a + j] == x[p..p + |t|][a + j];
    }
  }

  /** The new plain text addMention reports holds the shown text between the query start and the new caret. */
  lemma AddedPlainText(plain: string, entry: Entry, shown: string)
    requires 0 <= entry.queryStart <= entry.queryEnd <= |plain|
    ensures var r := SpliceString(plain, entry.queryStart, entry.queryEnd, shown);
      var caret := entry.queryStart + |shown|;
      caret <= |r| && r[entry.queryStart..caret] == shown &&
      r[..entry.queryStart] == plain[..entry.queryStart] && r[caret..] == plain[entry.queryEnd..]
  {
    var r := SpliceString(plain, entry.queryStart, entry.queryEnd, shown);
    assert r == plain[..entry.queryStart] + shown + plain[entry.queryEnd..];
  }

  /** The `extend({}, current, { [key]: entry })` call of updateSuggestions. */
  method FileEntry(current: SuggestionMap, entry: Entry) returns (r: SuggestionMap)
    requires JsObject.Valid(current)
    ensures r == Filed(current, entry) && JsObject.Valid(r)
  {
    ExtendFiles(current, entry);
    r := Extend(Empty(), [current, Single(entry.descriptor.Key(), entry)]);
  }


  // ---------------------------------------------------------------------
  // The component

  class MentionsInput {
    // props
    const markup: string
    const grammar: Grammar
    const displayTransform: Option<DisplayTransform>
    const treatMentionAsUnit: bool
    const useInsertTextQueryCommand: bool
    /** `this.props.value`, which the parent may change between events. */
    var propValue: Option<string>

    // state
    var value: string
    var lastPropValue: Option<string>
    var selectionStart: Option<int>
    var selectionEnd: Option<int>
    var setSelectionAfterMentionChange: bool
    var suggestions: SuggestionMap
    var focusIndex: int
    var scrollFocusedIntoView: bool

    // instance properties
    /** `this.suggestions`: what every round so far has filed, which the state is given after each filing. */
    var pending: SuggestionMap
    /** `this._queryId`: the number of the current query round. */
    var queryId: nat

    /** The entries the current round has filed, in order. */
    ghost var answers: seq<Entry>

    ghost predicate Valid()
      reads this
    {
      WellFormed(grammar) &&
      JsObject.Valid(suggestions) && JsObject.Valid(pending) && 0 <= focusIndex && ShowsFiled()
    }

    /**
     * The state shows nothing until the current round files an entry,
     * and from then on all of `this.suggestions`, which a clear does not
     * reset.
     */
    ghost predicate ShowsFiled()
      reads this
    {
      (answers == [] ==> suggestions == Empty()) && (answers != [] ==> suggestions == pending)
    }

    /** The fields the text handlers change. */
    function TextState(): (Option<string>, string, Option<string>, Option<int>, Option<int>, bool)
      reads this
    {
      (propValue, value, lastPropValue, selectionStart, selectionEnd, setSelectionAfterMentionChange)
    }

    /** The fields a query round changes. */
    ghost function RoundState(): (SuggestionMap, SuggestionMap, nat, seq<Entry>)
      reads this
    {
      (suggestions, pending, queryId, answers)
    }

    /** The fields the suggestion handlers change. */
    ghost function QueryState(): ((SuggestionMap, SuggestionMap, nat, seq<Entry>), int, bool)
      reads this
    {
      (RoundState(), focusIndex, scrollFocusedIntoView)
    }

    /** getInitialState, for a template the utilities accept. */
    constructor (markup: string, grammar: Grammar, displayTransform: Option<DisplayTransform>,
                 treatMentionAsUnit: bool, useInsertTextQueryCommand: bool, propValue: Option<string>)
      requires GrammarOf(markup) == Success(grammar) && WellFormed(grammar)
      ensures Valid() && GrammarOf(this.markup) == Success(this.grammar)
      ensures this.markup == markup && this.grammar == grammar && this.displayTransform == displayTransform
      ensures this.treatMentionAsUnit == treatMentionAsUnit && this.useInsertTextQueryCommand == useInsertTextQueryCommand
      ensures this.propValue == propValue && value == "" && lastPropValue == None
      ensures selectionStart == None && selectionEnd == None && !setSelectionAfterMentionChange
      ensures suggestions == Empty() && pending == Empty() && queryId == 0 && answers == []
      ensures focusIndex == 0 && !scrollFocusedIntoView
    {
      this.markup := markup;
      this.grammar := grammar;
      this.displayTransform := displayTransform;
      this.treatMentionAsUnit := treatMentionAsUnit;
      this.useInsertTextQueryCommand := useInsertTextQueryCommand;
      this.propValue := propValue;
      value := "";
      lastPropValue := None;
      selectionStart := None;
      selectionEnd := None;
      setSelectionAfterMentionChange := false;
      suggestions := Empty();
      focusIndex := 0;
      scrollFocusedIntoView := false;
      pending := Empty();
      queryId := 0;
      answers := [];
    }

    /** The parent renders the component with a new `value` prop. */
    method ReceiveValue(p: Option<string>)
      modifies this
      ensures propValue == p
      ensures value == old(value) && lastPropValue == old(lastPropValue)
      ensures selectionStart == old(selectionStart) && selectionEnd == old(selectionEnd)
      ensures setSelectionAfterMentionChange == old(setSelectionAfterMentionChange)
      ensures QueryState() == old(QueryState())
      ensures old(Valid()) ==> Valid()
    {
      propValue := p;
    }

    function GetCurrentValue(): string
      reads this
    {
      CurrentValue(propValue, lastPropValue, value)
    }

    /** `setState` of the text fields: the value, the last prop value and the selection; nothing else changes. */
    method SetText(newValue: string, last: Option<string>, start: int, end: int, restore: bool)
      modifies this
      ensures TextState() == (old(propValue), newValue, last, Some(start), Some(end), restore)
      ensures QueryState() == old(QueryState())
      ensures old(Valid()) ==> Valid()
    {
      value, lastPropValue := newValue, last;
      selectionStart, selectionEnd := Some(start), Some(end);
      setSelectionAfterMentionChange := restore;
    }

    /** shiftFocus: the focus moves by `delta`, wrapping around the suggestions shown. */
    method ShiftFocus(delta: int)
      requires Valid() && Count(suggestions) > 0 && (delta == 1 || delta == -1)
      modifies this
      ensures Valid()
      ensures focusIndex == ShiftedFocus(Count(old(suggestions)), old(focusIndex), delta) && scrollFocusedIntoView
      ensures RoundState() == old(RoundState())
      ensures TextState() == old(TextState())
    {
      var count := CountSuggestions(suggestions);
      focusIndex := JsRemainder(count + focusIndex + delta, count);
      scrollFocusedIntoView := true;
    }

    /**
     * clearSuggestions: a new query round starts, so late answers to the
     * earlier ones are dropped, and no suggestion is shown. `this.suggestions`
     * keeps the entries of earlier rounds.
     */
    method ClearSuggestions()
      requires Valid()
      modifies this
      ensures Valid()
      ensures RoundState() == (Empty(), old(pending), old(queryId) + 1, []) && focusIndex == 0
      ensures scrollFocusedIntoView == old(scrollFocusedIntoView)
      ensures TextState() == old(TextState())
    {
      queryId := queryId + 1;
      suggestions := Empty();
      focusIndex := 0;
      answers := [];
    }

    /** A clear that also forgets `this.suggestions`, so that a round shows only its own answers. */
    method ClearSuggestionsForgetting()
      requires Valid()
      modifies this
      ensures Valid()
      ensures queryId == old(queryId) + 1 && suggestions == Empty() && focusIndex == 0 && answers == []
      ensures pending == Empty()
      ensures scrollFocusedIntoView == old(scrollFocusedIntoView)
      ensures TextState() == old(TextState())
    {
      queryId := queryId + 1;
      pending := Empty();
      suggestions := Empty();
      focusIndex := 0;
      answers := [];
    }

    /**
     * updateSuggestions: an answer to an earlier round changes nothing; an
     * answer to the current round is filed under its mention type, and
     * the state is given everything filed.
     */
    method UpdateSuggestions(qid: nat, d: Descriptor, query: string, queryStart: int, queryEnd: int,
                             plainText: string, results: seq<Item>)
      requires Valid()
      modifies this
      ensures Valid()
      ensures qid != old(queryId) ==> QueryState() == old(QueryState())
      ensures qid == old(queryId) ==>
        var entry := Entry(query, d, queryStart, queryEnd, results, plainText);
        pending == Filed(old(pending), entry) && suggestions == pending &&
        answers == old(answers) + [entry] &&
        queryId == old(queryId) && focusIndex == old(focusIndex) && scrollFocusedIntoView == old(scrollFocusedIntoView)
      ensures TextState() == old(TextState())
    {
      if qid != queryId {
        return;
      }
      var entry := Entry(query, d, queryStart, queryEnd, results, plainText);
      var update := FileEntry(pending, entry);
      pending, suggestions, answers := update, update, answers + [entry];
    }

    /** queryData: the data provider's synchronous answer, if any, is filed for the current round. */
    method QueryData(query: string, d: Descriptor, queryStart: int, queryEnd: int, plainText: string)
      requires Valid()
      modifies this
      ensures Valid()
      ensures answers == old(answers) + Filing(query, d, queryStart, queryEnd, plainText)
      ensures pending == FileOnto(old(pending), Filing(query, d, queryStart, queryEnd, plainText))
      ensures queryId == old(queryId) && focusIndex == old(focusIndex)
      ensures TextState() == old(TextState())
    {
      var results := ProvideData(d.data, query);
      if results.Some? {
        UpdateSuggestions(queryId, d, query, queryStart, queryEnd, plainText, results.value);
      }
    }

    /**
     * updateMentionsQueries: a new round starts; no query is made while
     * the caret is strictly inside a mention of the prop value; otherwise
     * every child whose trigger matched is queried, in order. Once the
     * round files an entry, the state shows it on top of everything filed
     * in earlier rounds.
     */
    method UpdateMentionsQueries(plainText: string, caret: int, children: seq<Child>)
      requires Valid()
      modifies this
      ensures Valid()
      ensures queryId == old(queryId) + 1 && focusIndex == 0
      ensures answers ==
        if IsInsideOfMention(old(propValue).GetOr(""), grammar, caret, displayTransform) then []
        else RoundEntries(plainText, caret, children)
      ensures pending == FileOnto(old(pending), answers)
      ensures suggestions == if answers == [] then Empty() else pending
      ensures TextState() == old(TextState())
    {
      ClearSuggestions();
      var value := propValue.GetOr("");
      if IsInsideOfMention(value, grammar, caret, displayTransform) {
        return;
      }
      var substring := Substring(plainText, 0, caret);
      var i := 0;
      while i < |children|
        invariant 0 <= i <= |children|
        invariant Valid()
        invariant queryId == old(queryId) + 1 && focusIndex == 0
        invariant answers == RoundEntries(plainText, caret, children[..i])
        invariant pending == FileOnto(old(pending), answers)
        invariant TextState() == old(TextState())
      {
        ghost var before := answers;
        QueryChild(plainText, caret, substring, children[i]);
        RoundEntriesStep(plainText, caret, children, i);
        FileOntoAppend(old(pending), before, Answered(plainText, caret, children[i]));
        i := i + 1;
      }
      assert children[..i] == children;
      assert answers == RoundEntries(plainText, caret, children);
    }

    /** One child of the loop: queried when its trigger matched, at the query's first place in the text before the caret from the match on. */
    method QueryChild(plainText: string, caret: int, substring: string, child: Child)
      requires Valid() && substring == Substring(plainText, 0, caret)
      modifies this
      ensures Valid()
      ensures answers == old(answers) + Answered(plainText, caret, child)
      ensures pending == FileOnto(old(pending), Answered(plainText, caret, child))
      ensures queryId == old(queryId) && focusIndex == old(focusIndex)
      ensures TextState() == old(TextState())
    {
      if child.trigger.Some? {
        var t := child.trigger.value;
        var qs := IndexOfFrom(substring, t.replaced, t.index);
        QueryData(t.query, child.descriptor, qs, qs + |t.replaced|, plainText);
      }
    }

    /**
     * handleChange: when the input has the focus, the change to the plain
     * text is applied to the current value (mentions treated as units),
     * the selection is recorded (snapped to a mention's start when the
     * change removes that mention), and onChange receives the new value,
     * its plain text and its mentions.
     */
    method HandleChange(focused: bool, newPlain: string, newStart: int, newEnd: int) returns (change: Option<Change>)
      requires Valid() && (focused ==> selectionStart.Some? && selectionEnd.Some?)
      modifies this
      ensures Valid()
      ensures !focused ==> change == None && TextState() == old(TextState())
      ensures focused ==>
        var current := CurrentValue(old(propValue), old(lastPropValue), old(value));
        var newValue := ApplyChange(current, grammar, displayTransform, newPlain,
                                    At(old(selectionStart).value), At(old(selectionEnd).value), newEnd, true);
        var sel := SnappedSelection(current, grammar, displayTransform, treatMentionAsUnit, newStart, newEnd, old(selectionEnd).value);
        change == Some(Change(newValue, Project(newValue, grammar, displayTransform), GetMentions(newValue, grammar))) &&
        value == newValue && lastPropValue == old(propValue) && propValue == old(propValue) &&
        selectionStart == Some(sel.start) && selectionEnd == Some(sel.end) && setSelectionAfterMentionChange == sel.restore
      ensures QueryState() == old(QueryState())
    {
      if !focused {
        return None;
      }
      var current := GetCurrentValue();
      var newValue := ApplyChange(current, grammar, displayTransform, newPlain,
                                  At(selectionStart.value), At(selectionEnd.value), newEnd, true);
      var newPlainText := Project(newValue, grammar, displayTransform);
      var sel := SnappedSelection(current, grammar, displayTransform, treatMentionAsUnit, newStart, newEnd, selectionEnd.value);
      SetText(newValue, propValue, sel.start, sel.end, sel.restore);
      var mentions := GetMentions(newValue, grammar);
      change := Some(Change(newValue, newPlainText, mentions));
    }

    /**
     * What addMention leaves behind, the focus aside. With no text to
     * show, nothing has changed (taking its length throws). Otherwise the
     * value holds the new mention and the caret sits right after the
     * shown text, to be restored after rendering; without the insertText
     * command, onChange is given the new value, the plain text with the
     * query replaced by the shown text, and the mentions, and the
     * suggestions are cleared (`this.suggestions` keeps its entries).
     */
    twostate predicate AddedMention(suggestion: Item, entry: Entry, new r: Result<Option<Change>, string>)
      reads this
    {
      var shown := ShownText(displayTransform, suggestion, entry.descriptor);
      WellFormed(grammar) && scrollFocusedIntoView == old(scrollFocusedIntoView) &&
      (if shown.None? then
         r.Failure? && TextState() == old(TextState()) && RoundState() == old(RoundState())
       else
         var current := CurrentValue(old(propValue), old(lastPropValue), old(value));
         var newValue := AddedValue(current, grammar, displayTransform, markup, suggestion, entry);
         var caret := entry.queryStart + |shown.value|;
         TextState() == (old(propValue), newValue, old(propValue), Some(caret), Some(caret), true) &&
         (if useInsertTextQueryCommand then
            r == Success(None) && RoundState() == old(RoundState())
          else
            r == Success(Some(Change(newValue, SpliceString(entry.plainTextValue, entry.queryStart, entry.queryEnd, shown.value),
                                     GetMentions(newValue, grammar)))) &&
            RoundState() == (Empty(), old(pending), old(queryId) + 1, [])))
    }

    /**
     * addMention: the query's extent in the current value is replaced by
     * the mention's markup and the caret goes right after the shown text;
     * without the insertText command the change is reported and the
     * suggestions are cleared, which resets the focus. A missing display
     * with the default transform and no appended space throws.
     */
    method AddMention(suggestion: Item, entry: Entry) returns (r: Result<Option<Change>, string>)
      requires Valid()
      modifies this
      ensures Valid() && AddedMention(suggestion, entry, r)
      ensures focusIndex == if r.Success? && !useInsertTextQueryCommand then 0 else old(focusIndex)
    {
      var displayValue := ShownText(displayTransform, suggestion, entry.descriptor);
      if displayValue.None? {
        return Failure("TypeError: cannot read property 'length' of undefined");
      }
      var current := GetCurrentValue();
      var newValue := AddedValue(current, grammar, displayTransform, markup, suggestion, entry);
      var caret := entry.queryStart + |displayValue.value|;
      SetText(newValue, propValue, caret, caret, true);
      if useInsertTextQueryCommand {
        r := Success(None);
        return;
      }
      var newPlainText := SpliceString(entry.plainTextValue, entry.queryStart, entry.queryEnd, displayValue.value);
      r := ReportMention(newValue, newPlainText);
    }

    /** The end of addMention without insertText: onChange is given the new value, and the suggestions are cleared. */
    method ReportMention(newValue: string, newPlainText: string) returns (r: Result<Option<Change>, string>)
      requires Valid()
      modifies this
      ensures Valid()
      ensures r == Success(Some(Change(newValue, newPlainText, GetMentions(newValue, grammar))))
      ensures RoundState() == (Empty(), old(pending), old(queryId) + 1, []) && focusIndex == 0
      ensures scrollFocusedIntoView == old(scrollFocusedIntoView) && TextState() == old(TextState())
    {
      var mentions := GetMentions(newValue, grammar);
      ClearSuggestions();
      r := Success(Some(Change(newValue, newPlainText, mentions)));
    }

    /**
     * What selectFocused leaves behind. Without a focused suggestion (the
     * focus past the suggestions shown), destructuring it throws and
     * nothing changes; otherwise the focused suggestion is added as
     * addMention does, and once added the focus goes back to the first.
     */
    twostate predicate SelectedFocused(new r: Result<Option<Change>, string>)
      reads this
    {
      old(JsObject.Valid(suggestions)) &&
      var found := GetSuggestion(old(suggestions), old(focusIndex));
      if found.None? then
        r.Failure? && TextState() == old(TextState()) && QueryState() == old(QueryState())
      else
        AddedMention(found.value.suggestion, found.value.descriptor, r) &&
        focusIndex == if r.Success? then 0 else old(focusIndex)
    }

    /** selectFocused: the focused suggestion is added and the focus goes back to the first one. */
    method SelectFocused() returns (r: Result<Option<Change>, string>)
      requires Valid()
      modifies this
      ensures Valid() && SelectedFocused(r)
    {
      var found := GetSuggestion(suggestions, focusIndex);
      if found.None? {
        return Failure("TypeError: cannot destructure an undefined suggestion");
      }
      r := AddMention(found.value.suggestion, found.value.descriptor);
      if r.Failure? {
        return;
      }
      ResetFocus();
    }

    /** `setState({ focusIndex: 0 })`. */
    method ResetFocus()
      requires Valid()
      modifies this
      ensures Valid() && focusIndex == 0 && scrollFocusedIntoView == old(scrollFocusedIntoView)
      ensures TextState() == old(TextState()) && RoundState() == old(RoundState())
    {
      focusIndex := 0;
    }

    /**
     * handleKeyDown: a key with a handler is intercepted only while
     * suggestions are shown in the overlay; ESC clears them, DOWN and UP
     * move the focus, RETURN and TAB select. Any other key changes nothing.
     */
    method HandleKeyDown(keyCode: int, overlayShown: bool) returns (intercepted: bool, r: Result<Option<Change>, string>)
      requires Valid()
      modifies this
      ensures Valid()
      ensures intercepted <==> KeyHandler(keyCode).Some? && Count(old(suggestions)) > 0 && overlayShown
      ensures !intercepted ==> r == Success(None) && TextState() == old(TextState()) && QueryState() == old(QueryState())
      ensures intercepted && KeyHandler(keyCode) == Some(ClearCommand) ==>
        r == Success(None) && suggestions == Empty() && focusIndex == 0 && queryId == old(queryId) + 1 &&
        pending == old(pending) && answers == [] && TextState() == old(TextState())
      ensures intercepted && KeyHandler(keyCode).Some? && KeyHandler(keyCode).value.ShiftCommand? ==>
        r == Success(None) &&
        focusIndex == ShiftedFocus(Count(old(suggestions)), old(focusIndex), KeyHandler(keyCode).value.delta) &&
        RoundState() == old(RoundState()) && TextState() == old(TextState())
      ensures intercepted && KeyHandler(keyCode) == Some(SelectCommand) ==> SelectedFocused(r)
    {
      var command := KeyHandler(keyCode);
      if command.None? {
        return false, Success(None);
      }
      var count := CountSuggestions(suggestions);
      if count == 0 || !overlayShown {
        return false, Success(None);
      }
      intercepted := true;
      match command.value
      case ClearCommand =>
        ClearSuggestions();
        r := Success(None);
      case ShiftCommand(delta) =>
        ShiftFocus(delta);
        r := Success(None);
      case SelectCommand =>
        r := SelectFocused();
    }
  }

  // ---------------------------------------------------------------------
  // Entries of earlier rounds

  /** Two Mention children, `@` for users and `#` for tags, answering from arrays. */
  function UserMention(): Descriptor {
    Descriptor(Some("user"), ArrayData([Item("1", Some("John"))]), false)
  }

  function TagMention(): Descriptor {
    Descriptor(Some("tag"), ArrayData([Item("t1", Some("travel"))]), false)
  }

  /**
   * With clearSuggestions as the component runs it, and the default template
   * `@[__display__](__id__)`: "@jo" is answered with users; then
   * the text becomes "@jo #t", a new round starts, and only the tag
   * trigger matches. The state shown after the tag answer still holds
   * the users found for the earlier query.
   */
  method StaleTypeResurfaces(markup: string) returns (shown: SuggestionMap)
    requires SpellsDefault(markup)
    ensures Get(shown, "tag").Some?
    ensures Get(shown, "user").Some? && Get(shown, "user").value.query == "jo"
  {
    DefaultGrammarOf(markup);
    var c := new MentionsInput(markup, DefaultGrammar, None, true, false, None);
    var user := Entry("jo", UserMention(), 0, 3, [Item("1", Some("John"))], "@jo");
    var tag := Entry("t", TagMention(), 4, 6, [Item("t1", Some("travel"))], "@jo #t");
    c.UpdateSuggestions(c.queryId, UserMention(), "jo", 0, 3, "@jo", [Item("1", Some("John"))]);
    c.ClearSuggestions();
    c.UpdateSuggestions(c.queryId, TagMention(), "t", 4, 6, "@jo #t", [Item("t1", Some("travel"))]);
    shown := c.suggestions;
    assert shown == Filed(Filed(Empty(), user), tag);
    PutFacts(Empty(), "user", user);
    PutFacts(Filed(Empty(), user), "tag", tag);
  }

  /** The same events with the clear that also forgets `this.suggestions`: only the tags are shown. */
  method ClearForgetsEarlierRounds(markup: string) returns (shown: SuggestionMap)
    requires SpellsDefault(markup)
    ensures Get(shown, "tag").Some? && Get(shown, "user") == None
  {
    DefaultGrammarOf(markup);
    var c := new MentionsInput(markup, DefaultGrammar, None, true, false, None);
    var tag := Entry("t", TagMention(), 4, 6, [Item("t1", Some("travel"))], "@jo #t");
    c.UpdateSuggestions(c.queryId, UserMention(), "jo", 0, 3, "@jo", [Item("1", Some("John"))]);
    c.ClearSuggestionsForgetting();
    c.UpdateSuggestions(c.queryId, TagMention(), "t", 4, 6, "@jo #t", [Item("t1", Some("travel"))]);
    shown := c.suggestions;
    assert shown == Filed(Empty(), tag);
    PutFacts(Empty(), "tag", tag);
  }
}

=== FILE: offsets.dfy ===
/**
 * Mapping positions between the plain text shown in the textarea and the
 * marked up value: mapPlainTextIndex, findStartOfMentionInPlainText and
 * isInsideOfMention. Each is a traversal whose callback stops at the
 * event that answers the question.
 *
 * `MapFrom` and `FindStartFrom` take the regex cursor the traversal starts
 * from and also return the cursor it leaves behind. The functions named
 * after the source operations start from a fresh cursor.
 */
module Offsets {
  import opened Wrappers
  import opened Regex
  import opened Markup
  import opened Scanner

  /** `inMarkupCorrection`: where an index inside a mention goes. */
  datatype Correction = Start | End | Null

  /** The `indexInPlainText` argument: a number, or anything else (`isNumber` fails). */
  datatype IndexArg = Number(n: int) | Other(description: string)

  /** The result of mapPlainTextIndex: an offset into the value, `null`, or the argument handed back. */
  datatype Mapped = Offset(n: int) | NullOffset | Unmapped(arg: IndexArg)

  /** The test each callback of mapPlainTextIndex makes before it returns true. */
  predicate Reaches(i: int, e: Event) {
    if e.TextRun? then e.PlainEnd() >= i else e.PlainEnd() > i
  }

  /** What the callback that returned true stores in `result`. */
  function Resolve(e: Event, i: int, corr: Correction): Mapped {
    if e.TextRun? then Offset(e.index + i - e.plainIndex)
    else if corr == Null then NullOffset
    else Offset(e.index + (if corr == End then |e.markup| else 0))
  }

  function Last(events: seq<Event>): Event
    requires events != []
  {
    events[|events| - 1]
  }

  /** mapPlainTextIndex from regex cursor `cursor`: the mapped index and the cursor left behind. */
  function MapFrom(s: string, g: Grammar, tf: Option<DisplayTransform>, arg: IndexArg, corr: Correction, cursor: nat): (r: (Mapped, nat))
    requires WellFormed(g)
    ensures arg.Number? && corr != Null ==> r.0.Offset?
    ensures arg.Other? ==> r == (Unmapped(arg), cursor)
  {
    if arg.Other? then (Unmapped(arg), cursor)
    else
      var events := Walk(s, g, tf, 0, cursor, 0);
      var halt := (e: Event) => Reaches(arg.n, e);
      var visited := Visited(events, halt);
      var mapped := if visited != [] && halt(Last(visited)) then Resolve(Last(visited), arg.n, corr) else Offset(|s|);
      (mapped, ResumeCursor(events, halt))
  }

  /** mapPlainTextIndex with a fresh regex cursor. */
  function MapPlainTextIndex(s: string, g: Grammar, arg: IndexArg, corr: Correction, tf: Option<DisplayTransform>): Mapped
    requires WellFormed(g)
  {
    MapFrom(s, g, tf, arg, corr, 0).0
  }

  /** The test the callback of findStartOfMentionInPlainText makes. */
  predicate Covers(i: int, e: Event) {
    e.Mention? && e.plainIndex <= i < e.PlainEnd()
  }

  /** findStartOfMentionInPlainText from regex cursor `cursor`: the plain start found and the cursor left behind. */
  function FindStartFrom(s: string, g: Grammar, tf: Option<DisplayTransform>, i: int, cursor: nat): (Option<nat>, nat)
    requires WellFormed(g)
  {
    var events := Walk(s, g, tf, 0, cursor, 0);
    var halt := (e: Event) => Covers(i, e);
    var visited := Visited(events, halt);
    (if visited != [] && halt(Last(visited)) then Some(Last(visited).plainIndex) else None,
     ResumeCursor(events, halt))
  }

  // ---------------------------------------------------------------------
  // The first event that stops a traversal

  /** The first event whose display covers i, or the number of events when none does. */
  function FirstCovering(events: seq<Event>, i: int): (k: nat)
    ensures k <= |events|
    ensures forall j :: 0 <= j < k ==> !Covers(i, events[j])
    ensures k < |events| ==> Covers(i, events[k])
  {
    if events == [] then 0
    else if Covers(i, events[0]) then 0
    else 1 + FirstCovering(events[1..], i)
  }

  /**
   * findStartOfMentionInPlainText (fresh cursor): the plain start of the
   * first mention whose display covers index i, or nothing when no
   * mention's display covers it.
   */
  function FindStartOfMentionInPlainText(s: string, g: Grammar, i: int, tf: Option<DisplayTransform>): (r: Option<nat>)
    requires WellFormed(g)
    ensures var events := Events(s, g, tf);
      var k := FirstCovering(events, i);
      r == if k < |events| then Some(events[k].plainIndex) else None
  {
    var events := Events(s, g, tf);
    var halt := (e: Event) => Covers(i, e);
    var k := FirstCovering(events, i);
    if k < |events| then
      VisitedUpTo(events, halt, k);
      assert Last(Visited(events, halt)) == events[k];
      FindStartFrom(s, g, tf, i, 0).0
    else
      ResumeCursorNoStop(events, halt);
      assert events != [] ==> !halt(Last(events));
      FindStartFrom(s, g, tf, i, 0).0
  }

  /**
   * findStartOfMentionInPlainText finds a start exactly when some
   * mention's display covers the index, and then it is that mention's
   * plain start.
   */
  lemma FindStartOfMentionMeans(s: string, g: Grammar, i: int, tf: Option<DisplayTransform>)
    requires WellFormed(g)
    ensures var events := Events(s, g, tf);
      FindStartOfMentionInPlainText(s, g, i, tf).Some? <==> exists k :: 0 <= k < |events| && Covers(i, events[k])
    ensures var events := Events(s, g, tf);
      forall k :: 0 <= k < |events| && Covers(i, events[k]) ==>
        FindStartOfMentionInPlainText(s, g, i, tf) == Some(events[k].plainIndex)
  {
    var events := Events(s, g, tf);
    EventsShape(s, g, tf);
    var first := FirstCovering(events, i);
    forall k | 0 <= k < |events| && Covers(i, events[k])
      ensures first == k
    {
      if first < k {
        TilesOrdered(events, s, 0, 0, first, k);
      }
    }
  }

  /** isInsideOfMention (fresh cursor). */
  function IsInsideOfMention(s: string, g: Grammar, i: int, tf: Option<DisplayTransform>): bool
    requires WellFormed(g)
  {
    var start := FindStartOfMentionInPlainText(s, g, i, tf);
    start.Some? && start.value != i
  }

  /**
   * An index is inside a mention exactly when some mention's display
   * starts strictly before it and ends strictly after it.
   */
  lemma IsInsideOfMentionMeans(s: string, g: Grammar, i: int, tf: Option<DisplayTransform>)
    requires WellFormed(g)
    ensures var events := Events(s, g, tf);
      IsInsideOfMention(s, g, i, tf) <==>
        exists k :: 0 <= k < |events| && events[k].Mention? && events[k].plainIndex < i < events[k].PlainEnd()
  {
    var events := Events(s, g, tf);
    FindStartOfMentionMeans(s, g, i, tf);
    var first := FirstCovering(events, i);
    if IsInsideOfMention(s, g, i, tf) {
      assert events[first].Mention? && events[first].plainIndex < i < events[first].PlainEnd();
    }
  }

  // ---------------------------------------------------------------------
  // mapPlainTextIndex with a fresh cursor

  /**
   * The clean mapping in one place: the first event that reaches i
   * decides the result; when none does, the result is the value's length.
   */
  lemma MapPlainTextIndexFirst(s: string, g: Grammar, i: int, corr: Correction, tf: Option<DisplayTransform>, k: nat)
    requires WellFormed(g)
    requires var events := Events(s, g, tf);
      k <= |events| && (forall j :: 0 <= j < k ==> !Reaches(i, events[j])) &&
      (k < |events| ==> Reaches(i, events[k]))
    ensures var events := Events(s, g, tf);
      MapPlainTextIndex(s, g, Number(i), corr, tf) ==
        if k < |events| then Resolve(events[k], i, corr) else Offset(|s|)
  {
    var events := Events(s, g, tf);
    var halt := (e: Event) => Reaches(i, e);
    if k < |events| {
      VisitedUpTo(events, halt, k);
      assert Last(Visited(events, halt)) == events[k];
    } else {
      ResumeCursorNoStop(events, halt);
      if events != [] {
        assert !halt(Last(events));
      }
    }
  }

  /**
   * mapPlainTextIndex from any cursor: the first event of the traversal
   * from that cursor that reaches i decides the result and the cursor
   * left behind.
   */
  lemma MapFromFirst(s: string, g: Grammar, tf: Option<DisplayTransform>, i: int, corr: Correction, cursor: nat, k: nat)
    requires WellFormed(g)
    requires var events := Walk(s, g, tf, 0, cursor, 0);
      k <= |events| && (forall j :: 0 <= j < k ==> !Reaches(i, events[j])) &&
      (k < |events| ==> Reaches(i, events[k]))
    ensures var events := Walk(s, g, tf, 0, cursor, 0);
      var r := MapFrom(s, g, tf, Number(i), corr, cursor);
      r.0 == (if k < |events| then Resolve(events[k], i, corr) else Offset(|s|)) &&
      r.1 == (if k == |events| then 0
              else if events[k].Mention? then events[k].End()
              else if k + 1 < |events| then events[k + 1].End() else 0)
  {
    var events := Walk(s, g, tf, 0, cursor, 0);
    var halt := (e: Event) => Reaches(i, e);
    if k < |events| {
      VisitedUpTo(events, halt, k);
      assert Last(Visited(events, halt)) == events[k];
      ResumeCursorAt(events, halt, k);
    } else {
      ResumeCursorNoStop(events, halt);
      if events != [] {
        assert !halt(Last(events));
      }
    }
  }

  /** An index within a text run maps to the same place in that run's text. */
  lemma MapPlainTextIndexInRun(s: string, g: Grammar, i: int, corr: Correction, tf: Option<DisplayTransform>, k: nat)
    requires WellFormed(g)
    requires var events := Events(s, g, tf);
      k < |events| && events[k].TextRun? &&
      (k == 0 || events[k].plainIndex < i) && i <= events[k].PlainEnd()
    ensures var e := Events(s, g, tf)[k];
      MapPlainTextIndex(s, g, Number(i), corr, tf) == Offset(e.index + (i - e.plainIndex))
  {
    var events := Events(s, g, tf);
    EventsShape(s, g, tf);
    forall j | 0 <= j < k
      ensures !Reaches(i, events[j])
    {
      TilesOrdered(events, s, 0, 0, j, k);
    }
    MapPlainTextIndexFirst(s, g, i, corr, tf, k);
  }

  /**
   * An index strictly inside a mention's display maps to the mention's
   * first character (START), past its last (END), or to null (NULL).
   */
  lemma MapPlainTextIndexInMention(s: string, g: Grammar, i: int, corr: Correction, tf: Option<DisplayTransform>, k: nat)
    requires WellFormed(g)
    requires var events := Events(s, g, tf);
      k < |events| && events[k].Mention? && events[k].plainIndex < i < events[k].PlainEnd()
    ensures var e := Events(s, g, tf)[k];
      MapPlainTextIndex(s, g, Number(i), corr, tf) ==
        match corr
        case Start => Offset(e.index)
        case End => Offset(e.End())
        case Null => NullOffset
  {
    var events := Events(s, g, tf);
    EventsShape(s, g, tf);
    forall j | 0 <= j < k
      ensures !Reaches(i, events[j])
    {
      TilesOrdered(events, s, 0, 0, j, k);
    }
    MapPlainTextIndexFirst(s, g, i, corr, tf, k);
  }

  /** An index past the end of the plain text maps to the end of the value. */
  lemma MapPlainTextIndexPastEnd(s: string, g: Grammar, i: int, corr: Correction, tf: Option<DisplayTransform>)
    requires WellFormed(g) && i > |Project(s, g, tf)|
    ensures MapPlainTextIndex(s, g, Number(i), corr, tf) == Offset(|s|)
  {
    var events := Events(s, g, tf);
    EventsShape(s, g, tf);
    ProjectIsPlainOfEvents(s, g, tf);
    forall j | 0 <= j < |events|
      ensures !Reaches(i, events[j])
    {
      PlainAtOffset(events, s, j);
    }
    MapPlainTextIndexFirst(s, g, i, corr, tf, |events|);
  }

  /** The first event that reaches i, or the number of events when none does. */
  function FirstReaching(events: seq<Event>, i: int): (k: nat)
    ensures k <= |events|
    ensures forall j :: 0 <= j < k ==> !Reaches(i, events[j])
    ensures k < |events| ==> Reaches(i, events[k])
  {
    if events == [] then 0
    else if Reaches(i, events[0]) then 0
    else 1 + FirstReaching(events[1..], i)
  }

  /** A larger index is reached no earlier. */
  lemma FirstReachingMonotone(events: seq<Event>, i: int, j: int)
    requires i <= j
    ensures FirstReaching(events, i) <= FirstReaching(events, j)
  {
    var kj := FirstReaching(events, j);
    if kj < |events| {
      assert Reaches(i, events[kj]);
    }
  }

  /** No mention is split: the offset lies at or before its start, or at or after its end. */
  predicate OutsideMentions(events: seq<Event>, n: int) {
    forall j :: 0 <= j < |events| && events[j].Mention? ==> n <= events[j].index || events[j].End() <= n
  }

  /**
   * For a non-negative index, the event that decides the mapping; a text
   * run decides only for an index within its plain text.
   */
  lemma {:induction false} DecidingEvent(s: string, g: Grammar, i: int, corr: Correction, tf: Option<DisplayTransform>)
    requires WellFormed(g) && 0 <= i
    ensures var events := Events(s, g, tf);
      var k := FirstReaching(events, i);
      var r := MapPlainTextIndex(s, g, Number(i), corr, tf);
      (k < |events| ==> r == Resolve(events[k], i, corr) &&
                        (events[k].TextRun? ==> events[k].plainIndex <= i <= events[k].PlainEnd())) &&
      (k == |events| ==> r == Offset(|s|))
  {
    var events := Events(s, g, tf);
    EventsShape(s, g, tf);
    var k := FirstReaching(events, i);
    MapPlainTextIndexFirst(s, g, i, corr, tf, k);
    if k < |events| && events[k].TextRun? && k > 0 {
      assert !Reaches(i, events[k - 1]);
      TilesStep(events, s, 0, 0, k - 1);
    }
  }

  /** The offset a deciding event resolves to lies within the part of the value it covers, and never strictly inside a mention. */
  lemma ResolveWithin(e: Event, i: int, corr: Correction)
    requires corr != Null
    requires e.TextRun? ==> e.plainIndex <= i <= e.PlainEnd()
    ensures var r := Resolve(e, i, corr);
      r.Offset? && e.index <= r.n <= e.End() && (e.Mention? ==> r.n == e.index || r.n == e.End())
  {
  }

  /** An offset within one event of a tiling, and not strictly inside it if it is a mention, splits no mention. */
  lemma {:induction false} OutsideMentionsAt(events: seq<Event>, s: string, k: nat, n: int)
    requires Tiles(events, s, 0, 0) && k < |events|
    requires events[k].index <= n <= events[k].End()
    requires events[k].Mention? ==> n == events[k].index || n == events[k].End()
    ensures 0 <= n <= |s| && OutsideMentions(events, n)
  {
    TilesBounds(events, s, 0, 0, k);
    forall j | 0 <= j < |events| && events[j].Mention?
      ensures n <= events[j].index || events[j].End() <= n
    {
      if j < k {
        TilesOrdered(events, s, 0, 0, j, k);
      } else if k < j {
        TilesOrdered(events, s, 0, 0, k, j);
      }
    }
  }

  /** The end of the value splits no mention. */
  lemma {:induction false} OutsideMentionsAtEnd(events: seq<Event>, s: string)
    requires Tiles(events, s, 0, 0)
    ensures OutsideMentions(events, |s|)
  {
    forall j | 0 <= j < |events| && events[j].Mention?
      ensures events[j].End() <= |s|
    {
      TilesBounds(events, s, 0, 0, j);
    }
  }

  /** Whether the k-th event of an alternating sequence is a text run. */
  lemma {:induction false} AlternatesAt(events: seq<Event>, k: nat)
    requires Alternates(events) && k < |events|
    ensures events[k].TextRun? <==> k % 2 == 0
    ensures events[k].Mention? ==> |events[k].markup| > 0
  {
    if k >= 2 {
      assert events[2..][k - 2] == events[k];
      AlternatesAt(events[2..], k - 2);
    }
  }

  /** Consecutive events of a tiling meet, in both texts. */
  lemma {:induction false} TilesStep(events: seq<Event>, s: string, start: nat, plain: nat, k: nat)
    requires Tiles(events, s, start, plain) && k + 1 < |events|
    ensures events[k + 1].index == events[k].End() && events[k + 1].plainIndex == events[k].PlainEnd()
  {
    if k > 0 {
      assert events[1..][k - 1] == events[k] && events[1..][k] == events[k + 1];
      TilesStep(events[1..], s, events[0].End(), events[0].PlainEnd(), k - 1);
    }
  }

  /**
   * With START or END, a non-negative index never maps strictly inside a
   * mention's markup, and never past the end of the value.
   */
  lemma MapPlainTextIndexKeepsMentionsWhole(s: string, g: Grammar, i: int, corr: Correction, tf: Option<DisplayTransform>)
    requires WellFormed(g) && 0 <= i && corr != Null
    ensures var r := MapPlainTextIndex(s, g, Number(i), corr, tf);
      r.Offset? && 0 <= r.n <= |s| && OutsideMentions(Events(s, g, tf), r.n)
  {
    var events := Events(s, g, tf);
    EventsShape(s, g, tf);
    DecidingEvent(s, g, i, corr, tf);
    var k := FirstReaching(events, i);
    if k < |events| {
      ResolveWithin(events[k], i, corr);
      OutsideMentionsAt(events, s, k, Resolve(events[k], i, corr).n);
    } else {
      OutsideMentionsAtEnd(events, s);
    }
  }

  /** With START or END, mapping preserves the order of non-negative indices. */
  lemma MapPlainTextIndexMonotone(s: string, g: Grammar, i: int, j: int, corr: Correction, tf: Option<DisplayTransform>)
    requires WellFormed(g) && 0 <= i <= j && corr != Null
    ensures MapPlainTextIndex(s, g, Number(i), corr, tf).n <= MapPlainTextIndex(s, g, Number(j), corr, tf).n
  {
    var events := Events(s, g, tf);
    EventsShape(s, g, tf);
    DecidingEvent(s, g, i, corr, tf);
    DecidingEvent(s, g, j, corr, tf);
    FirstReachingMonotone(events, i, j);
    ResolvedInOrder(events, s, i, j, corr, FirstReaching(events, i), FirstReaching(events, j),
      MapPlainTextIndex(s, g, Number(i), corr, tf), MapPlainTextIndex(s, g, Number(j), corr, tf));
  }

  lemma ResolvedInOrder(events: seq<Event>, s: string, i: int, j: int, corr: Correction, ki: nat, kj: nat, ri: Mapped, rj: Mapped)
    requires Tiles(events, s, 0, 0) && corr != Null && i <= j && ki <= kj <= |events|
    requires ki < |events| ==> (ri == Resolve(events[ki], i, corr) &&
      (events[ki].TextRun? ==> events[ki].plainIndex <= i <= events[ki].PlainEnd()))
    requires ki == |events| ==> ri == Offset(|s|)
    requires kj < |events| ==> (rj == Resolve(events[kj], j, corr) &&
      (events[kj].TextRun? ==> events[kj].plainIndex <= j <= events[kj].PlainEnd()))
    requires kj == |events| ==> rj == Offset(|s|)
    ensures ri.Offset? && rj.Offset? && ri.n <= rj.n
  {
    if ki < |events| {
      ResolveWithin(events[ki], i, corr);
      if kj < |events| {
        ResolveWithin(events[kj], j, corr);
        if ki < kj {
          TilesOrdered(events, s, 0, 0, ki, kj);
        }
      } else {
        TilesBounds(events, s, 0, 0, ki);
      }
    }
  }
}

=== FILE: reconciler.dfy ===
/**
 * applyChangeToValue: carrying an edit made in the plain text of the
 * textarea over to the marked up value.
 *
 * The edit is first read off the two plain texts and the selections
 * (`PlanEdit`), its bounds are mapped into the value, a mention touched
 * by the edit is removed as a whole, and when re-projecting the naive
 * result does not give the new plain text (the browser autocorrected a
 * word) the edit is re-derived from the first difference.
 *
 * `ApplyChangeWith` threads the regex cursor between the lookups when
 * `shared` holds, as the source does; `ApplyChange` gives every lookup a
 * fresh cursor.
 */
module Reconciler {
  import opened Wrappers
  import opened JsString
  import opened Regex
  import opened Markup
  import opened Scanner
  import opened Offsets

  /** spliceString: `str.substring(0, start) + insert + str.substring(end)`. */
  function SpliceString(s: string, start: int, end: int, insert: string): (r: string)
    ensures 0 <= start <= end <= |s| ==> r == s[..start] + insert + s[end..]
    ensures 0 <= start <= end <= |s| ==> |r| == |s| - (end - start) + |insert|
  {
    Substring(s, 0, start) + insert + SubstringFrom(s, end)
  }

  /** An empty splice changes nothing. */
  lemma SpliceStringEmpty(s: string, a: int)
    requires 0 <= a <= |s|
    ensures SpliceString(s, a, a, "") == s
  {
    assert s[..a] + "" + s[a..] == s;
  }

  /** A selection bound: a number, or the string `'undefined'` the component passes for a missing one. */
  datatype Bound = At(n: int) | UndefinedText

  /** The edit read off the plain texts: replace `[spliceStart, spliceEnd)` of the old plain text by `insert`. */
  datatype Edit = Edit(insert: string, spliceStart: int, spliceEnd: int)

  /**
   * The selection handling of applyChangeToValue: the `'undefined'`
   * sentinels, the step back for a composed character, Backspace (the
   * splice starts at the earlier of start and new caret) and Delete (the
   * splice end is widened by the length lost).
   */
  function PlanEdit(oldLength: nat, newPlain: string, startBefore: Bound, endBefore: Bound, endAfter: int): Edit {
    var delta := oldLength - |newPlain|;
    var sb := if startBefore.UndefinedText? then endAfter + delta else startBefore.n;
    var eb := if endBefore.UndefinedText? then sb else endBefore.n;
    var sb := if sb == eb && eb == endAfter && oldLength == |newPlain| then sb - 1 else sb;
    var insert := Slice(newPlain, sb, endAfter);
    var spliceStart := Min(sb, endAfter);
    var spliceEnd := if sb == endAfter then Max(eb, sb + delta) else eb;
    Edit(insert, spliceStart, spliceEnd)
  }

  /** The edit applied to a plain text. */
  function ApplyEdit(plain: string, e: Edit): string {
    SpliceString(plain, e.spliceStart, e.spliceEnd, e.insert)
  }

  /** Typing `t` over the selection `[a, b)` (a caret when a == b) is read back as that edit. */
  lemma PlanEditTyping(before: string, a: nat, b: nat, t: string)
    requires a <= b <= |before| && (|t| > 0 || a < b)
    ensures var newPlain := before[..a] + t + before[b..];
      var e := PlanEdit(|before|, newPlain, At(a), At(b), a + |t|);
      e == Edit(t, a, b) && ApplyEdit(before, e) == newPlain
  {
    var newPlain := before[..a] + t + before[b..];
    assert newPlain[a..a + |t|] == t;
  }

  /** Backspace at caret a removes the character before it. */
  lemma PlanEditBackspace(before: string, a: nat)
    requires 0 < a <= |before|
    ensures var newPlain := before[..a - 1] + before[a..];
      var e := PlanEdit(|before|, newPlain, At(a), At(a), a - 1);
      e == Edit("", a - 1, a) && ApplyEdit(before, e) == newPlain
  {
  }

  /** Delete at caret a removes the character after it. */
  lemma PlanEditDelete(before: string, a: nat)
    requires a < |before|
    ensures var newPlain := before[..a] + before[a + 1..];
      var e := PlanEdit(|before|, newPlain, At(a), At(a), a);
      e == Edit("", a, a + 1) && ApplyEdit(before, e) == newPlain
  {
  }

  /**
   * A composed character replaces the one before the caret without moving
   * the caret or changing the length: the edit steps back by one.
   */
  lemma PlanEditComposed(before: string, a: nat, c: char)
    requires 0 < a <= |before|
    ensures var newPlain := before[..a - 1] + [c] + before[a..];
      var e := PlanEdit(|before|, newPlain, At(a), At(a), a);
      e == Edit([c], a - 1, a) && ApplyEdit(before, e) == newPlain
  {
    var newPlain := before[..a - 1] + [c] + before[a..];
    assert newPlain[a - 1..a] == [c];
  }

  /**
   * With both bounds `'undefined'`, the caret before the change is taken
   * to be the new caret moved back by the length gained.
   */
  lemma PlanEditUndefined(before: string, a: nat, t: string)
    requires a <= |before| && |t| > 0
    ensures var newPlain := before[..a] + t + before[a..];
      PlanEdit(|before|, newPlain, UndefinedText, UndefinedText, a + |t|) == PlanEdit(|before|, newPlain, At(a), At(a), a + |t|)
  {
  }

  // ---------------------------------------------------------------------
  // The autocorrection re-diff

  /**
   * The loop `while (a[k] === b[k]) k++` from 0: the first index at
   * which the two strings differ, `undefined` past an end counting as a
   * character of its own.
   */
  function FirstDifference(a: string, b: string): (k: nat)
    requires a != b
    ensures k <= |a| && k <= |b| && a[..k] == b[..k]
    ensures CharAt(a, k) != CharAt(b, k)
  {
    FirstDifferenceFrom(a, b, 0)
  }

  function FirstDifferenceFrom(a: string, b: string, from: nat): (k: nat)
    requires a != b && from <= |a| && from <= |b| && a[..from] == b[..from]
    ensures from <= k <= |a| && k <= |b| && a[..k] == b[..k]
    ensures CharAt(a, k) != CharAt(b, k)
    decreases |a| - from
  {
    if CharAt(a, from) != CharAt(b, from) then from
    else
      assert from < |a| && from < |b|;
      assert a[..from + 1] == a[..from] + [a[from]] && b[..from + 1] == b[..from] + [b[from]];
      FirstDifferenceFrom(a, b, from + 1)
  }

  // ---------------------------------------------------------------------
  // The whole operation

  /** The four lookups of the splice bounds and what they leave behind. */
  datatype Bounds = Bounds(mappedStart: int, mappedEnd: int, controlStart: Mapped, controlEnd: Mapped, cursor: nat)

  /** The cursor a lookup starts from: the one left behind when shared, a fresh one otherwise. */
  function Resume(shared: bool, cursor: nat): nat {
    if shared then cursor else 0
  }

  /**
   * mapPlainTextIndex four times back to back: START and END maps of the
   * splice bounds, then their NULL maps. getPlainText has just reset the
   * cursor to 0.
   */
  function MapBounds(s: string, g: Grammar, tf: Option<DisplayTransform>, e: Edit, shared: bool): (b: Bounds)
    requires WellFormed(g)
    ensures !shared ==> b.mappedStart == MapPlainTextIndex(s, g, Number(e.spliceStart), Start, tf).n
    ensures !shared ==> b.mappedEnd == MapPlainTextIndex(s, g, Number(e.spliceEnd), End, tf).n
    ensures !shared ==> b.controlStart == MapPlainTextIndex(s, g, Number(e.spliceStart), Null, tf)
    ensures !shared ==> b.controlEnd == MapPlainTextIndex(s, g, Number(e.spliceEnd), Null, tf)
  {
    var (ms, c1) := MapFrom(s, g, tf, Number(e.spliceStart), Start, 0);
    var (me, c2) := MapFrom(s, g, tf, Number(e.spliceEnd), End, Resume(shared, c1));
    var (cs, c3) := MapFrom(s, g, tf, Number(e.spliceStart), Null, Resume(shared, c2));
    var (ce, c4) := MapFrom(s, g, tf, Number(e.spliceEnd), Null, Resume(shared, c3));
    Bounds(ms.n, me.n, cs, ce, c4)
  }

  /** The result of applyChangeToValue and the cursor it leaves behind. */
  datatype Outcome = Outcome(value: string, cursor: nat)

  /**
   * applyChangeToValue. `unit` is the gate on mention removal: true in
   * the version that ignores `treatMentionAsUnit`, the flag itself in
   * the version that honours it.
   */
  function ApplyChangeWith(s: string, g: Grammar, tf: Option<DisplayTransform>, newPlain: string,
                           startBefore: Bound, endBefore: Bound, endAfter: int, unit: bool, shared: bool): (r: Outcome)
    requires WellFormed(g)
    ensures var e := PlanEdit(|Project(s, g, tf)|, newPlain, startBefore, endBefore, endAfter);
      var b := MapBounds(s, g, tf, e, shared);
      var naive := SpliceString(s, b.mappedStart, b.mappedEnd, e.insert);
      (unit && (b.controlStart.NullOffset? || b.controlEnd.NullOffset?)) || Project(naive, g, tf) == newPlain ==>
        r.value == naive
    ensures var e := PlanEdit(|Project(s, g, tf)|, newPlain, startBefore, endBefore, endAfter);
      var b := MapBounds(s, g, tf, e, shared);
      var control := Project(SpliceString(s, b.mappedStart, b.mappedEnd, e.insert), g, tf);
      !(unit && (b.controlStart.NullOffset? || b.controlEnd.NullOffset?)) && control != newPlain ==>
        r == Repair(s, g, tf, Project(s, g, tf), newPlain, control, endAfter, shared)
  {
    var oldPlain := Project(s, g, tf);
    var e := PlanEdit(|oldPlain|, newPlain, startBefore, endBefore, endAfter);
    var b := MapBounds(s, g, tf, e, shared);
    var willRemoveMention := unit && (b.controlStart.NullOffset? || b.controlEnd.NullOffset?);
    var naive := SpliceString(s, b.mappedStart, b.mappedEnd, e.insert);
    if willRemoveMention then Outcome(naive, b.cursor)
    else
      var control := Project(naive, g, tf);
      if control == newPlain then Outcome(naive, 0)
      else Repair(s, g, tf, oldPlain, newPlain, control, endAfter, shared)
  }

  /**
   * The auto-correction repair: the edit re-derived from the first
   * difference between the new plain text and the projection of the
   * naive result, up to the new caret, and spliced into the value
   * afresh. getPlainText has just reset the cursor to 0.
   */
  function Repair(s: string, g: Grammar, tf: Option<DisplayTransform>, oldPlain: string, newPlain: string,
                  control: string, endAfter: int, shared: bool): (r: Outcome)
    requires WellFormed(g) && newPlain != control
    ensures var k := FirstDifference(newPlain, control);
      var spliceEnd := LastIndexOf(oldPlain, SubstringFrom(newPlain, endAfter));
      var ms := MapFrom(s, g, tf, Number(k), Start, 0).0.n;
      var me := MapFrom(s, g, tf, Number(spliceEnd), End, Resume(shared, MapFrom(s, g, tf, Number(k), Start, 0).1)).0.n;
      0 <= ms <= me <= |s| ==> r.value == s[..ms] + Slice(newPlain, k, endAfter) + s[me..]
  {
    var spliceStart := FirstDifference(newPlain, control);
    var insert := Slice(newPlain, spliceStart, endAfter);
    var spliceEnd := LastIndexOf(oldPlain, SubstringFrom(newPlain, endAfter));
    var (ms, c1) := MapFrom(s, g, tf, Number(spliceStart), Start, 0);
    var (me, c2) := MapFrom(s, g, tf, Number(spliceEnd), End, Resume(shared, c1));
    Outcome(SpliceString(s, ms.n, me.n, insert), c2)
  }

  /** applyChangeToValue as written: every lookup resumes where the previous one left the shared regex. */
  function ApplyChangeAsWritten(s: string, g: Grammar, tf: Option<DisplayTransform>, newPlain: string,
                                startBefore: Bound, endBefore: Bound, endAfter: int, unit: bool): Outcome
    requires WellFormed(g)
  {
    ApplyChangeWith(s, g, tf, newPlain, startBefore, endBefore, endAfter, unit, true)
  }

  /** applyChangeToValue with every lookup on a fresh cursor. */
  function ApplyChange(s: string, g: Grammar, tf: Option<DisplayTransform>, newPlain: string,
                       startBefore: Bound, endBefore: Bound, endAfter: int, unit: bool): string
    requires WellFormed(g)
  {
    ApplyChangeWith(s, g, tf, newPlain, startBefore, endBefore, endAfter, unit, false).value
  }

  // ---------------------------------------------------------------------
  // What the corrected operation does

  /**
   * With mentions treated as units, an edit whose both bounds fall
   * strictly inside one mention's display removes that whole mention
   * from the value and puts the inserted text in its place.
   */
  lemma ApplyChangeRemovesMention(s: string, g: Grammar, tf: Option<DisplayTransform>, newPlain: string,
                                  startBefore: Bound, endBefore: Bound, endAfter: int, k: nat)
    requires WellFormed(g)
    requires var events := Events(s, g, tf);
      var e := PlanEdit(|Project(s, g, tf)|, newPlain, startBefore, endBefore, endAfter);
      k < |events| && events[k].Mention? &&
      events[k].plainIndex < e.spliceStart < events[k].PlainEnd() &&
      events[k].plainIndex < e.spliceEnd < events[k].PlainEnd()
    ensures var m := Events(s, g, tf)[k];
      var e := PlanEdit(|Project(s, g, tf)|, newPlain, startBefore, endBefore, endAfter);
      m.End() <= |s| &&
      ApplyChange(s, g, tf, newPlain, startBefore, endBefore, endAfter, true) == s[..m.index] + e.insert + s[m.End()..]
  {
    var events := Events(s, g, tf);
    var e := PlanEdit(|Project(s, g, tf)|, newPlain, startBefore, endBefore, endAfter);
    MapPlainTextIndexInMention(s, g, e.spliceStart, Start, tf, k);
    MapPlainTextIndexInMention(s, g, e.spliceEnd, End, tf, k);
    MapPlainTextIndexInMention(s, g, e.spliceStart, Null, tf, k);
    EventsShape(s, g, tf);
    TilesBounds(events, s, 0, 0, k);
  }

  /**
   * An edit whose bounds both fall within one text run is spliced into
   * the value at the same offsets within that run, when re-projecting
   * the result confirms the new plain text.
   */
  lemma ApplyChangeInRun(s: string, g: Grammar, tf: Option<DisplayTransform>, newPlain: string,
                         startBefore: Bound, endBefore: Bound, endAfter: int, unit: bool, k: nat)
    returns (a: int, b: int)
    requires WellFormed(g)
    requires var events := Events(s, g, tf);
      var e := PlanEdit(|Project(s, g, tf)|, newPlain, startBefore, endBefore, endAfter);
      k < |events| && events[k].TextRun? &&
      (k == 0 || events[k].plainIndex < e.spliceStart) && 0 <= e.spliceStart <= e.spliceEnd <= events[k].PlainEnd()
    ensures var run := Events(s, g, tf)[k];
      var e := PlanEdit(|Project(s, g, tf)|, newPlain, startBefore, endBefore, endAfter);
      a == run.index + (e.spliceStart - run.plainIndex) && b == run.index + (e.spliceEnd - run.plainIndex)
    ensures 0 <= a <= b <= |s|
    ensures var e := PlanEdit(|Project(s, g, tf)|, newPlain, startBefore, endBefore, endAfter);
      Project(s[..a] + e.insert + s[b..], g, tf) == newPlain ==>
        ApplyChange(s, g, tf, newPlain, startBefore, endBefore, endAfter, unit) == s[..a] + e.insert + s[b..]
  {
    var e := PlanEdit(|Project(s, g, tf)|, newPlain, startBefore, endBefore, endAfter);
    a, b := RunBounds(s, g, tf, e, k);
    ApplyChangeNaive(s, g, tf, newPlain, startBefore, endBefore, endAfter, unit, e, a, b);
  }

  /** The bounds of an edit within one text run map to the same offsets within that run of the value. */
  lemma RunBounds(s: string, g: Grammar, tf: Option<DisplayTransform>, e: Edit, k: nat) returns (a: int, b: int)
    requires WellFormed(g)
    requires var events := Events(s, g, tf);
      k < |events| && events[k].TextRun? &&
      (k == 0 || events[k].plainIndex < e.spliceStart) && 0 <= e.spliceStart <= e.spliceEnd <= events[k].PlainEnd()
    ensures var run := Events(s, g, tf)[k];
      a == run.index + (e.spliceStart - run.plainIndex) && b == run.index + (e.spliceEnd - run.plainIndex)
    ensures 0 <= a <= b <= |s|
    ensures MapPlainTextIndex(s, g, Number(e.spliceStart), Start, tf) == Offset(a)
    ensures MapPlainTextIndex(s, g, Number(e.spliceEnd), End, tf) == Offset(b)
  {
    var events := Events(s, g, tf);
    var run := events[k];
    EventsShape(s, g, tf);
    TilesBounds(events, s, 0, 0, k);
    if k == 0 {
      assert run.plainIndex == 0;
    }
    MapPlainTextIndexInRun(s, g, e.spliceStart, Start, tf, k);
    MapPlainTextIndexInRun(s, g, e.spliceEnd, End, tf, k);
    a, b := run.index + (e.spliceStart - run.plainIndex), run.index + (e.spliceEnd - run.plainIndex);
  }

  /** When both bounds map to offsets and re-projecting confirms the new plain text, the naive splice stands. */
  lemma ApplyChangeNaive(s: string, g: Grammar, tf: Option<DisplayTransform>, newPlain: string,
                         startBefore: Bound, endBefore: Bound, endAfter: int, unit: bool, e: Edit, a: int, b: int)
    requires WellFormed(g) && 0 <= a <= b <= |s|
    requires e == PlanEdit(|Project(s, g, tf)|, newPlain, startBefore, endBefore, endAfter)
    requires MapPlainTextIndex(s, g, Number(e.spliceStart), Start, tf) == Offset(a)
    requires MapPlainTextIndex(s, g, Number(e.spliceEnd), End, tf) == Offset(b)
    ensures Project(s[..a] + e.insert + s[b..], g, tf) == newPlain ==>
      ApplyChange(s, g, tf, newPlain, startBefore, endBefore, endAfter, unit) == s[..a] + e.insert + s[b..]
  {
    var bounds := MapBounds(s, g, tf, e, false);
    assert SpliceString(s, bounds.mappedStart, bounds.mappedEnd, e.insert) == s[..a] + e.insert + s[b..];
  }
}

=== FILE: regex.dfy ===
/**
 * The regular expressions the engine builds from a markup template, and
 * the part of ECMAScript's RegExp semantics it depends on.
 *
 * A markup regex is a sequence of literal characters and lazy capture
 * groups `(.+?)`. A lazy group takes one or more characters that are not
 * line terminators, trying the shortest capture first and backtracking to
 * longer ones when the rest of the pattern fails. Every regex the engine
 * builds carries the `g` flag, so `exec` starts at `lastIndex` and leaves
 * `lastIndex` behind for the next call.
 */
module Regex {
  import opened Wrappers

  /** The placeholder a capture group replaced in the markup template. */
  datatype Placeholder = Id | Display | Type

  datatype Atom = Char(c: char) | Group(tag: Placeholder)

  /** `anchored` is the trailing `$` added for a match that must end the input. */
  datatype Pattern = Pattern(atoms: seq<Atom>, anchored: bool)

  /** The end of a successful match attempt and its captures, in order. */
  datatype Span = Span(end: nat, groups: seq<string>)

  /** An `exec` result: `s[index..end]` is `match[0]`, `groups[k]` is `match[k + 1]`. */
  datatype Match = Match(index: nat, end: nat, groups: seq<string>)

  /** The characters `.` does not match. */
  predicate IsLineTerminator(c: char) {
    c == '\n' || c == '\r' || c == '\U{2028}' || c == '\U{2029}'
  }

  function GroupCount(atoms: seq<Atom>): nat {
    if atoms == [] then 0
    else (if atoms[0].Group? then 1 else 0) + GroupCount(atoms[1..])
  }

  /** A text a lazy group `(.+?)` can capture. */
  predicate Capturable(t: string) {
    |t| > 0 && forall k :: 0 <= k < |t| ==> !IsLineTerminator(t[k])
  }

  predicate AllCapturable(groups: seq<string>) {
    forall k :: 0 <= k < |groups| ==> Capturable(groups[k])
  }

  /** The text `atoms` stand for when their groups capture `groups`. */
  function Spell(atoms: seq<Atom>, groups: seq<string>): string
    requires |groups| == GroupCount(atoms)
  {
    if atoms == [] then []
    else match atoms[0]
      case Char(c) => [c] + Spell(atoms[1..], groups)
      case Group(_) => groups[0] + Spell(atoms[1..], groups[1..])
  }

  /**
   * The backtracking matcher: the first way, in ECMAScript's preference
   * order, that `atoms` match `s` starting at `i`.
   */
  function MatchFrom(atoms: seq<Atom>, s: string, i: nat, anchored: bool): (r: Option<Span>)
    requires i <= |s|
    ensures r.Some? ==> i + |atoms| <= r.value.end <= |s| && |r.value.groups| == GroupCount(atoms)
    ensures r.Some? && anchored ==> r.value.end == |s|
    decreases |atoms|, 1, 0
  {
    if atoms == [] then
      (if !anchored || i == |s| then Some(Span(i, [])) else None)
    else match atoms[0]
      case Char(c) =>
        if i < |s| && s[i] == c then MatchFrom(atoms[1..], s, i + 1, anchored) else None
      case Group(_) =>
        LazyGroup(atoms[1..], s, i, i + 1, anchored)
  }

  /** A lazy group that started at `i` tries to end at `j`, then at `j + 1`, and so on. */
  function LazyGroup(rest: seq<Atom>, s: string, i: nat, j: nat, anchored: bool): (r: Option<Span>)
    requires i < j <= |s| + 1
    ensures r.Some? ==> j + |rest| <= r.value.end <= |s| && |r.value.groups| == 1 + GroupCount(rest)
    ensures r.Some? && anchored ==> r.value.end == |s|
    decreases |rest| + 1, 0, |s| + 1 - j
  {
    if j > |s| || IsLineTerminator(s[j - 1]) then None
    else match MatchFrom(rest, s, j, anchored)
      case Some(sp) => Some(Span(sp.end, [s[i..j]] + sp.groups))
      case None => LazyGroup(rest, s, i, j + 1, anchored)
  }

  /**
   * The leftmost match at or after `from`: what `exec` finds when
   * `lastIndex` is `from`.
   */
  function FirstMatch(p: Pattern, s: string, from: nat): (r: Option<Match>)
    ensures r.Some? ==>
      from <= r.value.index && r.value.index + |p.atoms| <= r.value.end <= |s| &&
      |r.value.groups| == GroupCount(p.atoms) &&
      MatchFrom(p.atoms, s, r.value.index, p.anchored) == Some(Span(r.value.end, r.value.groups))
    ensures forall k :: from <= k <= |s| && (r.None? || k < r.value.index) ==>
      MatchFrom(p.atoms, s, k, p.anchored).None?
    decreases if from <= |s| then |s| + 1 - from else 0
  {
    if from > |s| then None
    else match MatchFrom(p.atoms, s, from, p.anchored)
      case Some(sp) => Some(Match(from, sp.end, sp.groups))
      case None => FirstMatch(p, s, from + 1)
  }

  /** A successful match spells out the text it covers, and every capture is one a lazy group can take. */
  lemma {:induction false} MatchFromSound(atoms: seq<Atom>, s: string, i: nat, anchored: bool)
    requires i <= |s| && MatchFrom(atoms, s, i, anchored).Some?
    ensures var sp := MatchFrom(atoms, s, i, anchored).value;
      AllCapturable(sp.groups) && Spell(atoms, sp.groups) == s[i..sp.end]
    decreases |atoms|, 1, 0
  {
    var sp := MatchFrom(atoms, s, i, anchored).value;
    if atoms != [] {
      match atoms[0]
      case Char(c) =>
        MatchFromSound(atoms[1..], s, i + 1, anchored);
        assert s[i..sp.end] == [c] + s[i + 1..sp.end];
      case Group(_) =>
        LazyGroupSound(atoms[1..], s, i, i + 1, anchored);
    }
  }

  lemma {:induction false} LazyGroupSound(rest: seq<Atom>, s: string, i: nat, j: nat, anchored: bool)
    requires i < j <= |s| + 1 && LazyGroup(rest, s, i, j, anchored).Some?
    requires forall k :: i <= k < j - 1 ==> !IsLineTerminator(s[k])
    ensures var sp := LazyGroup(rest, s, i, j, anchored).value;
      AllCapturable(sp.groups) && sp.groups[0] + Spell(rest, sp.groups[1..]) == s[i..sp.end]
    decreases |rest| + 1, 0, |s| + 1 - j
  {
    var sp := LazyGroup(rest, s, i, j, anchored).value;
    assert j <= |s| && !IsLineTerminator(s[j - 1]);
    var attempt := MatchFrom(rest, s, j, anchored);
    if attempt.Some? {
      var tail := attempt.value;
      MatchFromSound(rest, s, j, anchored);
      assert sp == Span(tail.end, [s[i..j]] + tail.groups);
      SliceCapturable(s, i, j);
      assert sp.groups[1..] == tail.groups;
      assert s[i..sp.end] == s[i..j] + s[j..sp.end];
    } else {
      LazyGroupSound(rest, s, i, j + 1, anchored);
    }
  }

  lemma SliceCapturable(s: string, i: nat, j: nat)
    requires i < j <= |s|
    requires forall k :: i <= k < j ==> !IsLineTerminator(s[k])
    ensures Capturable(s[i..j])
  {
    forall k | 0 <= k < j - i
      ensures !IsLineTerminator(s[i..j][k])
    {
      assert s[i..j][k] == s[i + k];
    }
  }

  /**
   * A global RegExp object: its pattern and the `lastIndex` it shares
   * between every caller that holds it.
   */
  class RegExp {
    const pattern: Pattern
    var lastIndex: nat

    constructor (p: Pattern)
      ensures pattern == p && lastIndex == 0
    {
      pattern := p;
      lastIndex := 0;
    }

    /**
     * `exec` on a global regex: the search starts at `lastIndex`; a
     * `lastIndex` past the end fails at once; a failure resets
     * `lastIndex` to 0 and a success moves it to the end of the match.
     */
    method Exec(s: string) returns (m: Option<Match>)
      modifies this
      ensures m == FirstMatch(pattern, s, old(lastIndex))
      ensures lastIndex == if m.Some? then m.value.end else 0
    {
      if lastIndex > |s| {
        lastIndex := 0;
        return None;
      }
      var k := lastIndex;
      while k <= |s|
        invariant k <= |s| + 1
        invariant FirstMatch(pattern, s, old(lastIndex)) == FirstMatch(pattern, s, k)
        decreases |s| + 1 - k
      {
        var attempt := MatchFrom(pattern.atoms, s, k, pattern.anchored);
        if attempt.Some? {
          m := Some(Match(k, attempt.value.end, attempt.value.groups));
          lastIndex := attempt.value.end;
          return;
        }
        k := k + 1;
      }
      lastIndex := 0;
      m := None;
    }
  }
}

=== FILE: scanner.dfy ===
/**
 * The single traversal every operation is built on: iterateMentionsMarkup
 * alternates a text run (the text since the previous mention) and a
 * mention match, keeping a running offset into the plain text, and stops
 * at the first callback that returns true.
 *
 * The traversal is specified here as pure functions with the regex cursor
 * as an explicit argument: `Walk` lists every callback the loop would make
 * if none stopped it, `Visited` cuts that list after the first callback
 * that stops it, and `ResumeCursor` is the `lastIndex` the shared regex
 * is left with.
 */
module Scanner {
  import opened Wrappers
  import opened Regex
  import opened Markup

  /** One callback of the traversal, with the arguments it receives. */
  datatype Event =
    | TextRun(text: string, index: nat, plainIndex: nat)
    | Mention(markup: string, index: nat, plainIndex: nat, id: string, display: string,
              typ: Option<string>, lastMentionEnd: nat)
  {
    /** The characters of the marked up value the event covers. */
    function Source(): string {
      if TextRun? then text else markup
    }

    /** What the event contributes to the plain text. */
    function Plain(): string {
      if TextRun? then text else display
    }

    function End(): nat {
      index + |Source()|
    }

    function PlainEnd(): nat {
      plainIndex + |Plain()|
    }
  }

  /** The `displayTransform(id, display, type)` callback. */
  type DisplayTransform = (string, string, Option<string>) -> string

  /** The id, the (transformed) display and the type a match yields. */
  function Captures(m: Match, g: Grammar, tf: Option<DisplayTransform>): (string, string, Option<string>)
    requires WellFormed(g) && |m.groups| == GroupCount(g.pattern.atoms)
  {
    var id := m.groups[g.positions.id - 1];
    var display := m.groups[g.positions.display - 1];
    var typ := if g.positions.typ.Some? then Some(m.groups[g.positions.typ.value - 1]) else None;
    (id, if tf.Some? then tf.value(id, display, typ) else display, typ)
  }

  /**
   * Every callback the loop makes when the text since the last mention
   * starts at `start`, the regex search resumes at `cursor`, and `plain`
   * characters of plain text precede `start`, if no callback stops it.
   * The trailing text run is reported only when it is not empty.
   */
  function Walk(s: string, g: Grammar, tf: Option<DisplayTransform>, start: nat, cursor: nat, plain: nat): seq<Event>
    requires WellFormed(g) && start <= |s| && start <= cursor
    decreases if cursor <= |s| then |s| + 1 - cursor else 0
  {
    match FirstMatch(g.pattern, s, cursor)
    case None =>
      if start < |s| then [TextRun(s[start..], start, plain)] else []
    case Some(m) =>
      var mention := MentionAt(s, g, tf, start, plain, m);
      [RunBefore(s, start, plain, m), mention] + Walk(s, g, tf, m.end, m.end, mention.PlainEnd())
  }

  /** The traversal of a whole value with a fresh cursor. */
  function Events(s: string, g: Grammar, tf: Option<DisplayTransform>): seq<Event>
    requires WellFormed(g)
  {
    Walk(s, g, tf, 0, 0, 0)
  }

  /** The callbacks actually made: everything up to and including the first one that returns true. */
  function Visited(events: seq<Event>, halt: Event -> bool): (r: seq<Event>)
    ensures |r| <= |events| && r == events[..|r|]
    ensures forall k :: 0 <= k < |r| - 1 ==> !halt(r[k])
    ensures |r| < |events| ==> |r| > 0 && halt(r[|r| - 1])
  {
    if events == [] then []
    else if halt(events[0]) then [events[0]]
    else [events[0]] + Visited(events[1..], halt)
  }

  /**
   * The `lastIndex` the loop leaves behind: the end of the current match
   * when a callback stopped it (a text run is reported just after its
   * match was found), 0 when the loop ran out of matches.
   */
  function ResumeCursor(events: seq<Event>, halt: Event -> bool): nat {
    if events == [] then 0
    else if halt(events[0]) then
      (if events[0].Mention? then events[0].End() else if |events| > 1 then events[1].End() else 0)
    else ResumeCursor(events[1..], halt)
  }

  function MarkupOf(events: seq<Event>): string {
    if events == [] then [] else events[0].Source() + MarkupOf(events[1..])
  }

  function PlainOf(events: seq<Event>): string {
    if events == [] then [] else events[0].Plain() + PlainOf(events[1..])
  }

  /**
   * getPlainText: `value.replace(regex, ...)` with the regex's `lastIndex`
   * reset to 0: every match is replaced by its (transformed) display.
   */
  function Project(s: string, g: Grammar, tf: Option<DisplayTransform>): string
    requires WellFormed(g)
  {
    ProjectFrom(s, g, tf, 0)
  }

  function ProjectFrom(s: string, g: Grammar, tf: Option<DisplayTransform>, pos: nat): string
    requires WellFormed(g) && pos <= |s|
    decreases |s| - pos
  {
    match FirstMatch(g.pattern, s, pos)
    case None => s[pos..]
    case Some(m) => s[pos..m.index] + Captures(m, g, tf).1 + ProjectFrom(s, g, tf, m.end)
  }

  // ---------------------------------------------------------------------
  // Shape of a traversal

  /**
   * The events cover `s[start..]` back to back, each one spelling the
   * characters it covers, and each plain offset continues where the
   * previous event's plain text ended.
   */
  predicate Tiles(events: seq<Event>, s: string, start: nat, plain: nat) {
    if events == [] then start == |s|
    else
      var e := events[0];
      e.index == start && e.plainIndex == plain && e.End() <= |s| && s[start..e.End()] == e.Source() &&
      Tiles(events[1..], s, e.End(), e.PlainEnd())
  }

  /**
   * Text runs and mentions alternate, starting with a text run; every
   * mention covers at least one character; a trailing text run is never
   * empty.
   */
  predicate Alternates(events: seq<Event>) {
    if events == [] then true
    else if |events| == 1 then events[0].TextRun? && |events[0].text| > 0
    else events[0].TextRun? && events[1].Mention? && |events[1].markup| > 0 && Alternates(events[2..])
  }

  lemma {:induction false} WalkShape(s: string, g: Grammar, tf: Option<DisplayTransform>, start: nat, cursor: nat, plain: nat)
    requires WellFormed(g) && start <= |s| && start <= cursor
    ensures Tiles(Walk(s, g, tf, start, cursor, plain), s, start, plain)
    ensures Alternates(Walk(s, g, tf, start, cursor, plain))
    decreases if cursor <= |s| then |s| + 1 - cursor else 0
  {
    var found := FirstMatch(g.pattern, s, cursor);
    if found.Some? {
      var m := found.value;
      WalkStep(s, g, tf, start, cursor, plain, m);
      var run, mention := RunBefore(s, start, plain, m), MentionAt(s, g, tf, start, plain, m);
      WalkShape(s, g, tf, m.end, m.end, mention.PlainEnd());
      TilesRound(run, mention, Walk(s, g, tf, m.end, m.end, mention.PlainEnd()), s, start, plain);
    } else {
      WalkLast(s, g, tf, start, cursor, plain);
    }
  }

  /** A round's text run and mention, in front of a tiling of the rest. */
  lemma TilesRound(run: Event, mention: Event, rest: seq<Event>, s: string, start: nat, plain: nat)
    requires run.TextRun? && run.index == start && run.plainIndex == plain
    requires mention.Mention? && mention.index == run.End() && mention.plainIndex == run.PlainEnd()
    requires mention.End() <= |s| && s[start..run.End()] == run.Source() && s[run.End()..mention.End()] == mention.Source()
    requires |mention.markup| > 0
    requires Tiles(rest, s, mention.End(), mention.PlainEnd()) && Alternates(rest)
    ensures Tiles([run, mention] + rest, s, start, plain) && Alternates([run, mention] + rest)
  {
    var events := [run, mention] + rest;
    assert events[1..] == [mention] + rest && events[1..][1..] == rest && events[2..] == rest;
  }

  /** The traversal with a fresh cursor covers the whole value. */
  lemma EventsShape(s: string, g: Grammar, tf: Option<DisplayTransform>)
    requires WellFormed(g)
    ensures Tiles(Events(s, g, tf), s, 0, 0) && Alternates(Events(s, g, tf))
  {
    WalkShape(s, g, tf, 0, 0, 0);
  }

  /** Back-to-back events spell out the value they tile, */
  lemma {:induction false} TilesMarkup(events: seq<Event>, s: string, start: nat, plain: nat)
    requires Tiles(events, s, start, plain)
    ensures start <= |s| && MarkupOf(events) == s[start..]
  {
    if events != [] {
      var e := events[0];
      TilesMarkup(events[1..], s, e.End(), e.PlainEnd());
      assert s[start..] == s[start..e.End()] + s[e.End()..];
    }
  }

  /** and each event starts where the text and plain text of the earlier ones end. */
  lemma {:induction false} TilesOffsets(events: seq<Event>, s: string, start: nat, plain: nat, k: nat)
    requires Tiles(events, s, start, plain) && k < |events|
    ensures events[k].index == start + |MarkupOf(events[..k])|
    ensures events[k].plainIndex == plain + |PlainOf(events[..k])|
  {
    if k > 0 {
      var e := events[0];
      TilesOffsets(events[1..], s, e.End(), e.PlainEnd(), k - 1);
      assert events[..k] == [e] + events[1..][..k - 1];
      assert events[1..][k - 1] == events[k];
    }
  }

  /** Events never overlap: an earlier event ends where a later one starts or before, in both texts. */
  lemma {:induction false} TilesOrdered(events: seq<Event>, s: string, start: nat, plain: nat, j: nat, k: nat)
    requires Tiles(events, s, start, plain) && j < k < |events|
    ensures events[j].End() <= events[k].index
    ensures events[j].PlainEnd() <= events[k].plainIndex
  {
    var e := events[0];
    assert events[1..][k - 1] == events[k];
    TilesBounds(events[1..], s, e.End(), e.PlainEnd(), k - 1);
    if j > 0 {
      assert events[1..][j - 1] == events[j];
      TilesOrdered(events[1..], s, e.End(), e.PlainEnd(), j - 1, k - 1);
    }
  }

  /** Every event of a tiling lies at or after its start, in both texts. */
  lemma {:induction false} TilesBounds(events: seq<Event>, s: string, start: nat, plain: nat, k: nat)
    requires Tiles(events, s, start, plain) && k < |events|
    ensures start <= events[k].index && events[k].End() <= |s| && plain <= events[k].plainIndex
  {
    if k > 0 {
      var e := events[0];
      assert events[1..][k - 1] == events[k];
      TilesBounds(events[1..], s, e.End(), e.PlainEnd(), k - 1);
    }
  }

  lemma {:induction false} PlainOfConcat(a: seq<Event>, b: seq<Event>)
    ensures PlainOf(a + b) == PlainOf(a) + PlainOf(b)
  {
    if a != [] {
      assert (a + b)[1..] == a[1..] + b;
      PlainOfConcat(a[1..], b);
    } else {
      assert a + b == b;
    }
  }

  /** A getPlainText projection is the plain text of the traversal. */
  lemma {:induction false} ProjectIsPlainOfWalk(s: string, g: Grammar, tf: Option<DisplayTransform>, pos: nat, plain: nat)
    requires WellFormed(g) && pos <= |s|
    ensures ProjectFrom(s, g, tf, pos) == PlainOf(Walk(s, g, tf, pos, pos, plain))
    decreases |s| - pos
  {
    var found := FirstMatch(g.pattern, s, pos);
    if found.Some? {
      var m := found.value;
      WalkStep(s, g, tf, pos, pos, plain, m);
      var run, mention := RunBefore(s, pos, plain, m), MentionAt(s, g, tf, pos, plain, m);
      ProjectIsPlainOfWalk(s, g, tf, m.end, mention.PlainEnd());
      PlainOfRound(run, mention, Walk(s, g, tf, m.end, m.end, mention.PlainEnd()));
    } else {
      WalkLast(s, g, tf, pos, pos, plain);
      if pos == |s| {
        assert s[pos..] == [];
      }
    }
  }

  /** One step of the traversal, seen from the plain text. */
  lemma PlainOfRound(run: Event, mention: Event, rest: seq<Event>)
    ensures PlainOf([run, mention] + rest) == run.Plain() + mention.Plain() + PlainOf(rest)
  {
    var events := [run, mention] + rest;
    assert events[1..] == [mention] + rest && events[1..][1..] == rest;
  }

  lemma ProjectIsPlainOfEvents(s: string, g: Grammar, tf: Option<DisplayTransform>)
    requires WellFormed(g)
    ensures Project(s, g, tf) == PlainOf(Events(s, g, tf))
  {
    ProjectIsPlainOfWalk(s, g, tf, 0, 0);
  }

  /** Each event's plain text sits at its plain offset in the projection. */
  lemma {:induction false} PlainAtOffset(events: seq<Event>, s: string, k: nat)
    requires Tiles(events, s, 0, 0) && k < |events|
    ensures events[k].PlainEnd() <= |PlainOf(events)|
    ensures PlainOf(events)[events[k].plainIndex..events[k].PlainEnd()] == events[k].Plain()
  {
    TilesOffsets(events, s, 0, 0, k);
    PlainOfAround(events, k);
    SliceMiddle(PlainOf(events[..k]), events[k].Plain(), PlainOf(events[k + 1..]));
  }

  /** The plain text of a sequence of events, around its event `k`. */
  lemma PlainOfAround(events: seq<Event>, k: nat)
    requires k < |events|
    ensures PlainOf(events) == PlainOf(events[..k]) + (events[k].Plain() + PlainOf(events[k + 1..]))
  {
    assert events == events[..k] + events[k..];
    PlainOfConcat(events[..k], events[k..]);
    assert events[k..][1..] == events[k + 1..];
  }

  lemma SliceMiddle(a: string, b: string, c: string)
    ensures (a + (b + c))[|a|..|a| + |b|] == b
  {
  }

  // ---------------------------------------------------------------------
  // Early stops and the cursor left behind

  /** The text run a round reports: from where the last match ended up to the next match. */
  function RunBefore(s: string, start: nat, plain: nat, m: Match): (e: Event)
    requires start <= m.index <= |s|
    ensures e.TextRun? && e.index == start && e.End() == m.index && e.plainIndex == plain
    ensures e.Source() == s[start..m.index] && e.PlainEnd() == plain + (m.index - start)
  {
    TextRun(s[start..m.index], start, plain)
  }

  /** The mention a round reports, for the match `m`. */
  function MentionAt(s: string, g: Grammar, tf: Option<DisplayTransform>, start: nat, plain: nat, m: Match): (e: Event)
    requires WellFormed(g) && |m.groups| == GroupCount(g.pattern.atoms)
    requires start <= m.index <= m.end <= |s|
    ensures e.Mention? && e.index == m.index && e.End() == m.end && e.lastMentionEnd == start
    ensures e.plainIndex == plain + (m.index - start) && e.Source() == s[m.index..m.end]
    ensures (e.id, e.display, e.typ) == Captures(m, g, tf)
  {
    var (id, display, typ) := Captures(m, g, tf);
    Mention(s[m.index..m.end], m.index, plain + (m.index - start), id, display, typ, start)
  }

  /** One round of the traversal: the text run before the next match, then the match's mention. */
  lemma WalkStep(s: string, g: Grammar, tf: Option<DisplayTransform>, start: nat, cursor: nat, plain: nat, m: Match)
    requires WellFormed(g) && start <= |s| && start <= cursor
    requires FirstMatch(g.pattern, s, cursor) == Some(m)
    ensures start <= m.index < m.end <= |s| && |m.groups| == GroupCount(g.pattern.atoms)
    ensures var mention := MentionAt(s, g, tf, start, plain, m);
      Walk(s, g, tf, start, cursor, plain) == [RunBefore(s, start, plain, m), mention] + Walk(s, g, tf, m.end, m.end, mention.PlainEnd())
  {
  }

  /** The last round: no match left, only the trailing text, if any. */
  lemma WalkLast(s: string, g: Grammar, tf: Option<DisplayTransform>, start: nat, cursor: nat, plain: nat)
    requires WellFormed(g) && start <= |s| && start <= cursor
    requires FirstMatch(g.pattern, s, cursor) == None
    ensures Walk(s, g, tf, start, cursor, plain) == if start < |s| then [TextRun(s[start..], start, plain)] else []
  {
  }

  /** Where a round stops the traversal, and the cursor it leaves. */
  lemma VisitedStep(run: Event, mention: Event, rest: seq<Event>, halt: Event -> bool)
    requires run.TextRun? && mention.Mention?
    ensures var events := [run, mention] + rest;
      Visited(events, halt) ==
        (if halt(run) then [run] else if halt(mention) then [run, mention] else [run, mention] + Visited(rest, halt)) &&
      ResumeCursor(events, halt) ==
        (if halt(run) || halt(mention) then mention.End() else ResumeCursor(rest, halt))
  {
    var events := [run, mention] + rest;
    assert events[1..] == [mention] + rest && events[1..][1..] == rest;
  }

  /** A round that stops neither callback: what is left to visit moves past its mention. */
  lemma VisitedAdvance(events: seq<Event>, visited: seq<Event>, todo: seq<Event>,
                       run: Event, mention: Event, next: seq<Event>, halt: Event -> bool)
    requires run.TextRun? && mention.Mention? && todo == [run, mention] + next && !halt(run) && !halt(mention)
    requires Visited(events, halt) == visited + Visited(todo, halt)
    requires ResumeCursor(events, halt) == ResumeCursor(todo, halt)
    ensures Visited(events, halt) == (visited + [run, mention]) + Visited(next, halt)
    ensures ResumeCursor(events, halt) == ResumeCursor(next, halt)
  {
    VisitedStep(run, mention, next, halt);
    assert visited + ([run, mention] + Visited(next, halt)) == (visited + [run, mention]) + Visited(next, halt);
  }

  /** The trailing text run is always visited, and the cursor ends at 0. */
  lemma VisitedLast(events: seq<Event>, halt: Event -> bool)
    requires |events| <= 1 && (events == [] || events[0].TextRun?)
    ensures Visited(events, halt) == events && ResumeCursor(events, halt) == 0
  {
  }

  /** Two callbacks that agree on every event stop the traversal at the same place. */
  lemma {:induction false} HaltCongruent(events: seq<Event>, h1: Event -> bool, h2: Event -> bool)
    requires forall e :: h1(e) == h2(e)
    ensures Visited(events, h1) == Visited(events, h2)
    ensures ResumeCursor(events, h1) == ResumeCursor(events, h2)
  {
    if events != [] {
      HaltCongruent(events[1..], h1, h2);
    }
  }

  /** Visiting a prefix nobody stops on, then the rest. */
  lemma {:induction false} VisitedAppend(done: seq<Event>, rest: seq<Event>, halt: Event -> bool)
    requires forall k :: 0 <= k < |done| ==> !halt(done[k])
    ensures Visited(done + rest, halt) == done + Visited(rest, halt)
    ensures ResumeCursor(done + rest, halt) == ResumeCursor(rest, halt)
  {
    if done != [] {
      assert (done + rest)[0] == done[0];
      assert (done + rest)[1..] == done[1..] + rest;
      VisitedAppend(done[1..], rest, halt);
    } else {
      assert done + rest == rest;
    }
  }

  /** The callbacks visited end at the first event that returns true. */
  lemma {:induction false} VisitedUpTo(events: seq<Event>, halt: Event -> bool, k: nat)
    requires k < |events| && halt(events[k])
    requires forall j :: 0 <= j < k ==> !halt(events[j])
    ensures Visited(events, halt) == events[..k + 1]
  {
    if k > 0 {
      assert events[1..][k - 1] == events[k];
      VisitedUpTo(events[1..], halt, k - 1);
      assert events[..k + 1] == [events[0]] + events[1..][..k];
    }
  }

  /** The cursor left behind by a stop at event k, whatever the events are. */
  lemma {:induction false} ResumeCursorAt(events: seq<Event>, halt: Event -> bool, k: nat)
    requires k < |events| && halt(events[k]) && forall j :: 0 <= j < k ==> !halt(events[j])
    ensures ResumeCursor(events, halt) ==
      if events[k].Mention? then events[k].End() else if k + 1 < |events| then events[k + 1].End() else 0
  {
    if k > 0 {
      assert events[1..][k - 1] == events[k];
      if k + 1 < |events| {
        assert events[1..][k] == events[k + 1];
      }
      ResumeCursorAt(events[1..], halt, k - 1);
    }
  }

  /** When no callback stops the loop, the regex cursor is back at 0. */
  lemma {:induction false} ResumeCursorNoStop(events: seq<Event>, halt: Event -> bool)
    requires forall k :: 0 <= k < |events| ==> !halt(events[k])
    ensures Visited(events, halt) == events
    ensures ResumeCursor(events, halt) == 0
  {
    if events != [] {
      ResumeCursorNoStop(events[1..], halt);
    }
  }

  /**
   * When the callback for event k is the first to return true and a match
   * is current (k is a mention, or a text run followed by its mention),
   * the regex cursor is left at the end of that match, past its first
   * character.
   */
  lemma ResumeCursorAfterStop(events: seq<Event>, halt: Event -> bool, k: nat)
    requires Alternates(events) && k < |events|
    requires halt(events[k]) && forall j :: 0 <= j < k ==> !halt(events[j])
    requires events[k].Mention? || k + 1 < |events|
    ensures Visited(events, halt) == events[..k + 1]
    ensures var current := if events[k].Mention? then k else k + 1;
      events[current].Mention? && ResumeCursor(events, halt) == events[current].End() > events[current].index
  {
    VisitedUpTo(events, halt, k);
    ResumeCursorAt(events, halt, k);
    MentionFollows(events, k);
  }

  /** In an alternating list, every mention is non-empty and every text run but the last is followed by one. */
  lemma {:induction false} MentionFollows(events: seq<Event>, k: nat)
    requires Alternates(events) && k < |events|
    ensures events[k].Mention? ==> |events[k].markup| > 0
    ensures events[k].TextRun? && k + 1 < |events| ==> events[k + 1].Mention? && |events[k + 1].markup| > 0
  {
    if k >= 2 {
      assert events[2..][k - 2] == events[k];
      if k + 1 < |events| {
        assert events[2..][k - 1] == events[k + 1];
      }
      MentionFollows(events[2..], k - 2);
    }
  }


}

=== FILE: stale_cursor.dfy ===
/**
 * The regex cursor shared between the four lookups of applyChangeToValue,
 * on a concrete edit: Backspace inside the display "John" of
 * `Hello @[John](1), how are you?`, with the caret at 9 before the change
 * and at 8 after it.
 *
 * The START lookup stops at the mention and leaves the cursor at 16, the
 * end of the mention. The END lookup then searches from 16, finds no
 * mention, and sees the whole value as one text run: the end bound maps
 * to 9, inside the mention's markup, instead of 16. The value loses
 * `@[J` and keeps the rest of the markup as plain text.
 */
module StaleCursor {
  import opened Wrappers
  import opened Regex
  import opened Markup
  import opened Scanner
  import opened Offsets
  import opened Reconciler

  const Value: string := "Hello @[John](1), how are you?"
  const NewPlain: string := "Hello Jon, how are you?"

  /** The characters of Value, one by one. */
  predicate SpellsValue(s: string) {
    |s| == 30 &&
    s[0] == 'H' && s[1] == 'e' && s[2] == 'l' && s[3] == 'l' && s[4] == 'o' && s[5] == ' ' &&
    s[6] == '@' && s[7] == '[' && s[8] == 'J' && s[9] == 'o' && s[10] == 'h' && s[11] == 'n' &&
    s[12] == ']' && s[13] == '(' && s[14] == '1' && s[15] == ')' && s[16] == ',' && s[17] == ' ' &&
    s[18] == 'h' && s[19] == 'o' && s[20] == 'w' && s[21] == ' ' && s[22] == 'a' && s[23] == 'r' &&
    s[24] == 'e' && s[25] == ' ' && s[26] == 'y' && s[27] == 'o' && s[28] == 'u' && s[29] == '?'
  }

  const G: Grammar := DefaultGrammar

  /** No match of the default pattern starts where there is no `@` left. */
  lemma {:induction false} NoMatchWithoutAt(s: string, from: nat)
    requires forall k :: from <= k < |s| ==> s[k] != '@'
    ensures FirstMatch(DefaultPattern, s, from) == None
    decreases if from <= |s| then |s| + 1 - from else 0
  {
    if from <= |s| {
      assert MatchFrom(DefaultPattern.atoms, s, from, false) == None;
      NoMatchWithoutAt(s, from + 1);
    }
  }

  lemma ValueMatch(s: string)
    requires SpellsValue(s)
    ensures FirstMatch(DefaultPattern, s, 0) == Some(Match(6, 16, ["John", "1"]))
  {
    var atoms := DefaultPattern.atoms;
    assert MatchFrom(atoms, s, 0, false) == None;
    assert MatchFrom(atoms, s, 1, false) == None;
    assert MatchFrom(atoms, s, 2, false) == None;
    assert MatchFrom(atoms, s, 3, false) == None;
    assert MatchFrom(atoms, s, 4, false) == None;
    assert MatchFrom(atoms, s, 5, false) == None;
    assert s[14..15] == "1";
    assert s[8..12] == "John";
    var tail := [Group(Id), Char(')')];
    assert atoms[5..] == tail;
    assert MatchFrom(tail[1..], s, 15, false) == Some(Span(16, []));
    assert [s[14..15]] + [] == ["1"];
    assert LazyGroup(tail[1..], s, 14, 15, false) == Some(Span(16, ["1"]));
    assert MatchFrom(tail, s, 14, false) == Some(Span(16, ["1"]));
    assert MatchFrom(atoms[3..], s, 12, false) == Some(Span(16, ["1"]));
    assert MatchFrom(atoms[3..], s, 9, false) == None;
    assert MatchFrom(atoms[3..], s, 10, false) == None;
    assert MatchFrom(atoms[3..], s, 11, false) == None;
    assert [s[8..12]] + ["1"] == ["John", "1"];
    assert LazyGroup(atoms[3..], s, 8, 12, false) == Some(Span(16, ["John", "1"]));
    assert LazyGroup(atoms[3..], s, 8, 11, false) == Some(Span(16, ["John", "1"]));
    assert LazyGroup(atoms[3..], s, 8, 10, false) == Some(Span(16, ["John", "1"]));
    assert LazyGroup(atoms[3..], s, 8, 9, false) == Some(Span(16, ["John", "1"]));
    assert MatchFrom(atoms[2..], s, 8, false) == Some(Span(16, ["John", "1"]));
    assert MatchFrom(atoms[1..], s, 7, false) == Some(Span(16, ["John", "1"]));
    var p := DefaultPattern;
    assert FirstMatch(p, s, 6) == Some(Match(6, 16, ["John", "1"]));
    assert FirstMatch(p, s, 5) == FirstMatch(p, s, 6);
    assert FirstMatch(p, s, 4) == FirstMatch(p, s, 5);
    assert FirstMatch(p, s, 3) == FirstMatch(p, s, 4);
    assert FirstMatch(p, s, 2) == FirstMatch(p, s, 3);
    assert FirstMatch(p, s, 1) == FirstMatch(p, s, 2);
  }

  /** The text before the mention, the mention, the text after. */
  lemma ValueSlices(s: string)
    requires SpellsValue(s)
    ensures s[0..6] == "Hello " && s[6..16] == "@[John](1)" && s[16..] == ", how are you?"
  {
  }

  lemma PlainLiteral()
    ensures "Hello " + "John" + ", how are you?" == "Hello John, how are you?"
  {
  }

  /** The id, display and type the mention of Value yields. */
  lemma ValueCaptures()
    ensures WellFormed(G) && Captures(Match(6, 16, ["John", "1"]), G, None) == ("1", "John", None)
  {
    DefaultWellFormed();
  }

  /** With a fresh cursor, in terms of the slices of the value. */
  lemma ValueWalk(s: string)
    requires SpellsValue(s)
    ensures WellFormed(G) && Events(s, G, None) ==
      [TextRun(s[0..6], 0, 0), Mention(s[6..16], 6, 6, "1", "John", None, 0), TextRun(s[16..], 16, 10)]
  {
    ValueCaptures();
    ValueMatch(s);
    NoMatchWithoutAt(s, 16);
    var m := Match(6, 16, ["John", "1"]);
    WalkStep(s, G, None, 0, 0, 0, m);
    WalkLast(s, G, None, 16, 16, 10);
  }

  /** With a fresh cursor: the text before, the mention, the text after. */
  lemma ValueEvents(s: string)
    requires SpellsValue(s)
    ensures WellFormed(G) && Events(s, G, None) ==
      [TextRun("Hello ", 0, 0), Mention("@[John](1)", 6, 6, "1", "John", None, 0), TextRun(", how are you?", 16, 10)]
  {
    ValueWalk(s);
    ValueSlices(s);
  }

  /** From cursor 16 the traversal finds no mention: the whole value is one text run. */
  lemma ValueEventsFrom16(s: string)
    requires SpellsValue(s)
    ensures WellFormed(G) && Walk(s, G, None, 0, 16, 0) == [TextRun(s, 0, 0)]
  {
    DefaultWellFormed();
    NoMatchWithoutAt(s, 16);
  }

  /** getPlainText of the value, in terms of its slices. */
  lemma ValueProject(s: string)
    requires SpellsValue(s)
    ensures WellFormed(G) && Project(s, G, None) == s[0..6] + "John" + s[16..]
  {
    ValueCaptures();
    ValueMatch(s);
    NoMatchWithoutAt(s, 16);
    assert ProjectFrom(s, G, None, 16) == s[16..];
  }

  lemma ValuePlain(s: string)
    requires SpellsValue(s)
    ensures WellFormed(G) && Project(s, G, None) == "Hello John, how are you?"
  {
    ValueProject(s);
    ValueSlices(s);
    PlainLiteral();
  }

  /** The edit read off the selections: remove plain [8, 9), insert nothing. */
  lemma BackspaceEdit(s: string)
    requires SpellsValue(s)
    ensures WellFormed(G) && PlanEdit(|Project(s, G, None)|, NewPlain, At(9), At(9), 8) == Edit("", 8, 9)
  {
    ValuePlain(s);
  }

  /**
   * As written, the four lookups: START stops at the mention and leaves
   * the cursor at 16; END, resuming there, maps 9 within one text run.
   */
  lemma AsWrittenBounds(s: string)
    requires SpellsValue(s)
    ensures WellFormed(G) && MapBounds(s, G, None, Edit("", 8, 9), true) == Bounds(6, 9, NullOffset, Offset(9), 0)
  {
    StartLookups(s);
    EndLookups(s);
  }

  /** Plain index 8 lies in the mention, the second event of a fresh traversal, which leaves the cursor at 16. */
  lemma StartLookups(s: string)
    requires SpellsValue(s)
    ensures WellFormed(G)
    ensures MapFrom(s, G, None, Number(8), Start, 0) == (Offset(6), 16)
    ensures MapFrom(s, G, None, Number(8), Null, 0) == (NullOffset, 16)
  {
    StartLookup(s, Start);
    StartLookup(s, Null);
  }

  lemma StartLookup(s: string, corr: Correction)
    requires SpellsValue(s) && corr != End
    ensures WellFormed(G)
    ensures MapFrom(s, G, None, Number(8), corr, 0) == (if corr == Start then Offset(6) else NullOffset, 16)
  {
    ValueWalk(s);
    MentionLookup(s, G, corr);
  }

  /** On events shaped as Value's, plain index 8 resolves in the mention, and the cursor is left at its end. */
  lemma MentionLookup(s: string, g: Grammar, corr: Correction)
    requires WellFormed(g) && corr != End && |s| >= 16
    requires Events(s, g, None) ==
      [TextRun(s[0..6], 0, 0), Mention(s[6..16], 6, 6, "1", "John", None, 0), TextRun(s[16..], 16, 10)]
    ensures MapFrom(s, g, None, Number(8), corr, 0) == (if corr == Start then Offset(6) else NullOffset, 16)
  {
    MapFromFirst(s, g, None, 8, corr, 0, 1);
  }

  /** Resuming at 16, plain index 9 lies in the single text run, which leaves the cursor at 0. */
  lemma EndLookups(s: string)
    requires SpellsValue(s)
    ensures WellFormed(G)
    ensures MapFrom(s, G, None, Number(9), End, 16) == (Offset(9), 0)
    ensures MapFrom(s, G, None, Number(9), Null, 16) == (Offset(9), 0)
  {
    ValueEventsFrom16(s);
    MapFromFirst(s, G, None, 9, End, 16, 0);
    MapFromFirst(s, G, None, 9, Null, 16, 0);
  }

  lemma AsWrittenText(s: string)
    requires SpellsValue(s)
    ensures s[..6] + s[9..] == "Hello ohn](1), how are you?"
  {
  }

  lemma CorrectedText(s: string)
    requires SpellsValue(s)
    ensures s[..6] + s[16..] == "Hello , how are you?"
  {
  }

  /** As written, from the edit and the bounds: the END lookup's 9 is spliced as is. */
  lemma AsWrittenSplice(s: string, g: Grammar, newPlain: string)
    requires WellFormed(g) && |s| >= 9
    requires PlanEdit(|Project(s, g, None)|, newPlain, At(9), At(9), 8) == Edit("", 8, 9)
    requires MapBounds(s, g, None, Edit("", 8, 9), true) == Bounds(6, 9, NullOffset, Offset(9), 0)
    ensures ApplyChangeAsWritten(s, g, None, newPlain, At(9), At(9), 8, true).value == s[..6] + s[9..]
  {
    RemovalSplice(s, g, None, newPlain, At(9), At(9), 8, Edit("", 8, 9), Bounds(6, 9, NullOffset, Offset(9), 0));
    assert s[..6] + "" + s[9..] == s[..6] + s[9..];
  }

  /** With mentions as units, a start bound that lands in a mention leaves the naive splice as the result. */
  lemma RemovalSplice(s: string, g: Grammar, tf: Option<DisplayTransform>, newPlain: string,
                      startBefore: Bound, endBefore: Bound, endAfter: int, e: Edit, b: Bounds)
    requires WellFormed(g)
    requires PlanEdit(|Project(s, g, tf)|, newPlain, startBefore, endBefore, endAfter) == e
    requires MapBounds(s, g, tf, e, true) == b && b.controlStart.NullOffset?
    ensures ApplyChangeAsWritten(s, g, tf, newPlain, startBefore, endBefore, endAfter, true).value ==
            SpliceString(s, b.mappedStart, b.mappedEnd, e.insert)
  {
  }

  /** As written: the end bound maps to 9, and part of the markup is left behind. */
  lemma AsWrittenSplitsMention(s: string)
    requires SpellsValue(s)
    ensures WellFormed(G) && ApplyChangeAsWritten(s, G, None, NewPlain, At(9), At(9), 8, true).value == "Hello ohn](1), how are you?"
  {
    BackspaceEdit(s);
    AsWrittenBounds(s);
    AsWrittenSplice(s, G, NewPlain);
    AsWrittenText(s);
  }

  /** Corrected, from the events and the edit: mention 1 spans [6, 16) of the value. */
  lemma CorrectedSplice(s: string)
    requires WellFormed(G) && |s| >= 16
    requires PlanEdit(|Project(s, G, None)|, NewPlain, At(9), At(9), 8) == Edit("", 8, 9)
    requires |Events(s, G, None)| == 3 && Events(s, G, None)[1] == Mention("@[John](1)", 6, 6, "1", "John", None, 0)
    ensures ApplyChange(s, G, None, NewPlain, At(9), At(9), 8, true) == s[..6] + s[16..]
  {
    ApplyChangeRemovesMention(s, G, None, NewPlain, At(9), At(9), 8, 1);
  }

  /** Corrected: the whole mention goes. */
  lemma CorrectedRemovesMention(s: string)
    requires SpellsValue(s)
    ensures WellFormed(G) && ApplyChange(s, G, None, NewPlain, At(9), At(9), 8, true) == "Hello , how are you?"
  {
    BackspaceEdit(s);
    ValueEvents(s);
    CorrectedSplice(s);
    CorrectedText(s);
  }

  /** The two side by side on the value itself. */
  lemma StaleCursorFinding()
    ensures WellFormed(G)
    ensures ApplyChangeAsWritten(Value, G, None, NewPlain, At(9), At(9), 8, true).value == "Hello ohn](1), how are you?"
    ensures ApplyChange(Value, G, None, NewPlain, At(9), At(9), 8, true) == "Hello , how are you?"
  {
    assert SpellsValue(Value);
    AsWrittenSplitsMention(Value);
    CorrectedRemovesMention(Value);
  }
}

=== FILE: suggestions.dfy ===
/**
 * Suggestion bookkeeping: the suggestions shown are an object keyed by
 * mention type, each entry holding the results of one query.
 * countSuggestions totals the results, getSuggestions lists them per type
 * and getSuggestion numbers them across types, in key order. The data
 * provider of a Mention filters an array of items by the query.
 */
module Suggestions {
  import opened Wrappers
  import opened JsString
  import opened JsObject

  /** A suggestion: its id and its display, which may be missing. */
  datatype Item = Item(id: string, display: Option<string>)

  /**
   * The `data` prop of a Mention: an array of items, or a query function
   * of the caller's; `answer(query)` is what that function returns at
   * once (nothing when it answers later through the callback).
   */
  datatype DataSource = ArrayData(items: seq<Item>) | QueryFunction(answer: string -> Option<seq<Item>>)

  /** The props of a Mention child that the bookkeeping reads. */
  datatype Descriptor = Descriptor(typ: Option<string>, data: DataSource, appendSpaceOnAdd: bool)
  {
    /** The key its suggestions are filed under: a missing type becomes the key "undefined". */
    function Key(): string {
      typ.GetOr("undefined")
    }
  }

  /** What updateSuggestions files under a mention type. */
  datatype Entry = Entry(query: string, descriptor: Descriptor, queryStart: int, queryEnd: int,
                         results: seq<Item>, plainTextValue: string)

  type SuggestionMap = Object<Entry>

  /** One element of getSuggestions: the results of one mention type and its entry. */
  datatype Group = Group(suggestions: seq<Item>, descriptor: Entry)

  /** One element of getSuggestion: a result and the entry it came from. */
  datatype Focused = Focused(suggestion: Item, descriptor: Entry)

  // ---------------------------------------------------------------------
  // Counting and numbering

  /** The number of results filed under the keys `ks`. */
  function CountOf(s: SuggestionMap, ks: seq<string>): nat
    requires forall k :: k in ks ==> k in s.values
  {
    if ks == [] then 0
    else
      var n := |ks| - 1;
      CountOf(s, ks[..n]) + |s.values[ks[n]].results|
  }

  function Count(s: SuggestionMap): nat
    requires Valid(s)
  {
    CountOf(s, s.keys)
  }

  /** The groups of the keys `ks`, in order. */
  function GroupsOf(s: SuggestionMap, ks: seq<string>): (r: seq<Group>)
    requires forall k :: k in ks ==> k in s.values
    ensures |r| == |ks|
    ensures forall i :: 0 <= i < |ks| ==> r[i] == Group(s.values[ks[i]].results, s.values[ks[i]])
  {
    if ks == [] then []
    else
      var n := |ks| - 1;
      GroupsOf(s, ks[..n]) + [Group(s.values[ks[n]].results, s.values[ks[n]])]
  }

  /** The results of each group paired with its entry, group after group. */
  function Flatten(groups: seq<Group>): seq<Focused> {
    if groups == [] then []
    else
      var n := |groups| - 1;
      Flatten(groups[..n]) + Tagged(groups[n])
  }

  function Tagged(group: Group): (r: seq<Focused>)
    ensures |r| == |group.suggestions|
    ensures forall t :: 0 <= t < |r| ==> r[t] == Focused(group.suggestions[t], group.descriptor)
  {
    seq(|group.suggestions|, t requires 0 <= t < |group.suggestions| => Focused(group.suggestions[t], group.descriptor))
  }

  /** getSuggestion: the index-th result across all mention types, `undefined` past the end. */
  function GetSuggestion(s: SuggestionMap, index: int): (r: Option<Focused>)
    requires Valid(s)
    ensures r.Some? <==> 0 <= index < Count(s)
  {
    var all := Flatten(GroupsOf(s, s.keys));
    FlattenLength(s, s.keys);
    if 0 <= index < |all| then Some(all[index]) else None
  }

  /** There are as many numbered results as countSuggestions counts. */
  lemma {:induction false} FlattenLength(s: SuggestionMap, ks: seq<string>)
    requires forall k :: k in ks ==> k in s.values
    ensures |Flatten(GroupsOf(s, ks))| == CountOf(s, ks)
  {
    if ks != [] {
      var n := |ks| - 1;
      FlattenLength(s, ks[..n]);
      var groups := GroupsOf(s, ks);
      assert groups[..n] == GroupsOf(s, ks[..n]);
    }
  }

  /** The groups of the first m keys are the first m groups. */
  lemma {:induction false} GroupsOfPrefix(s: SuggestionMap, ks: seq<string>, m: nat)
    requires forall k :: k in ks ==> k in s.values
    requires m <= |ks|
    ensures GroupsOf(s, ks[..m]) == GroupsOf(s, ks)[..m]
  {
    if m < |ks| {
      var n := |ks| - 1;
      assert ks[..n][..m] == ks[..m];
      GroupsOfPrefix(s, ks[..n], m);
      assert GroupsOf(s, ks)[..n] == GroupsOf(s, ks[..n]);
    } else {
      assert ks[..m] == ks;
    }
  }

  /** The results of the first m groups are numbered first. */
  lemma {:induction false} FlattenPrefix(groups: seq<Group>, m: nat)
    requires m <= |groups|
    ensures var front := Flatten(groups[..m]);
      |front| <= |Flatten(groups)| && Flatten(groups)[..|front|] == front
  {
    if m < |groups| {
      var n := |groups| - 1;
      assert groups[..n][..m] == groups[..m];
      FlattenPrefix(groups[..n], m);
    } else {
      assert groups[..m] == groups;
    }
  }

  /** The t-th result of group j comes right after the results of the groups before it. */
  lemma FlattenAt(groups: seq<Group>, j: nat, t: nat)
    requires j < |groups| && t < |groups[j].suggestions|
    ensures var at := |Flatten(groups[..j])| + t;
      at < |Flatten(groups)| && Flatten(groups)[at] == Focused(groups[j].suggestions[t], groups[j].descriptor)
  {
    FlattenPrefix(groups, j + 1);
    assert groups[..j + 1][..j] == groups[..j];
    var front := Flatten(groups[..j]);
    assert Flatten(groups[..j + 1]) == front + Tagged(groups[j]);
  }

  /**
   * The t-th result of the j-th mention type is numbered after all the
   * results of the types before it.
   */
  lemma SuggestionAt(s: SuggestionMap, j: nat, t: nat)
    requires Valid(s) && j < |s.keys| && t < |s.values[s.keys[j]].results|
    ensures var e := s.values[s.keys[j]];
      GetSuggestion(s, CountOf(s, s.keys[..j]) + t) == Some(Focused(e.results[t], e))
  {
    var e := s.values[s.keys[j]];
    var groups := GroupsOf(s, s.keys);
    FlattenAt(groups, j, t);
    GroupsOfPrefix(s, s.keys, j);
    FlattenLength(s, s.keys[..j]);
    var at := CountOf(s, s.keys[..j]) + t;
    assert at == |Flatten(groups[..j])| + t;
    assert groups[j] == Group(e.results, e);
    assert Flatten(groups)[at] == Focused(e.results[t], e);
  }

  /** countSuggestions: the loop over the own keys, adding up the results. */
  method CountSuggestions(s: SuggestionMap) returns (result: nat)
    requires Valid(s)
    ensures result == Count(s)
  {
    result := 0;
    var i := 0;
    while i < |s.keys|
      invariant 0 <= i <= |s.keys|
      invariant result == CountOf(s, s.keys[..i])
    {
      var prop := s.keys[i];
      assert s.keys[..i + 1][..i] == s.keys[..i];
      result := result + |s.values[prop].results|;
      i := i + 1;
    }
    assert s.keys[..i] == s.keys;
  }

  /** getSuggestions: the loop over the own keys, one group per mention type. */
  method GetSuggestions(s: SuggestionMap) returns (result: seq<Group>)
    requires Valid(s)
    ensures result == GroupsOf(s, s.keys)
    ensures |result| == |s.keys| && forall i :: 0 <= i < |result| ==> result[i].descriptor == s.values[s.keys[i]]
  {
    result := [];
    var i := 0;
    while i < |s.keys|
      invariant 0 <= i <= |s.keys|
      invariant result == GroupsOf(s, s.keys[..i])
    {
      var mentionType := s.keys[i];
      assert s.keys[..i + 1][..i] == s.keys[..i];
      result := result + [Group(s.values[mentionType].results, s.values[mentionType])];
      i := i + 1;
    }
    assert s.keys[..i] == s.keys;
  }

  // ---------------------------------------------------------------------
  // Filing the results of a query

  /**
   * What `extend({}, current, { [key]: entry })` builds: the entry set
   * under its mention type, the other types kept in place.
   */
  function Filed(current: SuggestionMap, entry: Entry): SuggestionMap {
    Put(current, entry.descriptor.Key(), entry)
  }

  /** extend really builds it. */
  lemma ExtendFiles(current: SuggestionMap, entry: Entry)
    requires Valid(current)
    ensures var sources := [current, Single(entry.descriptor.Key(), entry)];
      AllValid(sources) && ExtendAll(Empty(), sources) == Filed(current, entry)
  {
    ExtendCopyThenPut(current, entry.descriptor.Key(), entry);
  }

  /** The entries filed one after another onto `base`. */
  function FileOnto(base: SuggestionMap, entries: seq<Entry>): SuggestionMap
  {
    if entries == [] then base
    else
      var n := |entries| - 1;
      Filed(FileOnto(base, entries[..n]), entries[n])
  }

  /** The entries filed one after another onto `{}`. */
  function FileAll(entries: seq<Entry>): SuggestionMap {
    FileOnto(Empty(), entries)
  }

  /** Filing two runs of entries in turn is filing them all. */
  lemma {:induction false} FileOntoAppend(base: SuggestionMap, earlier: seq<Entry>, later: seq<Entry>)
    ensures FileOnto(base, earlier + later) == FileOnto(FileOnto(base, earlier), later)
  {
    if later == [] {
      assert earlier + later == earlier;
    } else {
      var n := |later| - 1;
      assert (earlier + later)[..|earlier| + n] == earlier + later[..n];
      FileOntoAppend(base, earlier, later[..n]);
    }
  }

  /** The last of the entries filed under `key`. */
  function LatestFor(entries: seq<Entry>, key: string): Option<Entry> {
    if entries == [] then None
    else
      var n := |entries| - 1;
      if entries[n].descriptor.Key() == key then Some(entries[n]) else LatestFor(entries[..n], key)
  }

  /**
   * After a run of filings onto an object, each mention type the run
   * filed holds its latest entry, and every other type keeps what the
   * object had.
   */
  lemma {:induction false} FileOntoGet(base: SuggestionMap, entries: seq<Entry>)
    ensures forall k ::
      Get(FileOnto(base, entries), k) == if LatestFor(entries, k).Some? then LatestFor(entries, k) else Get(base, k)
  {
    if entries != [] {
      var n := |entries| - 1;
      FileOntoGet(base, entries[..n]);
    }
  }

  /** After a run of filings onto `{}`, each mention type holds its latest entry, and no other type has one. */
  lemma FileAllGet(entries: seq<Entry>)
    ensures forall k :: Get(FileAll(entries), k) == LatestFor(entries, k)
  {
    FileOntoGet(Empty(), entries);
  }

  // ---------------------------------------------------------------------
  // The array data provider

  /** toLowerCase on the ASCII letters. */
  function LowerChar(c: char): char {
    if 'A' <= c <= 'Z' then (c as int + 32) as char else c
  }

  function ToLower(s: string): (r: string)
    ensures |r| == |s| && forall i :: 0 <= i < |s| ==> r[i] == LowerChar(s[i])
  {
    seq(|s|, i requires 0 <= i < |s| => LowerChar(s[i]))
  }

  /** Lower-casing twice changes nothing more. */
  lemma ToLowerIdempotent(s: string)
    ensures ToLower(ToLower(s)) == ToLower(s)
  {
    assert forall i :: 0 <= i < |s| ==> LowerChar(LowerChar(s[i])) == LowerChar(s[i]);
  }

  /** `item.display || item.id`: a missing or empty display falls back to the id. */
  function DisplayOf(item: Item): string {
    if item.display.Some? && item.display.value != "" then item.display.value else item.id
  }

  /** The test the provider makes: the query occurs in the display, ignoring case. */
  predicate Matches(item: Item, query: string) {
    IndexOf(ToLower(DisplayOf(item)), ToLower(query)) >= 0
  }

  /** The items that match, in their original order. */
  function Filter(items: seq<Item>, query: string): seq<Item> {
    if items == [] then []
    else
      var n := |items| - 1;
      Filter(items[..n], query) + (if Matches(items[n], query) then [items[n]] else [])
  }

  /** The provider keeps exactly the items that match. */
  lemma {:induction false} FilterExactly(items: seq<Item>, query: string)
    ensures forall x :: x in Filter(items, query) <==> x in items && Matches(x, query)
  {
    if items != [] {
      var n := |items| - 1;
      FilterExactly(items[..n], query);
      assert items == items[..n] + [items[n]];
    }
  }

  /** It keeps their order: filtering two runs of items one after the other is filtering both. */
  lemma {:induction false} FilterAppend(a: seq<Item>, b: seq<Item>, query: string)
    ensures Filter(a + b, query) == Filter(a, query) + Filter(b, query)
    decreases |b|
  {
    if b != [] {
      var n := |b| - 1;
      assert (a + b)[..|a| + n] == a + b[..n];
      FilterAppend(a, b[..n], query);
    } else {
      assert a + b == a;
    }
  }

  /** Case does not matter in the query. */
  lemma MatchesIgnoresQueryCase(item: Item, query: string)
    ensures Matches(item, query) == Matches(item, ToLower(query))
  {
    ToLowerIdempotent(query);
  }

  /** What the data provider of a Mention returns at once for a query. */
  function Provided(data: DataSource, query: string): Option<seq<Item>> {
    match data
    case ArrayData(items) => Some(Filter(items, query))
    case QueryFunction(answer) => answer(query)
  }

  /**
   * `_getDataProvider(data)(query, callback)`: for an array, the loop
   * pushing every item that matches; otherwise the caller's function,
   * whatever it returns at once.
   */
  method ProvideData(data: DataSource, query: string) returns (results: Option<seq<Item>>)
    ensures data.ArrayData? ==> results == Some(Filter(data.items, query))
    ensures data.QueryFunction? ==> results == data.answer(query)
    ensures results == Provided(data, query)
  {
    if data.ArrayData? {
      var items := data.items;
      var found := [];
      var i := 0;
      while i < |items|
        invariant 0 <= i <= |items|
        invariant found == Filter(items[..i], query)
      {
        var display := DisplayOf(items[i]);
        assert items[..i + 1][..i] == items[..i];
        if IndexOf(ToLower(display), ToLower(query)) >= 0 {
          found := found + [items[i]];
        }
        i := i + 1;
      }
      assert items[..i] == items;
      results := Some(found);
    } else {
      results := data.answer(query);
    }
  }
}

=== FILE: utils.dfy ===
/**
 * The utility operations as the source runs them: every operation
 * fetches the template's regex from the module-level cache, and every
 * traversal resumes at the `lastIndex` the previous one left on that
 * shared regex. Each method is proved equal to the pure function of the
 * value and that cursor; the cursor it leaves behind is stated too.
 */
module Utils {
  import opened Wrappers
  import opened JsString
  import opened Regex
  import opened Markup
  import opened Scanner
  import opened Offsets
  import opened Reconciler
  import opened Mentions

  /**
   * The loop of iterateMentionsMarkup on a regex whose search resumes at
   * its `lastIndex`: the callbacks made, up to and including the first
   * that returns true, and the regex left where the loop stopped.
   */
  method Scan(regex: RegExp, value: string, g: Grammar, halt: Event -> bool, tf: Option<DisplayTransform>)
    returns (visited: seq<Event>)
    requires WellFormed(g) && regex.pattern == g.pattern
    modifies regex
    ensures var events := Walk(value, g, tf, 0, old(regex.lastIndex), 0);
      visited == Visited(events, halt) && regex.lastIndex == ResumeCursor(events, halt)
  {
    ghost var events := Walk(value, g, tf, 0, regex.lastIndex, 0);
    ghost var todo := events;
    var start: nat, plain: nat := 0, 0;
    visited := [];
    while true
      invariant start <= |value| && start <= regex.lastIndex
      invariant todo == Walk(value, g, tf, start, regex.lastIndex, plain)
      invariant Visited(events, halt) == visited + Visited(todo, halt)
      invariant ResumeCursor(events, halt) == ResumeCursor(todo, halt)
      decreases if regex.lastIndex <= |value| then |value| + 1 - regex.lastIndex else 0
    {
      ghost var cursor := regex.lastIndex;
      var found := regex.Exec(value);
      if found.None? {
        WalkLast(value, g, tf, start, cursor, plain);
        VisitedLast(todo, halt);
        if start < |value| {
          var run := TextRun(value[start..], start, plain);
          // the trailing callback's answer is ignored: there is nothing left to stop
          var _ := halt(run);
          visited := visited + [run];
        }
        return;
      }
      var m := found.value;
      WalkStep(value, g, tf, start, cursor, plain, m);
      var run := RunBefore(value, start, plain, m);
      var mention := MentionAt(value, g, tf, start, plain, m);
      ghost var next := Walk(value, g, tf, m.end, m.end, mention.PlainEnd());
      VisitedStep(run, mention, next, halt);
      if halt(run) {
        return visited + [run];
      }
      if halt(mention) {
        return visited + [run, mention];
      }
      VisitedAdvance(events, visited, todo, run, mention, next, halt);
      plain := mention.PlainEnd();
      start := regex.lastIndex;
      todo := next;
      visited := visited + [run, mention];
    }
  }

  /**
   * The two cache lookups every operation starts with: the template's
   * regex and its capture positions, which together are its grammar.
   */
  method Lookup(reg: Registry, markup: string) returns (regex: RegExp, r: Result<Grammar, string>)
    requires reg.Valid() && Supported(markup)
    modifies reg
    ensures forall x :: x in reg.regexCache.Values ==> x in old(reg.regexCache.Values) || fresh(x)
    ensures markup in reg.regexCache && (markup in old(reg.regexCache) ==> reg.regexCache == old(reg.regexCache))
    ensures reg.Valid() && r == GrammarOf(markup)
    ensures markup in reg.regexCache && reg.regexCache[markup] == regex
    ensures regex.lastIndex == old(reg.CursorFor(markup))
    ensures r.Success? ==> WellFormed(r.value) && regex.pattern == r.value.pattern
  {
    regex := reg.GetMarkupRegex(markup);
    var positions := reg.GetCapturingGroupPositions(markup);
    GrammarOfFails(markup);
    if positions.Failure? {
      return regex, Failure(positions.error);
    }
    GrammarOfParts(markup, positions.value);
    return regex, Success(Grammar(regex.pattern, positions.value));
  }

  /**
   * iterateMentionsMarkup: the loop above on the cached regex of the
   * template, so it starts from the cursor that regex holds. A template
   * without id and display placeholders is rejected.
   */
  method IterateMentionsMarkup(reg: Registry, value: string, markup: string, halt: Event -> bool, tf: Option<DisplayTransform>)
    returns (r: Result<seq<Event>, string>)
    requires reg.Valid() && Supported(markup)
    modifies reg, reg.regexCache.Values
    ensures forall x :: x in reg.regexCache.Values ==> x in old(reg.regexCache.Values) || fresh(x)
    ensures markup in reg.regexCache && (markup in old(reg.regexCache) ==> reg.regexCache == old(reg.regexCache))
    ensures reg.Valid()
    ensures r.Failure? <==> GrammarOf(markup).Failure?
    ensures r.Success? ==>
      var g := GrammarOf(markup).value;
      var events := Walk(value, g, tf, 0, old(reg.CursorFor(markup)), 0);
      WellFormed(g) && r.value == Visited(events, halt) && reg.CursorFor(markup) == ResumeCursor(events, halt)
  {
    var regex, g := Lookup(reg, markup);
    if g.Failure? {
      return Failure(g.error);
    }
    var visited := Scan(regex, value, g.value, halt, tf);
    return Success(visited);
  }

  /**
   * `value.replace(regex, callback)` with a global regex: every match,
   * searched from 0 whatever the regex held, replaced by the callback's
   * value; having run out of matches, the search leaves the regex at 0.
   */
  method ReplaceMentions(regex: RegExp, value: string, g: Grammar, tf: Option<DisplayTransform>) returns (text: string)
    requires WellFormed(g) && regex.pattern == g.pattern
    modifies regex
    ensures text == Project(value, g, tf) && regex.lastIndex == 0
  {
    text := Project(value, g, tf);
    regex.lastIndex := 0;
  }

  /** getPlainText: every mention replaced by its (transformed) display. */
  method GetPlainText(reg: Registry, value: string, markup: string, tf: Option<DisplayTransform>) returns (r: Result<string, string>)
    requires reg.Valid() && Supported(markup)
    modifies reg, reg.regexCache.Values
    ensures forall x :: x in reg.regexCache.Values ==> x in old(reg.regexCache.Values) || fresh(x)
    ensures markup in reg.regexCache && (markup in old(reg.regexCache) ==> reg.regexCache == old(reg.regexCache))
    ensures reg.Valid()
    ensures r.Failure? <==> GrammarOf(markup).Failure?
    ensures r.Success? ==>
      var g := GrammarOf(markup).value;
      WellFormed(g) && r.value == Project(value, g, tf) && reg.CursorFor(markup) == 0
  {
    var regex, g := Lookup(reg, markup);
    if g.Failure? {
      return Failure(g.error);
    }
    var text := ReplaceMentions(regex, value, g.value, tf);
    return Success(text);
  }

  /** mapPlainTextIndex, from the cursor the cached regex holds. */
  method MapPlainTextIndex(reg: Registry, value: string, markup: string, arg: IndexArg, corr: Correction,
                           tf: Option<DisplayTransform>) returns (r: Result<Mapped, string>)
    requires reg.Valid() && Supported(markup)
    modifies reg, reg.regexCache.Values
    ensures forall x :: x in reg.regexCache.Values ==> x in old(reg.regexCache.Values) || fresh(x)
    ensures (arg.Number? ==> markup in reg.regexCache) && (markup in old(reg.regexCache) ==> reg.regexCache == old(reg.regexCache))
    ensures reg.Valid()
    ensures arg.Other? ==> r == Success(Unmapped(arg)) && reg.CursorFor(markup) == old(reg.CursorFor(markup))
    ensures arg.Number? ==> (r.Failure? <==> GrammarOf(markup).Failure?)
    ensures arg.Number? && r.Success? ==>
      var g := GrammarOf(markup).value;
      var (mapped, cursor) := MapFrom(value, g, tf, arg, corr, old(reg.CursorFor(markup)));
      WellFormed(g) && r.value == mapped && reg.CursorFor(markup) == cursor
  {
    if arg.Other? {
      return Success(Unmapped(arg));
    }
    ghost var cursor := reg.CursorFor(markup);
    var halt := (e: Event) => Reaches(arg.n, e);
    var visited := IterateMentionsMarkup(reg, value, markup, halt, tf);
    if visited.Failure? {
      return Failure(visited.error);
    }
    ghost var g := GrammarOf(markup).value;
    ghost var events := Walk(value, g, tf, 0, cursor, 0);
    HaltCongruent(events, halt, (e: Event) => Reaches(arg.n, e));
    var v := visited.value;
    // when the value ends inside a mention (or is empty), no callback stores a result
    var mapped := if v != [] && halt(v[|v| - 1]) then Resolve(v[|v| - 1], arg.n, corr) else Offset(|value|);
    return Success(mapped);
  }

  /** findStartOfMentionInPlainText, from the cursor the cached regex holds. */
  method FindStartOfMentionInPlainText(reg: Registry, value: string, markup: string, i: int, tf: Option<DisplayTransform>)
    returns (r: Result<Option<nat>, string>)
    requires reg.Valid() && Supported(markup)
    modifies reg, reg.regexCache.Values
    ensures forall x :: x in reg.regexCache.Values ==> x in old(reg.regexCache.Values) || fresh(x)
    ensures markup in reg.regexCache && (markup in old(reg.regexCache) ==> reg.regexCache == old(reg.regexCache))
    ensures reg.Valid()
    ensures r.Failure? <==> GrammarOf(markup).Failure?
    ensures r.Success? ==>
      var g := GrammarOf(markup).value;
      var (start, cursor) := FindStartFrom(value, g, tf, i, old(reg.CursorFor(markup)));
      WellFormed(g) && r.value == start && reg.CursorFor(markup) == cursor
  {
    ghost var cursor := reg.CursorFor(markup);
    var halt := (e: Event) => Covers(i, e);
    var visited := IterateMentionsMarkup(reg, value, markup, halt, tf);
    if visited.Failure? {
      return Failure(visited.error);
    }
    ghost var g := GrammarOf(markup).value;
    ghost var events := Walk(value, g, tf, 0, cursor, 0);
    HaltCongruent(events, halt, (e: Event) => Covers(i, e));
    var v := visited.value;
    var start := if v != [] && halt(v[|v| - 1]) then Some(v[|v| - 1].plainIndex) else None;
    return Success(start);
  }

  /** isInsideOfMention: a mention covers i and does not start at it. */
  method IsInsideOfMention(reg: Registry, value: string, markup: string, i: int, tf: Option<DisplayTransform>)
    returns (r: Result<bool, string>)
    requires reg.Valid() && Supported(markup)
    modifies reg, reg.regexCache.Values
    ensures forall x :: x in reg.regexCache.Values ==> x in old(reg.regexCache.Values) || fresh(x)
    ensures markup in reg.regexCache && (markup in old(reg.regexCache) ==> reg.regexCache == old(reg.regexCache))
    ensures reg.Valid()
    ensures r.Failure? <==> GrammarOf(markup).Failure?
    ensures r.Success? ==>
      var g := GrammarOf(markup).value;
      var (start, cursor) := FindStartFrom(value, g, tf, i, old(reg.CursorFor(markup)));
      WellFormed(g) && r.value == (start.Some? && start.value != i) && reg.CursorFor(markup) == cursor
  {
    var start := FindStartOfMentionInPlainText(reg, value, markup, i, tf);
    if start.Failure? {
      return Failure(start.error);
    }
    return Success(start.value.Some? && start.value.value != i);
  }

  /** getMentions: every mention callback pushes a record; nothing stops the traversal, which ends at cursor 0. */
  method GetMentions(reg: Registry, value: string, markup: string) returns (r: Result<seq<MentionRecord>, string>)
    requires reg.Valid() && Supported(markup)
    modifies reg, reg.regexCache.Values
    ensures forall x :: x in reg.regexCache.Values ==> x in old(reg.regexCache.Values) || fresh(x)
    ensures markup in reg.regexCache && (markup in old(reg.regexCache) ==> reg.regexCache == old(reg.regexCache))
    ensures reg.Valid()
    ensures r.Failure? <==> GrammarOf(markup).Failure?
    ensures r.Success? ==>
      var g := GrammarOf(markup).value;
      WellFormed(g) && r.value == Records(Walk(value, g, None, 0, old(reg.CursorFor(markup)), 0)) &&
      reg.CursorFor(markup) == 0
  {
    ghost var cursor := reg.CursorFor(markup);
    var never := (e: Event) => false;
    var visited := IterateMentionsMarkup(reg, value, markup, never, None);
    if visited.Failure? {
      return Failure(visited.error);
    }
    ghost var g := GrammarOf(markup).value;
    ResumeCursorNoStop(Walk(value, g, None, 0, cursor, 0), never);
    // the mention callback pushes one record per mention
    return Success(Records(visited.value));
  }

  /**
   * The diff loop of applyChangeToValue: the first index at which the two
   * texts differ (one of them may have ended there).
   */
  method FindDifference(a: string, b: string) returns (k: nat)
    requires a != b
    ensures k == FirstDifference(a, b)
  {
    k := 0;
    while CharAt(a, k) == CharAt(b, k)
      invariant k <= |a| && k <= |b| && a[..k] == b[..k]
      invariant FirstDifference(a, b) == FirstDifferenceFrom(a, b, k)
      decreases |a| - k
    {
      k := k + 1;
    }
  }

  /**
   * The four lookups of the splice bounds in applyChangeToValue, back to
   * back on the shared regex, which getPlainText has just reset to 0.
   */
  method MapSpliceBounds(reg: Registry, value: string, markup: string, e: Edit, tf: Option<DisplayTransform>)
    returns (mappedStart: int, mappedEnd: int, controlStart: Mapped, controlEnd: Mapped)
    requires reg.Valid() && Supported(markup) && GrammarOf(markup).Success? && reg.CursorFor(markup) == 0
    requires markup in reg.regexCache
    modifies reg, reg.regexCache.Values
    ensures reg.regexCache == old(reg.regexCache)
    ensures reg.Valid() && WellFormed(GrammarOf(markup).value)
    ensures var b := MapBounds(value, GrammarOf(markup).value, tf, e, true);
      mappedStart == b.mappedStart && mappedEnd == b.mappedEnd && controlStart == b.controlStart &&
      controlEnd == b.controlEnd && reg.CursorFor(markup) == b.cursor
  {
    var ms := MapPlainTextIndex(reg, value, markup, Number(e.spliceStart), Start, tf);
    var me := MapPlainTextIndex(reg, value, markup, Number(e.spliceEnd), End, tf);
    var cs := MapPlainTextIndex(reg, value, markup, Number(e.spliceStart), Null, tf);
    var ce := MapPlainTextIndex(reg, value, markup, Number(e.spliceEnd), Null, tf);
    mappedStart, mappedEnd, controlStart, controlEnd := ms.value.n, me.value.n, cs.value, ce.value;
  }

  /** The auto-correction repair of applyChangeToValue, after getPlainText has reset the cursor to 0. */
  method RepairValue(reg: Registry, value: string, markup: string, oldPlain: string, newPlain: string,
                     control: string, endAfter: int, tf: Option<DisplayTransform>)
    returns (newValue: string)
    requires reg.Valid() && Supported(markup) && GrammarOf(markup).Success? && reg.CursorFor(markup) == 0
    requires markup in reg.regexCache
    requires newPlain != control
    modifies reg, reg.regexCache.Values
    ensures reg.regexCache == old(reg.regexCache)
    ensures reg.Valid() && WellFormed(GrammarOf(markup).value)
    ensures var o := Repair(value, GrammarOf(markup).value, tf, oldPlain, newPlain, control, endAfter, true);
      newValue == o.value && reg.CursorFor(markup) == o.cursor
  {
    var spliceStart := FindDifference(newPlain, control);
    var insert := Slice(newPlain, spliceStart, endAfter);
    var spliceEnd := LastIndexOf(oldPlain, SubstringFrom(newPlain, endAfter));
    var start := MapPlainTextIndex(reg, value, markup, Number(spliceStart), Start, tf);
    var end := MapPlainTextIndex(reg, value, markup, Number(spliceEnd), End, tf);
    newValue := SpliceString(value, start.value.n, end.value.n, insert);
  }

  /**
   * applyChangeToValue as written: the old plain text, the four lookups
   * of the splice bounds one after the other on the shared regex, the
   * splice, and the auto-correction repair when re-projecting the result
   * does not give the new plain text. With `unit` false (the
   * `treatMentionAsUnit` option off), an edit inside a mention is never
   * treated as removing it.
   */
  method ApplyChangeToValue(reg: Registry, value: string, markup: string, newPlain: string,
                            startBefore: Bound, endBefore: Bound, endAfter: int, tf: Option<DisplayTransform>, unit: bool)
    returns (r: Result<string, string>)
    requires reg.Valid() && Supported(markup)
    modifies reg, reg.regexCache.Values
    ensures forall x :: x in reg.regexCache.Values ==> x in old(reg.regexCache.Values) || fresh(x)
    ensures markup in reg.regexCache && (markup in old(reg.regexCache) ==> reg.regexCache == old(reg.regexCache))
    ensures reg.Valid()
    ensures r.Failure? <==> GrammarOf(markup).Failure?
    ensures r.Success? ==>
      var g := GrammarOf(markup).value;
      WellFormed(g) &&
      var out := ApplyChangeAsWritten(value, g, tf, newPlain, startBefore, endBefore, endAfter, unit);
      r.value == out.value && reg.CursorFor(markup) == out.cursor
  {
    var oldPlain := GetPlainText(reg, value, markup, tf);
    if oldPlain.Failure? {
      return Failure(oldPlain.error);
    }
    var newValue := SpliceChange(reg, value, markup, oldPlain.value, newPlain, startBefore, endBefore, endAfter, tf, unit);
    return Success(newValue);
  }

  /** applyChangeToValue once the old plain text is known and the cursor reset to 0. */
  method SpliceChange(reg: Registry, value: string, markup: string, oldPlain: string, newPlain: string,
                      startBefore: Bound, endBefore: Bound, endAfter: int, tf: Option<DisplayTransform>, unit: bool)
    returns (newValue: string)
    requires reg.Valid() && Supported(markup) && GrammarOf(markup).Success? && reg.CursorFor(markup) == 0
    requires markup in reg.regexCache
    requires WellFormed(GrammarOf(markup).value) && oldPlain == Project(value, GrammarOf(markup).value, tf)
    modifies reg, reg.regexCache.Values
    ensures reg.regexCache == old(reg.regexCache)
    ensures reg.Valid()
    ensures var out := ApplyChangeAsWritten(value, GrammarOf(markup).value, tf, newPlain, startBefore, endBefore, endAfter, unit);
      newValue == out.value && reg.CursorFor(markup) == out.cursor
  {
    var e := PlanEdit(|oldPlain|, newPlain, startBefore, endBefore, endAfter);
    var mappedStart, mappedEnd, controlStart, controlEnd := MapSpliceBounds(reg, value, markup, e, tf);
    var willRemoveMention := unit && (controlStart.NullOffset? || controlEnd.NullOffset?);
    newValue := SpliceString(value, mappedStart, mappedEnd, e.insert);
    if !willRemoveMention {
      var control := GetPlainText(reg, newValue, markup, tf);
      if control.value != newPlain {
        newValue := RepairValue(reg, value, markup, oldPlain, newPlain, control.value, endAfter, tf);
      }
    }
  }
}

=== FILE: wrappers.dfy ===
/** Option and Result values used for JavaScript's `undefined` and for thrown errors. */
module Wrappers {

  datatype Option<+T> = None | Some(value: T) {
    /** The wrapped value, or `default` when there is none. */
    function GetOr(default: T): T {
      if Some? then value else default
    }
  }

  datatype Result<+T, +E> = Success(value: T) | Failure(error: E)
}
